=== FILE: README.md ===
# OASIS quorum calculator: committee import, meeting export and user administration

This project is a Dafny model of three parts of the OASIS quorum calculator.

- **`importcommittee`** (`cmd/importcommittee/main.go`) reads a committee's attendance spreadsheet. It works in these steps:
  - It reads the user rows and the dated meeting columns.
  - It resolves every name to a nickname of the user directory.
  - It deletes the committee's old meetings, membership history and leaves of absence.
  - It replays the meetings in date order. Before each meeting, first-time attendees are added to the committee. Then the leaves of absence for that date are stored. Then the meeting is stored, its attendance is recorded and it is concluded.
- **`exportmeeting`** (`cmd/exportmeeting/main.go`) goes the other way. It writes the stored meetings of a committee as a spreadsheet: four metadata rows, then one row per attendee, marking the meetings they attended.
- **The user handlers of the web front end** (`pkg/web/user.go`):
  - the profile and user-edit forms, with the password rules;
  - the bulk delete, which never deletes `admin` or the current user;
  - user creation;
  - the grouping of the `member<ID>` / `manager<ID>` check boxes into per-committee role lists.

The model is functional. The database is an immutable `Store` value. Each SQL statement of the import is a function from store to store (module `Models`).

Some things the program does not control, or takes from code outside this model, are parameters:

- the date parser (`time.Parse`) and the time formatter;
- the order in which Go iterates over a map;
- the user lookup of the export;
- the directory of users;
- the role parser (`models.ParseRole`).

Times are whole seconds. Go's zero `time.Time` is `ZeroTime`, which is -62135596800.

Modules, one per file:

| file | module | models |
|---|---|---|
| `wrappers.dfy` | `Wrappers` | `Option`, `Result` and the `:-` operator |
| `text.dfy` | `Text` | `strings.TrimSpace`, `ToLower`, `Contains`, `HasSuffix`, comma split/join |
| `grid.dfy` | `Grid` | the row-to-column transpose of the spreadsheet |
| `users.dfy` | `UserTable` | `extractUsers` |
| `meetings.dfy` | `MeetingTable` | `extractMeetings`: meeting columns, first appearances, leaves, sorting |
| `table.dfy` | `CommitteeTable` | `loadCSV` |
| `identity.dfy` | `Identity` | `fuzzyMatchUser`, `replaceNamesByNicknames` |
| `models.dfy` | `Models` | the store and the SQL statements the import issues |
| `import.dfy` | `Import` | `findUser`, `storeNewMembers`, `storeAbsences`, `findCommittee`, `run` |
| `export.dfy` | `Export` | the export's `run`: user index, metadata rows, attendee matrix |
| `webuser.dfy` | `WebUser` | `userStore`/`userEditStore`, `usersStore`, `userCreateStore`, `userCommitteesStore` |

## Model

| member | source | states |
|---|---|---|
| Text.TrimSpace | cmd/importcommittee/main.go:265-267 | the trimmed name neither starts nor ends with white space, and is never longer than the input |
| Text.TrimSpaceInfix | cmd/importcommittee/main.go:265-267 | the result is a slice of the input with only white space cut off on either side |
| Text.TrimSpaceIdempotent | cmd/importcommittee/main.go:229-230 | trimming an already trimmed name changes nothing |
| Text.LowerChar | cmd/importcommittee/main.go:274 | upper-case ASCII letters, the capital I with dot above and the Kelvin sign become their lower-case ASCII letters; every other character outside `A`-`Z` stays |
| Text.ToLower | cmd/importcommittee/main.go:274 | lower-casing keeps the length and lower-cases every character on its own |
| Text.ToLowerTrimSpace | cmd/importcommittee/main.go:274 | lower-casing and trimming commute |
| Text.ContainsIffOccurs | cmd/importcommittee/main.go:124-125 | `strings.Contains` holds exactly when the substring occurs at some position |
| Text.JoinSplit | cmd/exportmeeting/main.go:97 | splitting at commas and joining with commas gives back the input |
| Text.SplitJoin | cmd/exportmeeting/main.go:97 | joining comma-free names and splitting again gives back the same names |
| Grid.Transpose | cmd/importcommittee/main.go:187-196 | there are as many columns as the first row has cells, and column `i` collects cell `i` of every row long enough to have one |
| Grid.ColumnCellSource | cmd/importcommittee/main.go:190-195 | cell `k` of column `i` is cell `i` of the `k`-th row that reaches column `i` |
| Grid.ColumnOfFullRows | cmd/importcommittee/main.go:190-195 | while all rows reach column `i`, cell `j` of the column is cell `i` of row `j` |
| Grid.RectangularColumn | cmd/importcommittee/main.go:187-196 | on a grid whose rows all have the first row's width, column `i` holds cell `i` of every row in row order |
| Grid.ShortRowShiftsCells | cmd/importcommittee/main.go:191-194 | for `extractMeetings` on its own, a short row makes the later cells of a column move up, so a name can land under the date row; such a grid is not rectangular, so `loadCSV` rejects it before |
| UserTable.ParseUserRow | cmd/importcommittee/main.go:264-301 | a row is skipped exactly when a trimmed field is empty; it fails exactly when its status or role is unknown; a kept user's name is the trimmed, non-empty name cell |
| UserTable.UserRowRules | cmd/importcommittee/main.go:273-296 | an unknown status fails first, naming the status and the user; then an unknown role; the role `member` forces non-voting, and any other role keeps the parsed status |
| UserTable.ParseUserRows | cmd/importcommittee/main.go:260-302 | every user read has a non-empty name without surrounding white space |
| UserTable.ExtractUsers | cmd/importcommittee/main.go:253-258 | fewer than two rows give the "no users" error |
| UserTable.ExtractUsersFailure | cmd/importcommittee/main.go:256-296 | extraction fails exactly when there are fewer than two rows or some row after the header is short or has an unknown status or role |
| UserTable.ParseUserRowsFailure | cmd/importcommittee/main.go:260-302 | the rows fail exactly when one of them is rejected |
| UserTable.ParseUserRowsAppend | cmd/importcommittee/main.go:260-302 | reading two blocks of rows is reading the first, then the second, and the first error wins |
| UserTable.ShortUserRowIsFatal | cmd/importcommittee/main.go:261-263 | for `extractUsers` on its own, a row with fewer than three cells is an error even when all other rows are fine; through `loadCSV` that row can only occur in a grid narrower than three columns |
| UserTable.OneUserRow | cmd/importcommittee/main.go:260-302 | a single row gives its seed when complete, nothing when incomplete, and fails exactly when rejected |
| UserTable.UserRowIgnoresCase | cmd/importcommittee/main.go:274-295 | the case of the status and role cells does not change the result |
| UserTable.DottedCapitalIChair | cmd/importcommittee/main.go:274-295 | the role "CHAİR", spelt with a capital I with dot above, is read as the chair role, since Unicode lower-cases that letter to `i` |
| UserTable.SameColumnsSameSeed | cmd/importcommittee/main.go:264-296 | two rows that agree after trimming, and after lower-casing for status and role, give the same result |
| MeetingTable.Classify | cmd/importcommittee/main.go:220-237 | a cell is blank, the `(informational)` marker, a leave (the trimmed name before the `(Leave of absence)` suffix) or an attendee name; each case holds exactly under its condition |
| MeetingTable.Attendees | cmd/importcommittee/main.go:220-237 | a name is an attendee of the column exactly when some cell of the column is that present name |
| MeetingTable.Absentees | cmd/importcommittee/main.go:229-232 | a name is on leave in the column exactly when some cell is a leave mark for it |
| MeetingTable.ParseColumns | cmd/importcommittee/main.go:209-244 | at most one meeting per column; a failure names the date cell of some column |
| MeetingTable.ParseColumnsFailure | cmd/importcommittee/main.go:209-216 | the columns fail exactly when some column has a non-empty date cell the date parser rejects |
| MeetingTable.ParseColumnsAppend | cmd/importcommittee/main.go:209-244 | reading two blocks of columns is reading the first, then the second |
| MeetingTable.OneColumn | cmd/importcommittee/main.go:209-244 | an undated column is skipped, an unparsable date fails with that date, and a dated column gives one meeting read from the cells below |
| MeetingTable.BlankDateIsNotSkipped | cmd/importcommittee/main.go:210-216 | a date cell of white space is not skipped: it reaches the date parser and fails |
| MeetingTable.AddAppearances | cmd/importcommittee/main.go:234-236 | after a column, each attendee's first appearance is the earlier of the recorded one and this date; other names keep theirs |
| MeetingTable.AppearancesDomain | cmd/importcommittee/main.go:234-236 | a name has a first appearance exactly when it attends some column |
| MeetingTable.AppearancesBelow | cmd/importcommittee/main.go:234-236 | the first appearance is no later than any meeting the name attends |
| MeetingTable.AppearancesAttained | cmd/importcommittee/main.go:234-236 | the first appearance is the date of a meeting the name attends |
| MeetingTable.AddAbsences | cmd/importcommittee/main.go:229-232 | after a column, a name's leave dates are the old ones plus this date when it is on leave here |
| MeetingTable.AbsencesDomain | cmd/importcommittee/main.go:229-232 | a name has leave dates exactly when it is on leave in some column |
| MeetingTable.AbsencesDates | cmd/importcommittee/main.go:229-232 | a date is among a name's leave dates exactly when the name is on leave in a column with that date |
| MeetingTable.InsertByStart | cmd/importcommittee/main.go:246-249 | inserting into a sorted list keeps it sorted by start time and adds exactly that meeting |
| MeetingTable.SortByStart | cmd/importcommittee/main.go:246-249 | the result is sorted by start time and is a permutation of the input |
| MeetingTable.Assemble | cmd/importcommittee/main.go:239-250 | the meetings come out sorted and are a permutation of the meetings read |
| MeetingTable.ExtractMeetings | cmd/importcommittee/main.go:181-251 | three or fewer columns give "not enough columns"; the meetings come out sorted |
| MeetingTable.ExtractedMeetings | cmd/importcommittee/main.go:187-250 | extraction fails exactly on a bad date in a meeting column, and otherwise gives the sorted meetings of the transposed columns after the third |
| MeetingTable.SortedMeetingsOf | cmd/importcommittee/main.go:239-249 | sorting neither loses nor invents a meeting |
| MeetingTable.AppearancesAreFirstAttendance | cmd/importcommittee/main.go:234-249 | a name has a first appearance exactly when it attends some meeting, and that is the earliest start among the meetings it attends |
| MeetingTable.AbsencesAreLeaveMarks | cmd/importcommittee/main.go:229-233 | the leave dates of a name are exactly the dates of the columns where it is marked on leave |
| CommitteeTable.LoadTable | cmd/importcommittee/main.go:307-338 | a grid with a record whose field count differs from the first record's is rejected, exactly those; otherwise a user error is reported first, then a meeting error, each wrapped; a loaded table is exactly what the two extractors return, with sorted meetings and trimmed, non-empty user names |
| Identity.FuzzyMatch | cmd/importcommittee/main.go:116-127 | a directory user matches exactly when it has a first or a last name and both lower-cased names occur at some position of the lower-cased table name |
| Identity.FuzzyMatchOneName | cmd/importcommittee/main.go:116-127 | a directory user without first and last name never matches; with only a last name, the match is a case-insensitive substring test of that name |
| Identity.FuzzyMatchOccurs | cmd/importcommittee/main.go:124-125 | a match means both lower-cased names occur in the lower-cased spreadsheet name |
| Identity.FuzzyMatchDoesNotTrim | cmd/importcommittee/main.go:119-120 | directory names are compared untrimmed, so `" Al"` does not match `"Al"` |
| Identity.NicknameIndex | cmd/importcommittee/main.go:133-135 | the index of the first directory user with that nickname, or -1 when there is none |
| Identity.FuzzyIndex | cmd/importcommittee/main.go:138 | the index of the first directory user that fuzzily matches, or -1 when there is none |
| Identity.Resolve | cmd/importcommittee/main.go:131-145 | a name that is a nickname stays; otherwise the first fuzzy match's nickname is taken; it fails, naming the name, exactly when neither exists |
| Identity.ResolveFuzzy | cmd/importcommittee/main.go:137-143 | when the name is no nickname, the result is the nickname of the first fuzzily matching user |
| Identity.ResolveIdempotent | cmd/importcommittee/main.go:131-145 | resolving a resolved name gives the same nickname |
| Identity.Traverse | cmd/importcommittee/main.go:147-151 | on success every element was replaced by its own resolution, keeping positions |
| Identity.TraverseFailure | cmd/importcommittee/main.go:147-151 | the loop fails exactly when some element fails, and the error is that of the first failing element |
| Identity.ResolveAll | cmd/importcommittee/main.go:154-158 | every attendee of a meeting is replaced by its resolved nickname, in place |
| Identity.ResolveAllFailure | cmd/importcommittee/main.go:153-159 | the attendees fail exactly when one does, and the first failing attendee gives the error |
| Identity.ResolveSeeds | cmd/importcommittee/main.go:147-151 | every user keeps status and role and gets its resolved name |
| Identity.ResolveSeedsFailure | cmd/importcommittee/main.go:147-151 | the users fail exactly when one name does not resolve |
| Identity.ResolveMeetings | cmd/importcommittee/main.go:153-159 | every meeting keeps its date and kind and gets resolved attendees |
| Identity.ResolveMeetingsFailure | cmd/importcommittee/main.go:153-159 | the meetings fail exactly when one attendee does not resolve |
| Identity.Rebuild | cmd/importcommittee/main.go:161-177 | rebuilding a map fails exactly when some key does not resolve; otherwise its keys are exactly the resolved keys |
| Identity.RebuildKeySet | cmd/importcommittee/main.go:161-177 | a map rebuilt from an empty map over all its keys is keyed by exactly the nicknames some key of the original resolves to |
| Identity.RebuildLastWins | cmd/importcommittee/main.go:161-168 | when two keys resolve to the same nickname, the value of the key visited last survives |
| Identity.RebuildKeeps | cmd/importcommittee/main.go:161-168 | an entry no visited key resolves to is left as it was |
| Identity.RebuildCollision | cmd/importcommittee/main.go:162-166 | two keys resolving alike give a one-entry map whose value depends on the visiting order |
| Identity.AnnResolves | cmd/importcommittee/main.go:131-145 | with directory user `ann` (first name `Ann`), both `Ann` and `ann` resolve to `ann` |
| Identity.AnnCollision | cmd/importcommittee/main.go:161-168 | so appearances under `Ann` and `ann` collapse into one, and Go's random map order decides which date is kept |
| Identity.ResolveTable | cmd/importcommittee/main.go:129-179 | the resolved table has as many users and meetings; every user name is its resolved nickname, every meeting keeps its date and kind and gets its resolved attendees, and the appearance and absence maps are the rebuilt ones, keyed by exactly the nicknames their table keys resolve to |
| Identity.ResolveTableFailure | cmd/importcommittee/main.go:129-179 | resolution fails exactly when some name the table mentions has no nickname |
| Identity.ResolveTableParts | cmd/importcommittee/main.go:147-177 | resolution fails exactly when one of its four loops fails |
| Identity.UnresolvedNameFails | cmd/importcommittee/main.go:129-179 | any mentioned name without a nickname makes resolution fail |
| Identity.UnresolvedAttendeeFails | cmd/importcommittee/main.go:153-159 | an attendee without a nickname makes the meeting loop fail |
| Identity.UnresolvedKeyFails | cmd/importcommittee/main.go:161-177 | a map key without a nickname makes the rebuild fail, in every visiting order |
| Identity.FailureNamesName | cmd/importcommittee/main.go:129-179 | a failed resolution always has a mentioned name to blame |
| Identity.FailingAttendee | cmd/importcommittee/main.go:153-159 | a failing meeting loop has an attendee of some meeting that does not resolve |
| Identity.ResolvedNamesAreNicknames | cmd/importcommittee/main.go:129-179 | after resolution, every name the table mentions is a directory nickname |
| Identity.SeedNamesAreNicknames | cmd/importcommittee/main.go:147-151 | every resolved user name is a nickname |
| Identity.AttendeesAreNicknames | cmd/importcommittee/main.go:153-159 | every resolved attendee is a nickname |
| Identity.RebuiltKeysAreNicknames | cmd/importcommittee/main.go:161-177 | every key of a rebuilt map is a nickname |
| Models.DeleteMeetings | cmd/importcommittee/main.go:340-348 | exactly the committee's meetings are removed, the others are untouched, and the store stays valid |
| Models.DeleteMembership | cmd/importcommittee/main.go:350-358 | exactly the committee's history entries are removed |
| Models.DeleteAbsences | cmd/importcommittee/main.go:360-368 | exactly the committee's leave rows are removed |
| Models.UpdateMemberships | cmd/importcommittee/main.go:103-110 | one history entry per membership is appended for the user, after the old history |
| Models.InsertAbsence | cmd/importcommittee/main.go:79-84 | exactly one leave row is added |
| Models.StoreNewMeeting | cmd/importcommittee/main.go:444-453 | the meeting gets the ID of the store's counter, which no stored meeting holds, and nothing else changes |
| Models.AttendanceOf | cmd/importcommittee/main.go:458 | one attended record per name, in order, at the given time |
| Models.Attend | cmd/importcommittee/main.go:455-462 | the meeting's attendance gains one record per attendee; other meetings are untouched |
| Models.ConcludeMeeting | cmd/importcommittee/main.go:464-472 | the committee's meeting is marked concluded at the stop time; other meetings are untouched |
| Import.FirstWhere | cmd/importcommittee/main.go:52-59 | the position of the first element with the property, or -1 exactly when none has it |
| Import.FindUser | cmd/importcommittee/main.go:52-59 | the first user of the table with that name, or none exactly when no user has it |
| Import.FindCommittee | cmd/importcommittee/main.go:370-377 | the first committee with that name, or none exactly when no committee has it |
| Import.Joiners | cmd/importcommittee/main.go:97-98 | an attendee joins at this meeting exactly when its first appearance equals the meeting's start |
| Import.JoinEntriesMembers | cmd/importcommittee/main.go:97-111 | the added history entries are exactly the first memberships of the joiners |
| Import.StoreNewMembers | cmd/importcommittee/main.go:90-114 | only the membership history changes, and the only error is a missing user row |
| Import.StoreNewMembersFailure | cmd/importcommittee/main.go:97-102 | it fails exactly when an attendee joining at this meeting has no row in the user table |
| Import.StoreNewMembersKnown | cmd/importcommittee/main.go:98-102 | after success, every joiner has a user row |
| Import.StoreNewMembersHistory | cmd/importcommittee/main.go:97-111 | after success, the history gains the joiners' first memberships, in attendee order |
| Import.InsertRows | cmd/importcommittee/main.go:75-85 | one row per leave date equal to the meeting start, with the interval widened by a second on each side |
| Import.AddedRowsCount | cmd/importcommittee/main.go:74-86 | visiting each name once, a row is added as often as its name has a leave on the meeting's date, and only with the meeting's interval |
| Import.StoreAbsences | cmd/importcommittee/main.go:61-88 | only the leave rows change, and they grow by exactly the rows asked for |
| Import.StoreAbsencesOrderFree | cmd/importcommittee/main.go:74-86 | the stored rows, as a multiset, do not depend on Go's map order |
| Import.LeaveRowsOfMeeting | cmd/importcommittee/main.go:74-86 | a leave row is added exactly for a name on leave on the meeting's date, with that meeting's interval |
| Import.ReplayMeeting | cmd/importcommittee/main.go:430-473 | a failure leaves meetings and leaves as they were; success stores the meeting under the next ID and adds the leave rows |
| Import.RecordMeeting | cmd/importcommittee/main.go:444-472 | storing, attending and concluding place the imported meeting, one hour long and concluded at its stop, under the next ID |
| Import.ReplayMeetingFails | cmd/importcommittee/main.go:436-438 | a meeting fails exactly when one of its joiners has no user row |
| Import.ReplayMeetingHistory | cmd/importcommittee/main.go:435-438 | after success, the history gains exactly the joiners' first memberships |
| Import.ReplayMeetings | cmd/importcommittee/main.go:430-475 | the ID counter never goes back, and the only error is a missing user row |
| Import.ReplayMeetingsKeeps | cmd/importcommittee/main.go:430-475 | existing meetings are kept and new ones only get fresh IDs; the store stays valid |
| Import.ReplayMeetingsFailure | cmd/importcommittee/main.go:430-438 | the replay fails exactly when some meeting has a joiner without a user row |
| Import.ReplayMeetingsStored | cmd/importcommittee/main.go:444-453 | after success, meeting `k` of the table is stored under the `k`-th fresh ID, and older meetings are untouched |
| Import.ReplayMeetingsJoiners | cmd/importcommittee/main.go:435-438 | after success, every joiner of every meeting has a user row |
| Import.ReplayMeetingsHistory | cmd/importcommittee/main.go:435-438 | after success, the history gains exactly the first memberships of all joiners |
| Import.ReplayMeetingsAbsences | cmd/importcommittee/main.go:439-442 | after success, a leave row is present exactly when it was before or some name has a leave mark on a meeting's date and the row spans that meeting |
| Import.ReplayMeetingsAbsenceCount | cmd/importcommittee/main.go:74-86 | after success, every leave row was added as often as the leave marks ask for it, counted over all meetings: one per mark of its name on a meeting's date |
| Import.Replay | cmd/importcommittee/main.go:418-475 | the deletes and the replay never move the ID counter back, and fail only on a missing user row |
| Import.ReplayReplacesMeetings | cmd/importcommittee/main.go:418-475 | the committee's old meetings are gone and every other committee's meetings are unchanged |
| Import.Run | cmd/importcommittee/main.go:379-476 | every error before the deletes leaves the store untouched, including a grid the CSV reader rejects |
| Import.RunLoaded | cmd/importcommittee/main.go:382-476 | a load failure, a missing committee and an unresolved name are each reported as such and leave the store untouched; otherwise the outcome is the delete and replay of the resolved table, and an import without error had all three stages succeed |
| Import.RunReplays | cmd/importcommittee/main.go:400-476 | an import that reaches the replay, completed or stopped at an attendee without a user row, has found the committee, removed its old meetings and left other committees' meetings unchanged |
| Import.PartialImport | cmd/importcommittee/main.go:418-438 | a missing user row in the second meeting leaves the old meetings deleted and the first meeting stored |
| Export.IndexOf | cmd/exportmeeting/main.go:98 | the position of the first occurrence, or -1 exactly when the name is absent |
| Export.AttendeeNames | cmd/exportmeeting/main.go:96-97 | a present attendee list splits into names that join back to it; a NULL list gives no names |
| Export.ConcatenatedNames | cmd/exportmeeting/main.go:96-97 | the concatenation of comma-free nicknames splits back into those nicknames |
| Export.Register | cmd/exportmeeting/main.go:97-104 | the user list only grows, without duplicates and only by these names, and each index points at its name |
| Export.NewNamesFacts | cmd/exportmeeting/main.go:97-104 | the names a row adds are the ones not yet known, none twice |
| Export.NewNamesAppend | cmd/exportmeeting/main.go:86-107 | collecting the new names of two lists in turn collects those of the first, then those of the second not yet seen |
| Export.RegisterOrder | cmd/exportmeeting/main.go:97-104 | one row appends its unknown nicknames in order of first occurrence |
| Export.AllNames | cmd/exportmeeting/main.go:86-107 | the nicknames of all rows are exactly the names attending some meeting |
| Export.CollectOrder | cmd/exportmeeting/main.go:86-107 | the loop ends with the users given, then the query's new nicknames in order of first appearance |
| Export.Collect | cmd/exportmeeting/main.go:86-107 | one meeting per query row, and the user list only grows |
| Export.CollectFacts | cmd/exportmeeting/main.go:86-107 | each meeting carries its row's data and attendee indices that lead back to the names; users stay distinct and come from the rows |
| Export.CollectUsers | cmd/exportmeeting/main.go:83-107 | the users are distinct, are exactly the names attending some meeting, and come in order of first appearance in query order, which fixes the order of the matrix rows |
| Export.MetaCells | cmd/exportmeeting/main.go:117-126 | one metadata cell per meeting, in meeting order |
| Export.MetadataRows | cmd/exportmeeting/main.go:111-126 | four metadata rows, each three cells wider than the number of meetings, headed "Status", "Role", "Name" in the first row and by three empty cells in the others |
| Export.MetadataRoundTrip | cmd/exportmeeting/main.go:111-126 | reading column `3+k` back gives meeting `k`'s formatted start and stop, its kind and its description |
| Export.Marks | cmd/exportmeeting/main.go:146-152 | a user's cell for a meeting is its nickname exactly when it attended, else empty |
| Export.UserRow | cmd/exportmeeting/main.go:137-152 | a user row is "TODO", "TODO", the display name, then its attendance marks |
| Export.Matrix | cmd/exportmeeting/main.go:131-152 | on success every user was loaded, its row starts with two "TODO" cells and "First Last", and its marks match the meetings |
| Export.MatrixFailure | cmd/exportmeeting/main.go:137-141 | the matrix fails exactly when some user cannot be loaded, naming the first such user |
| Export.FileLayout | cmd/exportmeeting/main.go:161-170 | the file is the four metadata rows followed by the matrix, every row of one width |
| Export.ExportRows | cmd/exportmeeting/main.go:83-170 | a written file is the four metadata rows of the meetings in query order, then the attendee matrix: one marked row per user in order of first appearance, headed TODO, TODO and the user's display name; a failure names one of those users |
| Export.ExportShape | cmd/exportmeeting/main.go:131-170 | the file has four rows more than there are users, and every row is three cells wider than the number of meetings |
| Export.ExportFailure | cmd/exportmeeting/main.go:137-141 | the export fails exactly when some attending user cannot be loaded, naming the first one |
| Export.MarkedColumn | cmd/exportmeeting/main.go:146-152 | a non-empty name appears in a meeting's column exactly when it is among that meeting's attendees |
| Export.FileColumn | cmd/exportmeeting/main.go:146-170 | the same, read below the four metadata rows of the file |
| Export.ColumnRecoversAttendees | cmd/exportmeeting/main.go:96-170 | a non-empty name appears under meeting `k` in the file exactly when the query listed it among that meeting's attendees |
| WebUser.DecidePassword | pkg/web/user.go:68-75 | an empty password is kept; a mismatch is reported first; a password shorter than eight characters is refused; otherwise it is set |
| WebUser.StoreProfile | pkg/web/user.go:49-80 | names are trimmed and taken over; the password changes only when accepted; the message follows the password decision; the user is stored exactly when something changed |
| WebUser.EmptyPasswordKeeps | pkg/web/user.go:68-75 | an empty password field keeps the password and gives no message |
| WebUser.RejectedPasswordStoresNames | pkg/web/user.go:56-77 | a rejected password keeps the old one, and the user is still stored when a name changed |
| WebUser.StoreProfileIdempotent | pkg/web/user.go:56-77 | sending the same form again changes nothing, stores nothing and repeats the message |
| WebUser.DeleteList | pkg/web/user.go:85-89 | neither `admin` nor the current user is ever on the delete list |
| WebUser.DeleteListCounts | pkg/web/user.go:85-89 | every other user keeps exactly its number of occurrences |
| WebUser.DeleteListAppend | pkg/web/user.go:85-89 | filtering two lists is filtering each, in order |
| WebUser.DeleteListIdempotent | pkg/web/user.go:85-89 | filtering twice is filtering once |
| WebUser.DeleteRequest | pkg/web/user.go:82-93 | a delete runs exactly when the delete field is set and some chosen user is deletable, and it deletes the filtered list |
| WebUser.NilString | pkg/web/user.go:110-111 | the empty string becomes nil, and any other string is kept |
| WebUser.CreateUser | pkg/web/user.go:107-141 | a missing login name is reported exactly when the trimmed nickname is empty; otherwise the user is created exactly when the store accepts it; a created user has the trimmed fields and is admin exactly when the box says "admin" |
| WebUser.CreateErrorMessageNamesUser | pkg/web/user.go:125-134 | the two error messages differ, and while quoting keeps nicknames apart, the "already exists" message names the nickname |
| WebUser.MissingNameStoresNothing | pkg/web/user.go:125-129 | without a login name nothing is stored, whatever the store does |
| WebUser.DigitRun | pkg/web/user.go:215 | `\d+` takes the longest run of ASCII digits |
| WebUser.MatchAt | pkg/web/user.go:215 | a match is `member` or `manager` followed by at least one digit, and its second group is the whole digit run; conversely either word followed by a digit matches |
| WebUser.Leftmost | pkg/web/user.go:215-221 | the search finds the leftmost position where the expression matches |
| WebUser.FindSubmatch | pkg/web/user.go:221 | no groups exactly when the expression matches nowhere; otherwise the groups of the leftmost match |
| WebUser.ParseInt64 | pkg/web/user.go:227 | the digits parse exactly when their value fits into a signed 64-bit integer |
| WebUser.ParseBox | pkg/web/user.go:221-232 | a box is accepted exactly when the expression matches, the role word parses and the number fits into 64 bits, and it then gives that role and number, between 0 and the largest 64-bit integer |
| WebUser.MemberBox | pkg/web/user.go:221-232 | the box `member42` gives the member role for committee 42 |
| WebUser.Group | pkg/web/user.go:220-241 | grouping keeps every committee it had and only extends its roles, and a new committee comes from a box naming it with its first role |
| WebUser.GroupRoles | pkg/web/user.go:220-241 | grouping appends each committee's roles in submission order and creates exactly the committees with a role |
| WebUser.Memberships | pkg/web/user.go:218-241 | a committee gets a membership exactly when some box names it, with its roles in submission order |

## Left out

- The file, database and HTTP I/O are not modelled: opening, reading and writing CSV files, SQL connections, templates, sessions and response writing. A failed SQL statement (the errors at cmd/importcommittee/main.go:83, 109, 419-428 and 451-471, and the export's query and scan errors) is not modelled. Every statement succeeds.
- The time functions are not modelled. `time.Parse` is the parameter `parseDate`, and `Time.Format` is the parameter `format`. Time zones and `.UTC()` are not modelled.
- Go's map iteration order is random. It is an explicit `order` parameter, which must list every key once. `Import.Run` picks one order with a ghost `Enumerate`, so `Run` is a ghost function and specifies rather than computes.
- Import.StoreAbsences: the model visits the leave map in one `order` for every meeting. Go ranges over the map afresh for each meeting, in a new random order each time. Only the order of the inserted rows differs; the rows as a multiset do not depend on the order (`Import.StoreAbsencesOrderFree`).
- The meeting sort: `slices.SortFunc` is not stable. The model's insertion sort is stable, which is one of the orders Go may produce. Meetings with equal dates may come out in another order in the program.
- Text.ToLower and Text.LowerChar: lower-case `A`-`Z` and the two characters whose Unicode lower case is an ASCII letter (U+0130 to `i`, U+212A to `k`). They keep every other character. So they agree with Go's `strings.ToLower` on every result made only of ASCII letters, such as the status and role keywords. They differ for other letters outside ASCII, which Go lower-cases; this matters only in fuzzy name matching.
- `models.ParseRole`, `models.LoadUser`, `models.Committee`, `misc.Values`, `misc.Attribute`, `misc.EmptyString` and the `changer` helper of `pkg/web` are not part of this model. They are modelled as follows:
  - `ParseRole` and the export's user lookup are parameters.
  - `EmptyString` reads nil as "".
  - `changer` is assumed to assign the value and to flag a change when the value differs.
- `nilString` is not part of this model either. `WebUser.NilString` assumes it maps "" to nil and keeps any other string.
- Export.Matrix: a user that `models.LoadUser` cannot deliver is the error `UserNotLoaded`. The program returns LoadUser's error in that case. It dereferences `Firstname`/`Lastname` without a nil check, so a found user without a first or last name, or a nil user, panics. The model does not distinguish these and does not model the panic.
- The export's SQL query is assumed to work as follows, and is not modelled:
  - it returns one row per distinct start time of the committee's meetings, ordered by start time. `GROUP BY m.start_time` (cmd/exportmeeting/main.go:77) merges meetings that share a start time. Their attendees are concatenated together, and stop, gathering and description come from one of them, which SQLite picks. A `QueryRow` stands for one such group;
  - its attendee list is `group_concat` of the nicknames, or NULL when nobody attended.
- The empty-committee variant of the export query (all committees) is not modelled.
- The export splits the concatenated attendee list at commas. A nickname that contains a comma therefore comes back as several names. `Export.ConcatenatedNames` assumes comma-free nicknames.
- `WebUser.CreateErrorMessage` leaves the `%q` quoting in "User %q already exists." to the parameter `quote`. Go's escaping rules are not modelled.
- The random initial password of a created user is not modelled. Nor is the loading of committees for the page.
- `WebUser.DecidePassword` counts the characters of the password. For valid UTF-8 input this is the same as `utf8.RuneCountInString`. Invalid byte sequences cannot occur in Dafny strings.
- The nil-user path of `userEditStore` is not modelled: it only redisplays the user list. `WebUser.StoreProfile` covers the rest of both `userStore` and `userEditStore`.
- `models.UpdateMemberships` in the web handler receives `maps.Values`, whose order is random. `WebUser.Memberships` therefore returns the map, not an ordering of its values.
- The replacement of a committee's meetings is not atomic. The code issues separate statements, so a failing meeting leaves a partial import; `Import.PartialImport` shows one.
- Meetings with equal dates are allowed: the sort does not require strictly ascending dates.
- `MeetingTable.ExtractMeetings` requires a first row, since the code indexes it. In `loadCSV` the user extraction fails first for fewer than two rows.
- The CSV reader's other errors (bare quotes, unterminated quoted fields) are not modelled. The grid is given as records. Its field-count check is modelled as `CommitteeTable.WrongFieldCount`.
- Meeting IDs: the model hands out IDs from a counter in the store that only grows (`nextId`). The database schema is not part of this model. With SQLite's default row IDs (no `AUTOINCREMENT`), a new row gets the largest ID in use plus one. The IDs of meetings deleted at the start of an import can therefore be handed out again. `Import.Replay` and `Models.StoreNewMeeting` promise fresh IDs only with respect to the counter.

=== FILE: export.dfy ===
/** The meeting export: the rows of the attendees query become a CSV grid of
    four metadata rows (start, stop, gathering, description) followed by one
    row per user who attended any meeting, with a column per meeting that
    holds the user's nickname where they attended. The query itself, the
    date formatting and the user lookup are parameters. */
module Export {
  import opened Wrappers
  import opened Models
  import opened Text
  import Identity

  /** One row of the attendees query: the meeting's times, its gathering
      flag, the nullable description and the nullable `group_concat` of the
      attendees' nicknames. */
  datatype QueryRow = QueryRow(
    start: Time,
    stop: Time,
    gathering: bool,
    description: Option<string>,
    attendees: Option<string>)

  /** The `meeting` record of the export: attendees are indices into the
      list of users seen so far. */
  datatype Meeting = Meeting(start: Time, stop: Time, gathering: bool, description: string, attendees: seq<nat>)

  /** First and last name of a user as `models.LoadUser` reports them. */
  datatype FullName = FullName(first: string, last: string)

  datatype ExportError = UserNotLoaded(nickname: string)

  predicate Distinct(xs: seq<string>) {
    forall i, j :: 0 <= i < j < |xs| ==> xs[i] != xs[j]
  }

  /** `slices.Index`: the first position of `a`, or -1. */
  function IndexOf(xs: seq<string>, a: string): (i: int)
    ensures -1 <= i < |xs|
    ensures i == -1 <==> a !in xs
    ensures 0 <= i ==> xs[i] == a && a !in xs[..i]
  {
    if xs == [] then -1
    else if xs[0] == a then 0
    else
      var i := IndexOf(xs[1..], a);
      if i == -1 then -1
      else
        assert xs[..i + 1] == [xs[0]] + xs[1..][..i];
        i + 1
  }

  /** The nicknames of a query row: the concatenation split at commas; a
      NULL concatenation (a meeting nobody attended) names nobody. */
  function AttendeeNames(attendees: Option<string>): (names: seq<string>)
    ensures attendees.Some? ==> |names| >= 1 && Join(names) == attendees.value
  {
    if attendees.None? then []
    else
      JoinSplit(attendees.value);
      Split(attendees.value)
  }

  /** When no nickname contains a comma, splitting the concatenation the
      query returns gives back the attendees' nicknames. */
  lemma ConcatenatedNames(nicknames: seq<string>)
    requires |nicknames| >= 1 && forall n :: n in nicknames ==> Comma !in n
    ensures AttendeeNames(Some(Join(nicknames))) == nicknames
  {
    SplitJoin(nicknames);
  }

  /** The inner loop over one row's nicknames: each name is looked up in
      `users`, a new one is appended, and its index is recorded. */
  function Register(users: seq<string>, names: seq<string>): (r: (seq<string>, seq<nat>))
    ensures users <= r.0
    ensures Distinct(users) ==> Distinct(r.0)
    ensures forall u :: u in r.0 ==> u in users || u in names
    ensures Recovers(r.0, r.1, names)
    decreases |names|
  {
    if names == [] then (users, [])
    else
      var i := IndexOf(users, names[0]);
      var users1 := if i == -1 then users + [names[0]] else users;
      var idx: nat := if i == -1 then |users| else i;
      assert users1[idx] == names[0];
      var (users2, rest) := Register(users1, names[1..]);
      RegisterStep(users, users1, users2, names, idx, rest);
      (users2, [idx] + rest)
  }

  /** The names of `names` that `users` does not hold, each once, in the
      order of their first occurrence. */
  function NewNames(users: seq<string>, names: seq<string>): seq<string>
    decreases |names|
  {
    if names == [] then []
    else if names[0] in users then NewNames(users, names[1..])
    else [names[0]] + NewNames(users + [names[0]], names[1..])
  }

  /** The new names are the names `users` does not hold, none twice. */
  lemma {:induction false} NewNamesFacts(users: seq<string>, names: seq<string>)
    ensures forall u :: u in NewNames(users, names) <==> u in names && u !in users
    ensures Distinct(NewNames(users, names))
    decreases |names|
  {
    if names != [] {
      if names[0] in users {
        NewNamesFacts(users, names[1..]);
      } else {
        var tail := NewNames(users + [names[0]], names[1..]);
        NewNamesFacts(users + [names[0]], names[1..]);
        assert names[0] !in tail;
        assert NewNames(users, names) == [names[0]] + tail;
        forall i, j | 0 <= i < j < |[names[0]] + tail| ensures ([names[0]] + tail)[i] != ([names[0]] + tail)[j] {
          if i > 0 {
            assert tail[i - 1] != tail[j - 1];
          } else {
            assert tail[j - 1] in tail;
          }
        }
      }
    }
  }

  /** The users after one row are the ones before, then the row's new
      nicknames in order of first appearance. */
  lemma {:induction false} RegisterOrder(users: seq<string>, names: seq<string>)
    ensures Register(users, names).0 == users + NewNames(users, names)
    decreases |names|
  {
    if names != [] {
      var n := names[0];
      RegisterHead(users, names);
      if n in users {
        RegisterOrder(users, names[1..]);
      } else {
        RegisterOrder(users + [n], names[1..]);
        SeqAssoc(users, [n], NewNames(users + [n], names[1..]));
      }
    }
  }

  /** One step of the inner loop, for the users alone. */
  lemma RegisterHead(users: seq<string>, names: seq<string>)
    requires names != []
    ensures names[0] in users ==> Register(users, names).0 == Register(users, names[1..]).0
    ensures names[0] in users ==> NewNames(users, names) == NewNames(users, names[1..])
    ensures names[0] !in users ==> Register(users, names).0 == Register(users + [names[0]], names[1..]).0
    ensures names[0] !in users ==> NewNames(users, names) == [names[0]] + NewNames(users + [names[0]], names[1..])
  {
  }

  /** Collecting the new names of `a + b` collects those of `a` first, then
      those of `b` that neither `users` nor `a` holds. */
  lemma {:induction false} NewNamesAppend(users: seq<string>, a: seq<string>, b: seq<string>)
    ensures NewNames(users, a + b) == NewNames(users, a) + NewNames(users + NewNames(users, a), b)
    decreases |a|
  {
    if a == [] {
      assert a + b == b;
      assert users + [] == users;
    } else {
      assert (a + b)[0] == a[0] && (a + b)[1..] == a[1..] + b;
      if a[0] in users {
        NewNamesAppend(users, a[1..], b);
      } else {
        NewNamesAppend(users + [a[0]], a[1..], b);
        assert users + NewNames(users, a) == users + [a[0]] + NewNames(users + [a[0]], a[1..]);
      }
    }
  }

  /** The indices `idx` name the users `names`, one for one. */
  predicate Recovers(users: seq<string>, idx: seq<nat>, names: seq<string>) {
    |idx| == |names| && forall j :: 0 <= j < |idx| ==> idx[j] < |users| && users[idx[j]] == names[j]
  }

  lemma RegisterStep(users: seq<string>, users1: seq<string>, users2: seq<string>, names: seq<string>,
                     idx: nat, rest: seq<nat>)
    requires names != [] && users1 <= users2 && idx < |users1| && users1[idx] == names[0]
    requires Recovers(users2, rest, names[1..])
    requires (forall u :: u in users2 ==> u in users1 || u in names[1..])
    requires (forall u :: u in users1 ==> u in users || u == names[0])
    ensures Recovers(users2, [idx] + rest, names)
    ensures forall u :: u in users2 ==> u in users || u in names
  {
    assert users2[idx] == users1[idx];
    forall j | 0 < j < |names| ensures ([idx] + rest)[j] < |users2| && users2[([idx] + rest)[j]] == names[j] {
      assert names[1..][j - 1] == names[j];
    }
  }

  /** Recorded indices stay valid as the list of users grows. */
  lemma RecoversGrows(users: seq<string>, users': seq<string>, idx: seq<nat>, names: seq<string>)
    requires Recovers(users, idx, names) && users <= users'
    ensures Recovers(users', idx, names)
  {
    forall j | 0 <= j < |idx| ensures idx[j] < |users'| && users'[idx[j]] == names[j] {
      assert users'[idx[j]] == users[idx[j]];
    }
  }

  /** `m` is the `meeting` the export reads from query row `row`, its
      attendee indices pointing into `users`. */
  predicate Scanned(m: Meeting, row: QueryRow, users: seq<string>) {
    && m.start == row.start && m.stop == row.stop && m.gathering == row.gathering
    && m.description == (if row.description.Some? then row.description.value else "")
    && Recovers(users, m.attendees, AttendeeNames(row.attendees))
  }

  /** A name some query row lists among its attendees. */
  predicate Attended(rows: seq<QueryRow>, u: string) {
    exists k :: 0 <= k < |rows| && u in AttendeeNames(rows[k].attendees)
  }

  /** The nicknames of all query rows, in query order. */
  function AllNames(rows: seq<QueryRow>): (names: seq<string>)
    ensures forall u :: u in names <==> Attended(rows, u)
    decreases |rows|
  {
    if rows == [] then []
    else
      assert forall k :: 0 < k < |rows| ==> rows[k] == rows[1..][k - 1];
      assert forall u :: Attended(rows, u) <==> u in AttendeeNames(rows[0].attendees) || Attended(rows[1..], u);
      AttendeeNames(rows[0].attendees) + AllNames(rows[1..])
  }

  /** The loop over the query rows: the meetings in row order and the users
      in order of first appearance. What the two lists hold is stated by
      `CollectFacts`. */
  function Collect(rows: seq<QueryRow>, users: seq<string>): (r: (seq<Meeting>, seq<string>))
    ensures |r.0| == |rows| && users <= r.1
    decreases |rows|
  {
    if rows == [] then ([], users)
    else
      var row := rows[0];
      var description := if row.description.Some? then row.description.value else "";
      var (users1, idx) := Register(users, AttendeeNames(row.attendees));
      var (ms, users2) := Collect(rows[1..], users1);
      ([Meeting(row.start, row.stop, row.gathering, description, idx)] + ms, users2)
  }

  /** Each meeting is read from its query row with its attendee indices
      pointing at the right users; the users stay distinct and are the ones
      given or some row's attendees. */
  lemma {:induction false} CollectFacts(rows: seq<QueryRow>, users: seq<string>)
    ensures var r := Collect(rows, users);
      && (Distinct(users) ==> Distinct(r.1))
      && (forall k :: 0 <= k < |rows| ==> Scanned(r.0[k], rows[k], r.1))
      && (forall u :: u in r.1 ==> u in users || Attended(rows, u))
    decreases |rows|
  {
    if rows != [] {
      var row := rows[0];
      var description := if row.description.Some? then row.description.value else "";
      var reg := Register(users, AttendeeNames(row.attendees));
      var m := Meeting(row.start, row.stop, row.gathering, description, reg.1);
      var rest := Collect(rows[1..], reg.0);
      assert Collect(rows, users) == ([m] + rest.0, rest.1);
      CollectFacts(rows[1..], reg.0);
      CollectStep(rows, users, reg.0, rest.1, m, rest.0);
    }
  }

  /** The users the loop ends with are the ones given, then the query's
      new nicknames in order of first appearance. */
  lemma {:induction false} CollectOrder(rows: seq<QueryRow>, users: seq<string>)
    ensures Collect(rows, users).1 == users + NewNames(users, AllNames(rows))
    decreases |rows|
  {
    if rows == [] {
      assert users + [] == users;
    } else {
      var names := AttendeeNames(rows[0].attendees);
      var users1 := Register(users, names).0;
      CollectUsersStep(rows, users);
      CollectOrder(rows[1..], users1);
      RegisterOrder(users, names);
      NewNamesAppend(users, names, AllNames(rows[1..]));
      SeqAssoc(users, NewNames(users, names), NewNames(users1, AllNames(rows[1..])));
    }
  }

  /** One step of the loop over the query rows, for the users alone. */
  lemma CollectUsersStep(rows: seq<QueryRow>, users: seq<string>)
    requires rows != []
    ensures Collect(rows, users).1 == Collect(rows[1..], Register(users, AttendeeNames(rows[0].attendees)).0).1
    ensures AllNames(rows) == AttendeeNames(rows[0].attendees) + AllNames(rows[1..])
  {
  }

  lemma SeqAssoc(a: seq<string>, b: seq<string>, c: seq<string>)
    ensures (a + b) + c == a + (b + c)
  {
  }

  lemma CollectStep(rows: seq<QueryRow>, users: seq<string>, users1: seq<string>, users2: seq<string>,
                    m: Meeting, ms: seq<Meeting>)
    requires rows != [] && users1 <= users2 && |ms| == |rows| - 1
    requires Scanned(m, rows[0], users1)
    requires forall k :: 0 <= k < |rows[1..]| ==> Scanned(ms[k], rows[1..][k], users2)
    requires forall u :: u in users1 ==> u in users || u in AttendeeNames(rows[0].attendees)
    requires forall u :: u in users2 ==> u in users1 || Attended(rows[1..], u)
    ensures forall k :: 0 <= k < |rows| ==> Scanned(([m] + ms)[k], rows[k], users2)
    ensures forall u :: u in users2 ==> u in users || Attended(rows, u)
  {
    ScannedStep(rows, users1, users2, m, ms);
    AttendedStep(rows, users, users1, users2);
  }

  lemma ScannedStep(rows: seq<QueryRow>, users1: seq<string>, users2: seq<string>, m: Meeting, ms: seq<Meeting>)
    requires rows != [] && users1 <= users2 && |ms| == |rows| - 1
    requires Scanned(m, rows[0], users1)
    requires forall k :: 0 <= k < |rows[1..]| ==> Scanned(ms[k], rows[1..][k], users2)
    ensures forall k :: 0 <= k < |rows| ==> Scanned(([m] + ms)[k], rows[k], users2)
  {
    RecoversGrows(users1, users2, m.attendees, AttendeeNames(rows[0].attendees));
    forall k | 0 < k < |rows| ensures Scanned(([m] + ms)[k], rows[k], users2) {
      assert rows[1..][k - 1] == rows[k];
    }
  }

  lemma AttendedStep(rows: seq<QueryRow>, users: seq<string>, users1: seq<string>, users2: seq<string>)
    requires rows != []
    requires forall u :: u in users1 ==> u in users || u in AttendeeNames(rows[0].attendees)
    requires forall u :: u in users2 ==> u in users1 || Attended(rows[1..], u)
    ensures forall u :: u in users2 ==> u in users || Attended(rows, u)
  {
    forall u | u in users2 ensures u in users || Attended(rows, u) {
      if u !in users1 {
        var k :| 0 <= k < |rows[1..]| && u in AttendeeNames(rows[1..][k].attendees);
        assert rows[k + 1] == rows[1..][k];
      } else if u !in users {
        assert u in AttendeeNames(rows[0].attendees);
      }
    }
  }

  /** The first three cells of the four metadata rows. */
  function MetaHead(r: nat): seq<string> {
    if r == 0 then ["Status", "Role", "Name"] else ["", "", ""]
  }

  /** The metadata cell of row `r` for meeting `m`: the start, the stop, the
      gathering mark and the description, in the order the rows are
      written. */
  function MetaCell(m: Meeting, r: nat, format: Time -> string): string {
    if r == 0 then format(m.start)
    else if r == 1 then "Stop-Time: " + format(m.stop)
    else if r == 2 then (if m.gathering then "(informational)" else "")
    else "Description: " + m.description
  }

  function MetaCells(ms: seq<Meeting>, r: nat, format: Time -> string): (cells: seq<string>)
    ensures |cells| == |ms|
    ensures forall k :: 0 <= k < |ms| ==> cells[k] == MetaCell(ms[k], r, format)
  {
    if ms == [] then []
    else
      assert forall k :: 0 < k < |ms| ==> ms[k] == ms[1..][k - 1];
      [MetaCell(ms[0], r, format)] + MetaCells(ms[1..], r, format)
  }

  /** The four rows written before the attendees. */
  function MetadataRows(ms: seq<Meeting>, format: Time -> string): (rows: seq<seq<string>>)
    ensures |rows| == 4
    ensures forall r :: 0 <= r < 4 ==> |rows[r]| == 3 + |ms|
    ensures rows[0][..3] == ["Status", "Role", "Name"]
    ensures forall r :: 1 <= r < 4 ==> rows[r][..3] == ["", "", ""]
  {
    [MetaHead(0) + MetaCells(ms, 0, format),
     MetaHead(1) + MetaCells(ms, 1, format),
     MetaHead(2) + MetaCells(ms, 2, format),
     MetaHead(3) + MetaCells(ms, 3, format)]
  }

  /** What a reader of the file takes a meeting column to say. */
  datatype ColumnInfo = ColumnInfo(start: string, stop: string, gathering: bool, description: string)

  /** The text after `prefix`, when `cell` starts with it. */
  function DropPrefix(prefix: string, cell: string): Option<string> {
    if prefix <= cell then Some(cell[|prefix|..]) else None
  }

  /** Reads column `col` of the metadata rows back. */
  function ReadColumn(rows: seq<seq<string>>, col: nat): Option<ColumnInfo>
    requires |rows| == 4
  {
    if col < 3 || exists r :: 0 <= r < 4 && |rows[r]| <= col then None
    else
      var stop :- DropPrefix("Stop-Time: ", rows[1][col]);
      var description :- DropPrefix("Description: ", rows[3][col]);
      if rows[2][col] != "" && rows[2][col] != "(informational)" then None
      else Some(ColumnInfo(rows[0][col], stop, rows[2][col] == "(informational)", description))
  }

  /** Every meeting's column reads back as its formatted times, its
      gathering flag and its description. */
  lemma MetadataRoundTrip(ms: seq<Meeting>, format: Time -> string, k: nat)
    requires k < |ms|
    ensures ReadColumn(MetadataRows(ms, format), 3 + k)
         == Some(ColumnInfo(format(ms[k].start), format(ms[k].stop), ms[k].gathering, ms[k].description))
  {
    var rows := MetadataRows(ms, format);
    var stop := "Stop-Time: " + format(ms[k].stop);
    var description := "Description: " + ms[k].description;
    assert rows[1][3 + k] == stop;
    assert rows[3][3 + k] == description;
    assert "Stop-Time: " <= stop && stop[|"Stop-Time: "|..] == format(ms[k].stop);
    assert "Description: " <= description && description[|"Description: "|..] == ms[k].description;
  }

  /** The columns of one user's row from the fourth on: the nickname where
      the user attended, empty elsewhere. */
  function Marks(user: string, i: nat, ms: seq<Meeting>): (cells: seq<string>)
    ensures |cells| == |ms|
    ensures forall k :: 0 <= k < |ms| ==> cells[k] == (if i in ms[k].attendees then user else "")
  {
    if ms == [] then []
    else
      assert forall k :: 0 < k < |ms| ==> ms[k] == ms[1..][k - 1];
      [if i in ms[0].attendees then user else ""] + Marks(user, i, ms[1..])
  }

  /** `models.LoadUser` as a result: a user it cannot load stops the
      export. */
  function Loader(lookup: string -> Option<FullName>): string -> Result<FullName, ExportError> {
    user => if lookup(user).Some? then Success(lookup(user).value) else Failure(UserNotLoaded(user))
  }

  /** The third column: first and last name, separated by a space. */
  function DisplayName(name: FullName): string {
    name.first + " " + name.last
  }

  /** `row` is the matrix row of user number `i`: two placeholder columns,
      the user's full name, then the marks. */
  predicate UserRowOf(row: seq<string>, user: string, name: FullName, i: nat, ms: seq<Meeting>) {
    MarkedRow(row, user, i, ms) && row[0] == "TODO" && row[1] == "TODO" && row[2] == DisplayName(name)
  }

  function UserRow(user: string, name: FullName, i: nat, ms: seq<Meeting>): (row: seq<string>)
    ensures UserRowOf(row, user, name, i, ms)
  {
    ["TODO", "TODO", DisplayName(name)] + Marks(user, i, ms)
  }

  /** The attendee matrix: every user is loaded first, in order, and the
      first one that cannot be loaded stops the export. */
  function Matrix(users: seq<string>, ms: seq<Meeting>, lookup: string -> Option<FullName>)
    : (r: Result<seq<seq<string>>, ExportError>)
    ensures r.Success? ==> Marked(r.value, users, ms)
    ensures r.Success? ==> forall i :: 0 <= i < |users| ==>
      lookup(users[i]).Some? && r.value[i][2] == DisplayName(lookup(users[i]).value)
    ensures r.Success? ==> forall i :: 0 <= i < |users| ==> r.value[i][0] == "TODO" && r.value[i][1] == "TODO"
  {
    var names :- Identity.Traverse(Loader(lookup), users);
    var rows := seq(|users|, i requires 0 <= i < |users| => UserRow(users[i], names[i], i, ms));
    MatrixRows(users, names, ms, lookup, rows);
    Success(rows)
  }

  lemma MatrixRows(users: seq<string>, names: seq<FullName>, ms: seq<Meeting>, lookup: string -> Option<FullName>,
                   rows: seq<seq<string>>)
    requires |names| == |users| && forall i :: 0 <= i < |users| ==> Loader(lookup)(users[i]) == Success(names[i])
    requires |rows| == |users| && forall i :: 0 <= i < |users| ==> rows[i] == UserRow(users[i], names[i], i, ms)
    ensures Marked(rows, users, ms)
    ensures forall i :: 0 <= i < |users| ==> lookup(users[i]).Some? && rows[i][2] == DisplayName(lookup(users[i]).value)
    ensures forall i :: 0 <= i < |users| ==> rows[i][0] == "TODO" && rows[i][1] == "TODO"
  {
    forall i | 0 <= i < |users|
      ensures MarkedRow(rows[i], users[i], i, ms)
      ensures lookup(users[i]).Some? && rows[i][2] == DisplayName(lookup(users[i]).value)
      ensures rows[i][0] == "TODO" && rows[i][1] == "TODO"
    {
      assert UserRowOf(rows[i], users[i], names[i], i, ms);
      assert Loader(lookup)(users[i]) == Success(names[i]);
    }
  }

  /** The file for the meetings `ms` and the users `users`: the metadata
      rows, then the matrix. */
  function Assemble(ms: seq<Meeting>, users: seq<string>, format: Time -> string, lookup: string -> Option<FullName>)
    : Result<seq<seq<string>>, ExportError>
  {
    var matrix :- Matrix(users, ms, lookup);
    Success(MetadataRows(ms, format) + matrix)
  }

  /** `run` after the query: the four metadata rows of the meetings in
      query order, then one marked row per user in order of first
      appearance. */
  function ExportRows(rows: seq<QueryRow>, format: Time -> string, lookup: string -> Option<FullName>)
    : (r: Result<seq<seq<string>>, ExportError>)
    ensures r.Success? ==>
      var scan := Collect(rows, []);
      && |r.value| == 4 + |scan.1|
      && r.value[..4] == MetadataRows(scan.0, format)
      && Marked(r.value[4..], scan.1, scan.0)
    ensures r.Success? ==>
      var scan := Collect(rows, []);
      && Matrix(scan.1, scan.0, lookup).Success?
      && r.value[4..] == Matrix(scan.1, scan.0, lookup).value
    ensures r.Success? ==>
      var users := Collect(rows, []).1;
      forall i :: 0 <= i < |users| ==>
        && r.value[4 + i][0] == "TODO" && r.value[4 + i][1] == "TODO"
        && lookup(users[i]).Some? && r.value[4 + i][2] == DisplayName(lookup(users[i]).value)
    ensures r.Failure? ==> r.error.nickname in Collect(rows, []).1
  {
    var scan := Collect(rows, []);
    var r := Assemble(scan.0, scan.1, format, lookup);
    if r.Success? then
      var matrix := Matrix(scan.1, scan.0, lookup).value;
      assert r.value == MetadataRows(scan.0, format) + matrix;
      assert r.value[4..] == matrix;
      r
    else
      MatrixFailure(scan.1, scan.0, lookup);
      r
  }

  /** The metadata rows on top of a marked matrix. */
  lemma FileLayout(meta: seq<seq<string>>, matrix: seq<seq<string>>, users: seq<string>, ms: seq<Meeting>)
    requires |meta| == 4 && (forall r :: 0 <= r < 4 ==> |meta[r]| == 3 + |ms|) && Marked(matrix, users, ms)
    ensures var out := meta + matrix;
      && |out| == 4 + |users| && out[..4] == meta && out[4..] == matrix
      && forall row :: row in out ==> |row| == 3 + |ms|
  {
    var out := meta + matrix;
    assert out[4..] == matrix;
    forall row | row in out ensures |row| == 3 + |ms| {
      var i :| 0 <= i < |out| && out[i] == row;
      if i >= 4 {
        assert MarkedRow(matrix[i - 4], users[i - 4], i - 4, ms);
      }
    }
  }

  /** Every row of the file has the three leading columns and one per
      meeting, below the four metadata rows come the users. */
  lemma ExportShape(rows: seq<QueryRow>, format: Time -> string, lookup: string -> Option<FullName>)
    ensures ExportRows(rows, format, lookup).Success? ==>
      var out := ExportRows(rows, format, lookup).value;
      && |out| == 4 + |Collect(rows, []).1|
      && forall row :: row in out ==> |row| == 3 + |rows|
  {
    var scan := Collect(rows, []);
    if Matrix(scan.1, scan.0, lookup).Success? {
      FileLayout(MetadataRows(scan.0, format), Matrix(scan.1, scan.0, lookup).value, scan.1, scan.0);
    }
  }

  /** The users of the export: the nicknames of the query, each once. */
  lemma CollectUsers(rows: seq<QueryRow>)
    ensures Distinct(Collect(rows, []).1)
    ensures forall u :: u in Collect(rows, []).1 <==> Attended(rows, u)
    ensures Collect(rows, []).1 == NewNames([], AllNames(rows))
  {
    var scan := Collect(rows, []);
    assert scan.1 == NewNames([], AllNames(rows)) by {
      CollectOrder(rows, []);
      assert [] + NewNames([], AllNames(rows)) == NewNames([], AllNames(rows));
    }
    CollectFacts(rows, []);
    forall u | Attended(rows, u) ensures u in scan.1 {
      var k :| 0 <= k < |rows| && u in AttendeeNames(rows[k].attendees);
      var j :| 0 <= j < |AttendeeNames(rows[k].attendees)| && AttendeeNames(rows[k].attendees)[j] == u;
      assert Scanned(scan.0[k], rows[k], scan.1);
      assert scan.1[scan.0[k].attendees[j]] == u;
    }
  }

  /** The matrix fails exactly when some user cannot be loaded, and then
      names the first such user. */
  lemma MatrixFailure(users: seq<string>, ms: seq<Meeting>, lookup: string -> Option<FullName>)
    ensures Matrix(users, ms, lookup).Failure? <==> exists i :: 0 <= i < |users| && lookup(users[i]).None?
    ensures Matrix(users, ms, lookup).Failure? ==>
      exists i :: 0 <= i < |users| && lookup(users[i]).None? && Matrix(users, ms, lookup).error == UserNotLoaded(users[i])
                  && forall j :: 0 <= j < i ==> lookup(users[j]).Some?
  {
    var load := Loader(lookup);
    Identity.TraverseFailure(load, users);
    forall i | 0 <= i < |users| ensures load(users[i]).Failure? <==> lookup(users[i]).None? {
    }
    if Matrix(users, ms, lookup).Failure? {
      var k :| 0 <= k < |users| && load(users[k]) == Failure(Identity.Traverse(load, users).error)
               && forall i :: 0 <= i < k ==> load(users[i]).Success?;
      assert load(users[k]) == Failure(UserNotLoaded(users[k]));
    }
  }

  /** The export fails exactly when some attending user cannot be loaded,
      and then names the first such user in order of appearance. */
  lemma ExportFailure(rows: seq<QueryRow>, format: Time -> string, lookup: string -> Option<FullName>)
    ensures var users := Collect(rows, []).1;
      && (ExportRows(rows, format, lookup).Failure? <==> exists i :: 0 <= i < |users| && lookup(users[i]).None?)
      && (ExportRows(rows, format, lookup).Failure? ==>
            exists i :: 0 <= i < |users| && lookup(users[i]).None?
                        && ExportRows(rows, format, lookup).error == UserNotLoaded(users[i])
                        && forall j :: 0 <= j < i ==> lookup(users[j]).Some?)
  {
    var scan := Collect(rows, []);
    ExportRowsMatrix(rows, format, lookup);
    MatrixFailure(scan.1, scan.0, lookup);
  }

  /** The export fails exactly as the matrix does. */
  lemma ExportRowsMatrix(rows: seq<QueryRow>, format: Time -> string, lookup: string -> Option<FullName>)
    ensures var scan := Collect(rows, []);
      && (ExportRows(rows, format, lookup).Failure? <==> Matrix(scan.1, scan.0, lookup).Failure?)
      && (ExportRows(rows, format, lookup).Failure? ==>
            ExportRows(rows, format, lookup).error == Matrix(scan.1, scan.0, lookup).error)
  {
  }

  /** Row `i` of `matrix` holds user `i` of `users`, and its column for
      meeting `k` holds the nickname exactly when the user attended. */
  predicate Marked(matrix: seq<seq<string>>, users: seq<string>, ms: seq<Meeting>) {
    |matrix| == |users|
    && forall i :: 0 <= i < |users| ==> MarkedRow(matrix[i], users[i], i, ms)
  }

  predicate MarkedRow(row: seq<string>, user: string, i: nat, ms: seq<Meeting>) {
    |row| == 3 + |ms| && forall k :: 0 <= k < |ms| ==> row[3 + k] == (if i in ms[k].attendees then user else "")
  }

  /** In a marked matrix the column of meeting `k` lists exactly the
      non-empty nicknames its attendee indices point to. */
  lemma MarkedColumn(matrix: seq<seq<string>>, users: seq<string>, ms: seq<Meeting>, k: nat,
                     attendees: seq<string>, a: string)
    requires Marked(matrix, users, ms) && k < |ms| && a != ""
    requires Recovers(users, ms[k].attendees, attendees)
    ensures (exists i :: 0 <= i < |matrix| && matrix[i][3 + k] == a) <==> a in attendees
  {
    if i :| 0 <= i < |matrix| && matrix[i][3 + k] == a {
      assert MarkedRow(matrix[i], users[i], i, ms);
      var j :| 0 <= j < |ms[k].attendees| && ms[k].attendees[j] == i;
      assert attendees[j] == a;
    }
    if a in attendees {
      var j :| 0 <= j < |attendees| && attendees[j] == a;
      var i := ms[k].attendees[j];
      assert MarkedRow(matrix[i], users[i], i, ms);
      assert matrix[i][3 + k] == a;
    }
  }

  /** Reading down the column of meeting `k` below the metadata rows gives
      back exactly the nicknames the query listed for it. */
  lemma ColumnRecoversAttendees(rows: seq<QueryRow>, format: Time -> string, lookup: string -> Option<FullName>,
                                k: nat, a: string)
    requires k < |rows| && a != ""
    ensures ExportRows(rows, format, lookup).Success? ==>
      var out := ExportRows(rows, format, lookup).value;
      (exists i :: 4 <= i < |out| && out[i][3 + k] == a) <==> a in AttendeeNames(rows[k].attendees)
  {
    var scan := Collect(rows, []);
    if Matrix(scan.1, scan.0, lookup).Failure? { return; }
    CollectFacts(rows, []);
    assert Scanned(scan.0[k], rows[k], scan.1);
    FileLayout(MetadataRows(scan.0, format), Matrix(scan.1, scan.0, lookup).value, scan.1, scan.0);
    FileColumn(ExportRows(rows, format, lookup).value, scan.1, scan.0, k, AttendeeNames(rows[k].attendees), a);
  }

  /** `MarkedColumn` for the whole file, below its four metadata rows. */
  lemma FileColumn(out: seq<seq<string>>, users: seq<string>, ms: seq<Meeting>, k: nat,
                   attendees: seq<string>, a: string)
    requires |out| >= 4 && Marked(out[4..], users, ms) && k < |ms| && a != ""
    requires Recovers(users, ms[k].attendees, attendees)
    ensures (exists i :: 4 <= i < |out| && out[i][3 + k] == a) <==> a in attendees
  {
    var matrix := out[4..];
    MarkedColumn(matrix, users, ms, k, attendees, a);
    if i :| 4 <= i < |out| && out[i][3 + k] == a {
      assert matrix[i - 4] == out[i];
    }
    if i :| 0 <= i < |matrix| && matrix[i][3 + k] == a {
      assert out[i + 4] == matrix[i];
    }
  }
}

=== FILE: grid.dfy ===
/** The record grid read from the committee CSV file and its column-major
    view. The transposition itself accepts ragged rows: a row shorter than
    `i + 1` contributes nothing to column `i`, so the cells below it move up
    by one place. The CSV reader only hands on rectangular grids. */
module Grid {

  type Row = seq<string>
  type Records = seq<Row>

  /** How many rows reach column `i`. */
  function RowsReaching(records: Records, i: nat): nat {
    if records == [] then 0
    else (if i < |records[0]| then 1 else 0) + RowsReaching(records[1..], i)
  }

  /** Column `i` of the grid: the `i`-th cell of every row long enough to
      have one, top to bottom. */
  function Column(records: Records, i: nat): (col: seq<string>)
    ensures |col| == RowsReaching(records, i) <= |records|
  {
    if records == [] then []
    else (if i < |records[0]| then [records[0][i]] else []) + Column(records[1..], i)
  }

  /** The row index that cell `k` of column `i` came from: the `k`-th row
      (counting from 0) among the rows reaching column `i`. */
  function SourceRow(records: Records, i: nat, k: nat): (j: nat)
    requires k < RowsReaching(records, i)
    ensures k <= j < |records| && i < |records[j]|
    ensures RowsReaching(records[..j], i) == k
  {
    if i < |records[0]| && k == 0 then 0
    else
      var j := 1 + SourceRow(records[1..], i, if i < |records[0]| then k - 1 else k);
      assert records[1..][..j - 1] == records[..j][1..];
      j
  }

  /** Every cell of a column is the cell of its source row: cells are never
      invented, only moved up past the rows that are too short. */
  lemma {:induction false} ColumnCellSource(records: Records, i: nat, k: nat)
    requires k < |Column(records, i)|
    ensures Column(records, i)[k] == records[SourceRow(records, i, k)][i]
    decreases |records|
  {
    if !(i < |records[0]| && k == 0) {
      ColumnCellSource(records[1..], i, if i < |records[0]| then k - 1 else k);
    }
  }

  /** When no row above `j` is short, the cell of row `j` stays in row `j`. */
  lemma {:induction false} ColumnOfFullRows(records: Records, i: nat, j: nat)
    requires j < |records|
    requires forall r :: 0 <= r <= j ==> i < |records[r]|
    ensures j < |Column(records, i)| && Column(records, i)[j] == records[j][i]
    decreases j
  {
    if j > 0 {
      ColumnOfFullRows(records[1..], i, j - 1);
    }
  }

  /** What `csv.Reader` accepts with its default field count: every record
      has as many fields as the first. */
  predicate Rectangular(records: Records) {
    forall j :: 0 <= j < |records| ==> |records[j]| == |records[0]|
  }

  /** On a grid the reader accepts, column `i` holds the `i`-th cell of
      every row, in row order. */
  lemma RectangularColumn(records: Records, i: nat, j: nat)
    requires Rectangular(records) && j < |records| && i < |records[0]|
    ensures |Column(records, i)| == |records|
    ensures Column(records, i)[j] == records[j][i]
  {
    ColumnOfFullRows(records, i, j);
    ColumnOfFullRows(records, i, |records| - 1);
  }

  /** Go's transposition loop: one column per cell of the first row. */
  function Transpose(records: Records): (columns: seq<seq<string>>)
    requires |records| > 0
    ensures |columns| == |records[0]|
    ensures forall i :: 0 <= i < |columns| ==> |columns[i]| <= |records|
    ensures forall i :: 0 <= i < |columns| ==> columns[i] == Column(records, i)
  {
    seq(|records[0]|, i requires 0 <= i < |records[0]| => Column(records, i))
  }

  /** A short row shifts the cells below it: the attendee written in row 2
      of the fourth column ends up as its row-1 cell, under the date. Such
      a grid is not rectangular, so the CSV reader never hands it on. */
  lemma ShortRowShiftsCells()
    ensures Transpose([["Status", "Role", "Name", "2024-01-10"],
                       ["Voter", "Chair"],
                       ["Voter", "Member", "Alice", "Alice"]])[3]
            == ["2024-01-10", "Alice"]
    ensures !Rectangular([["Status", "Role", "Name", "2024-01-10"],
                          ["Voter", "Chair"],
                          ["Voter", "Member", "Alice", "Alice"]])
  {
    var records := [["Status", "Role", "Name", "2024-01-10"],
                    ["Voter", "Chair"],
                    ["Voter", "Member", "Alice", "Alice"]];
    assert records[1..][1..] == [records[2]];
    assert records[1..][1..][1..] == [];
  }
}

=== FILE: identity.dfy ===
/** `replaceNamesByNicknames`: every name written in the table is replaced by
    the nickname of a database user, found by nickname or, failing that, by
    first and last name. */
module Identity {
  import opened Wrappers
  import opened Text
  import opened Models
  import UserTable
  import MeetingTable
  import opened CommitteeTable

  /** A database user as `models.LoadAllUsers` returns it. */
  datatype DirectoryUser = DirectoryUser(nickname: string, firstname: Option<string>, lastname: Option<string>)

  datatype IdentityError = NoNickname(name: string)

  /** `misc.EmptyString`: a missing name reads as the empty string. */
  function EmptyString(s: Option<string>): string {
    match s
    case None => ""
    case Some(v) => v
  }

  /** `fuzzyMatchUser(name)(u)`: the user has a first or a last name and the
      lower-cased table name contains both, as written (nothing is
      trimmed). */
  predicate FuzzyMatch(name: string, u: DirectoryUser)
    ensures FuzzyMatch(name, u) <==> NamesOccur(name, u)
  {
    var first := ToLower(EmptyString(u.firstname));
    var last := ToLower(EmptyString(u.lastname));
    ContainsIffOccurs(ToLower(name), first);
    ContainsIffOccurs(ToLower(name), last);
    !(first == "" && last == "") && Contains(ToLower(name), first) && Contains(ToLower(name), last)
  }

  /** The matching rule read off positions: the user has a name, and both
      lower-cased names occur somewhere in the lower-cased table name. */
  ghost predicate NamesOccur(name: string, u: DirectoryUser) {
    && (EmptyString(u.firstname) != "" || EmptyString(u.lastname) != "")
    && (exists i :: OccursAt(ToLower(name), ToLower(EmptyString(u.firstname)), i))
    && (exists j :: OccursAt(ToLower(name), ToLower(EmptyString(u.lastname)), j))
  }

  /** A user with neither a first nor a last name matches no name; a user
      with only a last name matches every name containing it. */
  lemma FuzzyMatchOneName(name: string, u: DirectoryUser)
    ensures EmptyString(u.firstname) == "" && EmptyString(u.lastname) == "" ==> !FuzzyMatch(name, u)
    ensures EmptyString(u.firstname) == "" && EmptyString(u.lastname) != "" ==>
      (FuzzyMatch(name, u) <==> Contains(ToLower(name), ToLower(EmptyString(u.lastname))))
  {
    ContainsEmpty(ToLower(name));
  }

  /** A match means both lower-cased names occur in the lower-cased table
      name. */
  lemma FuzzyMatchOccurs(name: string, u: DirectoryUser)
    requires FuzzyMatch(name, u)
    ensures exists i :: OccursAt(ToLower(name), ToLower(EmptyString(u.firstname)), i)
    ensures exists j :: OccursAt(ToLower(name), ToLower(EmptyString(u.lastname)), j)
  {
    ContainsIffOccurs(ToLower(name), ToLower(EmptyString(u.firstname)));
    ContainsIffOccurs(ToLower(name), ToLower(EmptyString(u.lastname)));
  }

  /** The stored first name is not trimmed: a leading blank keeps "Al" from
      matching a user whose first name is " Al". */
  lemma FuzzyMatchDoesNotTrim()
    ensures FuzzyMatch("Al", DirectoryUser("al", Some("Al"), None))
    ensures !FuzzyMatch("Al", DirectoryUser("al", Some(" Al"), None))
  {
    ContainsEmpty("al");
    assert ToLower("Al") == "al";
    assert ToLower(" Al") == " al";
    ContainsLength("al", " al");
  }

  /** `slices.IndexFunc` with the nickname test: the index of the first user
      with nickname `name`, or -1. */
  function NicknameIndex(users: seq<DirectoryUser>, name: string): (i: int)
    ensures -1 <= i < |users|
    ensures 0 <= i ==> users[i].nickname == name
    ensures forall k :: 0 <= k < |users| && (i < 0 || k < i) ==> users[k].nickname != name
  {
    if users == [] then -1
    else if users[0].nickname == name then 0
    else
      var j := NicknameIndex(users[1..], name);
      assert forall k :: 0 < k < |users| ==> users[k] == users[1..][k - 1];
      if j < 0 then -1 else j + 1
  }

  /** `slices.IndexFunc` with `fuzzyMatchUser(name)`: the index of the first
      user the name fuzzily matches, or -1. */
  function FuzzyIndex(users: seq<DirectoryUser>, name: string): (i: int)
    ensures -1 <= i < |users|
    ensures 0 <= i ==> FuzzyMatch(name, users[i])
    ensures forall k :: 0 <= k < |users| && (i < 0 || k < i) ==> !FuzzyMatch(name, users[k])
  {
    if users == [] then -1
    else if FuzzyMatch(name, users[0]) then 0
    else
      var j := FuzzyIndex(users[1..], name);
      assert forall k :: 0 < k < |users| ==> users[k] == users[1..][k - 1];
      if j < 0 then -1 else j + 1
  }

  /** The `replace` closure: a name that is some user's nickname stays; any
      other name becomes the nickname of the first user it fuzzily
      matches. */
  function Resolve(users: seq<DirectoryUser>, name: string): (r: Result<string, IdentityError>)
    ensures r.Failure? <==> forall k :: 0 <= k < |users| ==> users[k].nickname != name && !FuzzyMatch(name, users[k])
    ensures r.Failure? ==> r.error == NoNickname(name)
    ensures r.Success? ==> exists k :: 0 <= k < |users| && users[k].nickname == r.value
    ensures (exists k :: 0 <= k < |users| && users[k].nickname == name) ==> r == Success(name)
  {
    if NicknameIndex(users, name) >= 0 then Success(name)
    else
      var j := FuzzyIndex(users, name);
      if j < 0 then Failure(NoNickname(name)) else Success(users[j].nickname)
  }

  /** A name that is no nickname resolves to the nickname of the first user
      it fuzzily matches. */
  lemma ResolveFuzzy(users: seq<DirectoryUser>, name: string)
    requires forall k :: 0 <= k < |users| ==> users[k].nickname != name
    ensures Resolve(users, name).Success? ==>
      exists j :: 0 <= j < |users| && FuzzyMatch(name, users[j])
                  && Resolve(users, name).value == users[j].nickname
                  && forall k :: 0 <= k < j ==> !FuzzyMatch(name, users[k])
  {
    var j := FuzzyIndex(users, name);
    if Resolve(users, name).Success? {
      assert 0 <= j;
    }
  }

  /** Resolution is idempotent: a resolved name resolves to itself. */
  lemma ResolveIdempotent(users: seq<DirectoryUser>, name: string)
    ensures Resolve(users, name).Success? ==> Resolve(users, Resolve(users, name).value) == Resolve(users, name)
  {
  }

  /** The `replace` closure as a function value, so that every traversal
      below applies one and the same resolver. */
  function Resolver(users: seq<DirectoryUser>): string -> Result<string, IdentityError> {
    name => Resolve(users, name)
  }

  /** Applies `f` to every element in order and stops at the first failure,
      as each resolving loop of `replaceNamesByNicknames` does. */
  function Traverse<A, B, E>(f: A -> Result<B, E>, xs: seq<A>): (r: Result<seq<B>, E>)
    ensures r.Success? ==> |r.value| == |xs|
    ensures r.Success? ==> forall k :: 0 <= k < |xs| ==> f(xs[k]) == Success(r.value[k])
  {
    if xs == [] then Success([])
    else
      assert forall k :: 0 < k < |xs| ==> xs[k] == xs[1..][k - 1];
      var head :- f(xs[0]);
      var tail :- Traverse(f, xs[1..]);
      Success([head] + tail)
  }

  /** A traversal fails exactly when some element fails, and then with the
      error of the first element that does. */
  lemma {:induction false} TraverseFailure<A, B, E>(f: A -> Result<B, E>, xs: seq<A>)
    ensures Traverse(f, xs).Failure? <==> exists k :: 0 <= k < |xs| && f(xs[k]).Failure?
    ensures Traverse(f, xs).Failure? ==>
      exists k :: 0 <= k < |xs| && f(xs[k]) == Failure(Traverse(f, xs).error)
                  && forall i :: 0 <= i < k ==> f(xs[i]).Success?
    decreases |xs|
  {
    if xs != [] {
      assert forall k :: 0 < k < |xs| ==> xs[k] == xs[1..][k - 1];
      TraverseFailure(f, xs[1..]);
      if f(xs[0]).Success? && Traverse(f, xs[1..]).Failure? {
        var k :| 0 <= k < |xs[1..]| && f(xs[1..][k]) == Failure(Traverse(f, xs[1..]).error)
                 && forall i :: 0 <= i < k ==> f(xs[1..][i]).Success?;
        assert f(xs[k + 1]) == Failure(Traverse(f, xs).error);
      }
    }
  }

  /** Resolves a list of names in order; the first failure wins. */
  function ResolveAll(users: seq<DirectoryUser>, names: seq<string>): (r: Result<seq<string>, IdentityError>)
    ensures r.Success? ==> |r.value| == |names|
    ensures r.Success? ==> forall k :: 0 <= k < |names| ==> Resolve(users, names[k]) == Success(r.value[k])
  {
    Traverse(Resolver(users), names)
  }

  /** The list fails exactly when some name fails, and then with the error
      of the first name that does. */
  lemma ResolveAllFailure(users: seq<DirectoryUser>, names: seq<string>)
    ensures ResolveAll(users, names).Failure? <==> exists k :: 0 <= k < |names| && Resolve(users, names[k]).Failure?
    ensures ResolveAll(users, names).Failure? ==>
      exists k :: 0 <= k < |names| && Resolve(users, names[k]) == Failure(ResolveAll(users, names).error)
                  && forall i :: 0 <= i < k ==> Resolve(users, names[i]).Success?
  {
    TraverseFailure(Resolver(users), names);
  }

  /** One row of the users block with its name resolved. */
  function ResolveSeed(users: seq<DirectoryUser>, seed: UserTable.UserSeed): Result<UserTable.UserSeed, IdentityError> {
    var name :- Resolve(users, seed.name);
    Success(seed.(name := name))
  }

  function SeedResolver(users: seq<DirectoryUser>): UserTable.UserSeed -> Result<UserTable.UserSeed, IdentityError> {
    seed => ResolveSeed(users, seed)
  }

  /** The user list with every name resolved; status and role stay. */
  function ResolveSeeds(users: seq<DirectoryUser>, seeds: seq<UserTable.UserSeed>)
    : (r: Result<seq<UserTable.UserSeed>, IdentityError>)
    ensures r.Success? ==> |r.value| == |seeds|
    ensures r.Success? ==> forall k :: 0 <= k < |seeds| ==>
      Resolve(users, seeds[k].name).Success? && r.value[k] == seeds[k].(name := Resolve(users, seeds[k].name).value)
  {
    Traverse(SeedResolver(users), seeds)
  }

  /** The users fail exactly when one of their names fails. */
  lemma ResolveSeedsFailure(users: seq<DirectoryUser>, seeds: seq<UserTable.UserSeed>)
    ensures ResolveSeeds(users, seeds).Failure? <==> exists k :: 0 <= k < |seeds| && Resolve(users, seeds[k].name).Failure?
  {
    TraverseFailure(SeedResolver(users), seeds);
  }

  /** One meeting with its attendees resolved. */
  function ResolveMeeting(users: seq<DirectoryUser>, m: MeetingTable.Meeting): Result<MeetingTable.Meeting, IdentityError> {
    var attendees :- ResolveAll(users, m.attendees);
    Success(m.(attendees := attendees))
  }

  function MeetingResolver(users: seq<DirectoryUser>): MeetingTable.Meeting -> Result<MeetingTable.Meeting, IdentityError> {
    m => ResolveMeeting(users, m)
  }

  /** The meetings with every attendee resolved, meeting by meeting. */
  function ResolveMeetings(users: seq<DirectoryUser>, ms: seq<MeetingTable.Meeting>)
    : (r: Result<seq<MeetingTable.Meeting>, IdentityError>)
    ensures r.Success? ==> |r.value| == |ms|
    ensures r.Success? ==> forall k :: 0 <= k < |ms| ==>
      ResolveAll(users, ms[k].attendees).Success?
      && r.value[k] == ms[k].(attendees := ResolveAll(users, ms[k].attendees).value)
  {
    Traverse(MeetingResolver(users), ms)
  }

  /** The meetings fail exactly when one of their attendee lists fails. */
  lemma ResolveMeetingsFailure(users: seq<DirectoryUser>, ms: seq<MeetingTable.Meeting>)
    ensures ResolveMeetings(users, ms).Failure? <==> exists k :: 0 <= k < |ms| && ResolveAll(users, ms[k].attendees).Failure?
  {
    TraverseFailure(MeetingResolver(users), ms);
  }

  /** `order` visits every key of a map exactly once, as `range` does. */
  ghost predicate Enumerates<V>(order: seq<string>, m: map<string, V>) {
    && (forall k :: k in m <==> k in order)
    && (forall i, j :: 0 <= i < j < |order| ==> order[i] != order[j])
  }

  /** Rebuilds a map keyed by table names into one keyed by the names
      `resolve` gives them, visiting the keys in `order`. Two names resolving
      to the same nickname collide, and the one visited last wins. */
  function Rebuild<V>(resolve: string -> Result<string, IdentityError>, m: map<string, V>, order: seq<string>,
                      acc: map<string, V>)
    : (r: Result<map<string, V>, IdentityError>)
    requires forall k :: k in order ==> k in m
    ensures r.Failure? <==> exists i :: 0 <= i < |order| && resolve(order[i]).Failure?
    ensures r.Success? ==> forall n :: n in r.value <==>
      n in acc || exists i :: 0 <= i < |order| && resolve(order[i]) == Success(n)
    decreases |order|
  {
    if order == [] then Success(acc)
    else
      assert forall i :: 0 < i < |order| ==> order[i] == order[1..][i - 1];
      var nick :- resolve(order[0]);
      Rebuild(resolve, m, order[1..], acc[nick := m[order[0]]])
  }

  /** The value a rebuilt map holds for a nickname is that of the last key
      in visiting order that resolves to it. */
  lemma {:induction false} RebuildLastWins<V>(resolve: string -> Result<string, IdentityError>, m: map<string, V>,
                                              order: seq<string>, acc: map<string, V>, n: string, i: int)
    requires forall k :: k in order ==> k in m
    requires Rebuild(resolve, m, order, acc).Success?
    requires 0 <= i < |order| && resolve(order[i]) == Success(n)
    requires forall j :: i < j < |order| ==> resolve(order[j]) != Success(n)
    ensures n in Rebuild(resolve, m, order, acc).value
    ensures Rebuild(resolve, m, order, acc).value[n] == m[order[i]]
    decreases |order|
  {
    var nick := resolve(order[0]).value;
    var acc' := acc[nick := m[order[0]]];
    assert Rebuild(resolve, m, order, acc) == Rebuild(resolve, m, order[1..], acc');
    if i == 0 {
      RebuildKeeps(resolve, m, order[1..], acc', n);
    } else {
      RebuildLastWins(resolve, m, order[1..], acc', n, i - 1);
    }
  }

  /** A key no later name resolves to keeps its accumulated value. */
  lemma {:induction false} RebuildKeeps<V>(resolve: string -> Result<string, IdentityError>, m: map<string, V>,
                                           order: seq<string>, acc: map<string, V>, n: string)
    requires forall k :: k in order ==> k in m
    requires Rebuild(resolve, m, order, acc).Success?
    requires n in acc
    requires forall j :: 0 <= j < |order| ==> resolve(order[j]) != Success(n)
    ensures n in Rebuild(resolve, m, order, acc).value
    ensures Rebuild(resolve, m, order, acc).value[n] == acc[n]
    decreases |order|
  {
    if order != [] {
      var nick := resolve(order[0]).value;
      RebuildKeeps(resolve, m, order[1..], acc[nick := m[order[0]]], n);
    }
  }

  /** The table name "Ann" is no nickname but fuzzily matches the user
      "ann" whose first name is Ann, so both names resolve to "ann". */
  lemma AnnResolves()
    ensures Resolve([DirectoryUser("ann", Some("Ann"), None)], "Ann") == Success("ann")
    ensures Resolve([DirectoryUser("ann", Some("Ann"), None)], "ann") == Success("ann")
  {
    var users := [DirectoryUser("ann", Some("Ann"), None)];
    LowerCased("Ann", "ann");
    ContainsEmpty("ann");
    OccursContains("ann", "ann", 0);
    assert FuzzyMatch("Ann", users[0]);
    assert FuzzyIndex(users, "Ann") == 0;
  }

  /** Two names resolving to the same nickname collide: the rebuilt map
      holds the value of whichever was visited last. */
  lemma RebuildCollision<V>(resolve: string -> Result<string, IdentityError>, m: map<string, V>,
                            a: string, b: string, n: string)
    requires a in m && b in m && resolve(a) == Success(n) && resolve(b) == Success(n)
    ensures Rebuild(resolve, m, [a, b], map[]) == Success(map[n := m[b]])
    ensures Rebuild(resolve, m, [b, a], map[]) == Success(map[n := m[a]])
  {
    assert [a, b][1..] == [b] && [b][1..] == [];
    assert Rebuild(resolve, m, [a, b], map[]) == Rebuild(resolve, m, [b], map[n := m[a]]);
    assert Rebuild(resolve, m, [b], map[n := m[a]]) == Success(map[n := m[a]][n := m[b]]);
    assert map[n := m[a]][n := m[b]] == map[n := m[b]];
    assert [b, a][1..] == [a] && [a][1..] == [];
    assert Rebuild(resolve, m, [b, a], map[]) == Rebuild(resolve, m, [a], map[n := m[b]]);
    assert Rebuild(resolve, m, [a], map[n := m[b]]) == Success(map[n := m[b]][n := m[a]]);
    assert map[n := m[b]][n := m[a]] == map[n := m[a]];
  }

  /** With the directory holding only Ann, the table names "Ann" and "ann"
      collide, and the map's visiting order decides which value survives. */
  lemma AnnCollision()
    ensures var users := [DirectoryUser("ann", Some("Ann"), None)];
            var m := map["Ann" := 1, "ann" := 2];
            && Rebuild(Resolver(users), m, ["Ann", "ann"], map[]) == Success(map["ann" := 2])
            && Rebuild(Resolver(users), m, ["ann", "Ann"], map[]) == Success(map["ann" := 1])
  {
    var users := [DirectoryUser("ann", Some("Ann"), None)];
    AnnResolves();
    RebuildCollision(Resolver(users), map["Ann" := 1, "ann" := 2], "Ann", "ann", "ann");
  }

  /** `replaceNamesByNicknames`: users first, then the meetings in their
      sorted order, then the appearance and the absence maps in the visiting
      orders given; the first name that resolves to no user is reported. */
  function ResolveTable(t: Table, users: seq<DirectoryUser>, appearanceOrder: seq<string>, absenceOrder: seq<string>)
    : (r: Result<Table, IdentityError>)
    requires Enumerates(appearanceOrder, t.appearances) && Enumerates(absenceOrder, t.absences)
    ensures r.Success? ==> |r.value.users| == |t.users| && |r.value.meetings| == |t.meetings|
    ensures r.Success? ==> forall k :: 0 <= k < |t.meetings| ==>
      r.value.meetings[k].start == t.meetings[k].start && r.value.meetings[k].gathering == t.meetings[k].gathering
    ensures r.Success? ==> forall k :: 0 <= k < |t.users| ==>
      Resolve(users, t.users[k].name).Success? && r.value.users[k].name == Resolve(users, t.users[k].name).value
    ensures r.Success? ==> forall k :: 0 <= k < |t.meetings| ==>
      ResolveAll(users, t.meetings[k].attendees).Success?
      && r.value.meetings[k].attendees == ResolveAll(users, t.meetings[k].attendees).value
    ensures r.Success? ==>
      && Rebuild(Resolver(users), t.appearances, appearanceOrder, map[]) == Success(r.value.appearances)
      && Rebuild(Resolver(users), t.absences, absenceOrder, map[]) == Success(r.value.absences)
    ensures r.Success? ==> forall n :: n in r.value.appearances <==> exists a :: a in t.appearances && Resolve(users, a) == Success(n)
    ensures r.Success? ==> forall n :: n in r.value.absences <==> exists a :: a in t.absences && Resolve(users, a) == Success(n)
  {
    var seeds :- ResolveSeeds(users, t.users);
    var meetings :- ResolveMeetings(users, t.meetings);
    var appearances :- Rebuild(Resolver(users), t.appearances, appearanceOrder, map[]);
    var absences :- Rebuild(Resolver(users), t.absences, absenceOrder, map[]);
    RebuildKeySet(users, t.appearances, appearanceOrder);
    RebuildKeySet(users, t.absences, absenceOrder);
    Success(Table(seeds, meetings, appearances, absences))
  }

  /** Rebuilding a whole map from scratch keys it by exactly the nicknames
      its keys resolve to. */
  lemma RebuildKeySet<V>(users: seq<DirectoryUser>, m: map<string, V>, order: seq<string>)
    requires Enumerates(order, m)
    ensures Rebuild(Resolver(users), m, order, map[]).Success? ==>
      forall n :: n in Rebuild(Resolver(users), m, order, map[]).value <==> exists a :: a in m && Resolve(users, a) == Success(n)
  {
    if Rebuild(Resolver(users), m, order, map[]).Success? {
      forall n ensures n in Rebuild(Resolver(users), m, order, map[]).value <==> exists a :: a in m && Resolve(users, a) == Success(n) {
        if exists a :: a in m && Resolve(users, a) == Success(n) {
          var a :| a in m && Resolve(users, a) == Success(n);
          var i :| 0 <= i < |order| && order[i] == a;
          assert Resolver(users)(order[i]) == Success(n);
        }
      }
    }
  }

  /** Every name the table mentions. */
  predicate Mentions(t: Table, name: string) {
    || (exists k :: 0 <= k < |t.users| && t.users[k].name == name)
    || (exists k :: 0 <= k < |t.meetings| && name in t.meetings[k].attendees)
    || name in t.appearances
    || name in t.absences
  }

  /** Resolution fails exactly when the table mentions a name that is no
      nickname and fuzzily matches no user. */
  lemma ResolveTableFailure(t: Table, users: seq<DirectoryUser>, appearanceOrder: seq<string>, absenceOrder: seq<string>)
    requires Enumerates(appearanceOrder, t.appearances) && Enumerates(absenceOrder, t.absences)
    ensures ResolveTable(t, users, appearanceOrder, absenceOrder).Failure? <==>
      exists name :: Mentions(t, name) && Resolve(users, name).Failure?
  {
    if exists name :: Mentions(t, name) && Resolve(users, name).Failure? {
      var name :| Mentions(t, name) && Resolve(users, name).Failure?;
      UnresolvedNameFails(t, users, appearanceOrder, absenceOrder, name);
    }
    if ResolveTable(t, users, appearanceOrder, absenceOrder).Failure? {
      FailureNamesName(t, users, appearanceOrder, absenceOrder);
    }
  }

  /** The table fails exactly when one of its four parts does. */
  lemma ResolveTableParts(t: Table, users: seq<DirectoryUser>, appearanceOrder: seq<string>, absenceOrder: seq<string>)
    requires Enumerates(appearanceOrder, t.appearances) && Enumerates(absenceOrder, t.absences)
    ensures ResolveTable(t, users, appearanceOrder, absenceOrder).Failure? <==>
      || ResolveSeeds(users, t.users).Failure?
      || ResolveMeetings(users, t.meetings).Failure?
      || Rebuild(Resolver(users), t.appearances, appearanceOrder, map[]).Failure?
      || Rebuild(Resolver(users), t.absences, absenceOrder, map[]).Failure?
  {
  }

  lemma UnresolvedNameFails(t: Table, users: seq<DirectoryUser>, appearanceOrder: seq<string>, absenceOrder: seq<string>, name: string)
    requires Enumerates(appearanceOrder, t.appearances) && Enumerates(absenceOrder, t.absences)
    requires Mentions(t, name) && Resolve(users, name).Failure?
    ensures ResolveTable(t, users, appearanceOrder, absenceOrder).Failure?
  {
    ResolveTableParts(t, users, appearanceOrder, absenceOrder);
    if k :| 0 <= k < |t.users| && t.users[k].name == name {
      ResolveSeedsFailure(users, t.users);
    } else if k :| 0 <= k < |t.meetings| && name in t.meetings[k].attendees {
      UnresolvedAttendeeFails(users, t.meetings, k, name);
    } else if name in t.appearances {
      UnresolvedKeyFails(users, t.appearances, appearanceOrder, name);
    } else {
      UnresolvedKeyFails(users, t.absences, absenceOrder, name);
    }
  }

  lemma UnresolvedAttendeeFails(users: seq<DirectoryUser>, ms: seq<MeetingTable.Meeting>, k: int, name: string)
    requires 0 <= k < |ms| && name in ms[k].attendees && Resolve(users, name).Failure?
    ensures ResolveMeetings(users, ms).Failure?
  {
    var i :| 0 <= i < |ms[k].attendees| && ms[k].attendees[i] == name;
    ResolveAllFailure(users, ms[k].attendees);
    ResolveMeetingsFailure(users, ms);
  }

  lemma UnresolvedKeyFails<V>(users: seq<DirectoryUser>, m: map<string, V>, order: seq<string>, name: string)
    requires Enumerates(order, m) && name in m && Resolve(users, name).Failure?
    ensures Rebuild(Resolver(users), m, order, map[]).Failure?
  {
    var i :| 0 <= i < |order| && order[i] == name;
    assert Resolver(users)(order[i]).Failure?;
  }

  lemma FailureNamesName(t: Table, users: seq<DirectoryUser>, appearanceOrder: seq<string>, absenceOrder: seq<string>)
    requires Enumerates(appearanceOrder, t.appearances) && Enumerates(absenceOrder, t.absences)
    requires ResolveTable(t, users, appearanceOrder, absenceOrder).Failure?
    ensures exists name :: Mentions(t, name) && Resolve(users, name).Failure?
  {
    ResolveTableParts(t, users, appearanceOrder, absenceOrder);
    if ResolveSeeds(users, t.users).Failure? {
      ResolveSeedsFailure(users, t.users);
      var k :| 0 <= k < |t.users| && Resolve(users, t.users[k].name).Failure?;
      assert Mentions(t, t.users[k].name);
    } else if ResolveMeetings(users, t.meetings).Failure? {
      var name := FailingAttendee(users, t.meetings);
      assert Mentions(t, name);
    } else if Rebuild(Resolver(users), t.appearances, appearanceOrder, map[]).Failure? {
      var i :| 0 <= i < |appearanceOrder| && Resolver(users)(appearanceOrder[i]).Failure?;
      assert Mentions(t, appearanceOrder[i]);
    } else {
      var i :| 0 <= i < |absenceOrder| && Resolver(users)(absenceOrder[i]).Failure?;
      assert Mentions(t, absenceOrder[i]);
    }
  }

  lemma FailingAttendee(users: seq<DirectoryUser>, ms: seq<MeetingTable.Meeting>) returns (name: string)
    requires ResolveMeetings(users, ms).Failure?
    ensures exists k :: 0 <= k < |ms| && name in ms[k].attendees
    ensures Resolve(users, name).Failure?
  {
    ResolveMeetingsFailure(users, ms);
    var k :| 0 <= k < |ms| && ResolveAll(users, ms[k].attendees).Failure?;
    ResolveAllFailure(users, ms[k].attendees);
    var i :| 0 <= i < |ms[k].attendees| && Resolve(users, ms[k].attendees[i]).Failure?;
    name := ms[k].attendees[i];
  }

  /** A nickname of some directory user. */
  predicate IsNickname(users: seq<DirectoryUser>, name: string) {
    exists k :: 0 <= k < |users| && users[k].nickname == name
  }

  /** After resolution every name the table mentions is the nickname of a
      database user. */
  lemma ResolvedNamesAreNicknames(t: Table, users: seq<DirectoryUser>, appearanceOrder: seq<string>, absenceOrder: seq<string>)
    requires Enumerates(appearanceOrder, t.appearances) && Enumerates(absenceOrder, t.absences)
    ensures ResolveTable(t, users, appearanceOrder, absenceOrder).Success? ==>
      forall name :: Mentions(ResolveTable(t, users, appearanceOrder, absenceOrder).value, name) ==>
        IsNickname(users, name)
  {
    if ResolveTable(t, users, appearanceOrder, absenceOrder).Failure? { return; }
    var r := ResolveTable(t, users, appearanceOrder, absenceOrder).value;
    assert ResolveSeeds(users, t.users) == Success(r.users);
    assert ResolveMeetings(users, t.meetings) == Success(r.meetings);
    assert Rebuild(Resolver(users), t.appearances, appearanceOrder, map[]) == Success(r.appearances);
    assert Rebuild(Resolver(users), t.absences, absenceOrder, map[]) == Success(r.absences);
    SeedNamesAreNicknames(users, t.users, r.users);
    AttendeesAreNicknames(users, t.meetings, r.meetings);
    RebuiltKeysAreNicknames(users, t.appearances, appearanceOrder, r.appearances);
    RebuiltKeysAreNicknames(users, t.absences, absenceOrder, r.absences);
  }

  lemma SeedNamesAreNicknames(users: seq<DirectoryUser>, seeds: seq<UserTable.UserSeed>, resolved: seq<UserTable.UserSeed>)
    requires ResolveSeeds(users, seeds) == Success(resolved)
    ensures forall j :: 0 <= j < |resolved| ==> IsNickname(users, resolved[j].name)
  {
    forall j | 0 <= j < |resolved| ensures IsNickname(users, resolved[j].name) {
      assert Resolve(users, seeds[j].name) == Success(resolved[j].name);
    }
  }

  lemma AttendeesAreNicknames(users: seq<DirectoryUser>, ms: seq<MeetingTable.Meeting>, resolved: seq<MeetingTable.Meeting>)
    requires ResolveMeetings(users, ms) == Success(resolved)
    ensures forall j, name :: 0 <= j < |resolved| && name in resolved[j].attendees ==> IsNickname(users, name)
  {
    forall j, name | 0 <= j < |resolved| && name in resolved[j].attendees ensures IsNickname(users, name) {
      var attendees := resolved[j].attendees;
      assert ResolveAll(users, ms[j].attendees) == Success(attendees);
      var i :| 0 <= i < |attendees| && attendees[i] == name;
      assert Resolve(users, ms[j].attendees[i]) == Success(name);
    }
  }

  lemma RebuiltKeysAreNicknames<V>(users: seq<DirectoryUser>, m: map<string, V>, order: seq<string>, resolved: map<string, V>)
    requires forall k :: k in order ==> k in m
    requires Rebuild(Resolver(users), m, order, map[]) == Success(resolved)
    ensures forall name :: name in resolved ==> IsNickname(users, name)
  {
    forall name | name in resolved ensures IsNickname(users, name) {
      var i :| 0 <= i < |order| && Resolver(users)(order[i]) == Success(name);
      assert Resolve(users, order[i]) == Success(name);
    }
  }
}

=== FILE: import.dfy ===
/** The import command: the committee's old meetings, memberships and
    leaves of absence are deleted, then the table is replayed meeting by
    meeting. Each step is a separate statement, so an error part-way leaves
    the store as far as the replay got. */
module Import {
  import opened Wrappers
  import opened Models
  import Grid
  import UserTable
  import MeetingTable
  import opened CommitteeTable
  import Identity

  datatype ImportError =
    | LoadFailed(loadError: LoadError)
    | CommitteeNotFound(committee: string)
    | Unresolved(identityError: Identity.IdentityError)
    | AppearingUserNotFound(name: string)

  /** The store the import leaves behind and the error it stopped with. */
  datatype Outcome = Outcome(store: Store, failure: Option<ImportError>)

  /** `d.appearances[att]`: a name without an entry reads as the zero
      time. */
  function Appearance(appearances: map<string, Time>, name: string): Time {
    if name in appearances then appearances[name] else ZeroTime
  }

  /** The position of the first element of `xs` that satisfies `p`, or -1
      when none does: the loop shared by `findUser` and `findCommittee`. */
  function FirstWhere<T>(xs: seq<T>, p: T -> bool): (i: int)
    ensures -1 <= i < |xs|
    ensures i == -1 <==> forall k :: 0 <= k < |xs| ==> !p(xs[k])
    ensures 0 <= i ==> p(xs[i]) && forall k :: 0 <= k < i ==> !p(xs[k])
  {
    if xs == [] then -1
    else if p(xs[0]) then 0
    else
      assert forall k :: 0 < k < |xs| ==> xs[k] == xs[1..][k - 1];
      var i := FirstWhere(xs[1..], p);
      if i == -1 then -1 else i + 1
  }

  /** `findUser`: the first user of the table with that name. */
  function FindUser(users: seq<UserTable.UserSeed>, name: string): (r: Option<UserTable.UserSeed>)
    ensures r.None? <==> forall k :: 0 <= k < |users| ==> users[k].name != name
    ensures r.Some? ==> exists k :: 0 <= k < |users| && users[k] == r.value
                                   && forall i :: 0 <= i < k ==> users[i].name != name
    ensures r.Some? ==> r.value.name == name
  {
    var i := FirstWhere(users, (u: UserTable.UserSeed) => u.name == name);
    if i == -1 then None else Some(users[i])
  }

  /** `findCommittee`: the first committee with that name. */
  function FindCommittee(committees: seq<Committee>, name: string): (r: Option<Committee>)
    ensures r.None? <==> forall k :: 0 <= k < |committees| ==> committees[k].name != name
    ensures r.Some? ==> exists k :: 0 <= k < |committees| && committees[k] == r.value
                                   && forall i :: 0 <= i < k ==> committees[i].name != name
    ensures r.Some? ==> r.value.name == name
  {
    var i := FirstWhere(committees, (c: Committee) => c.name == name);
    if i == -1 then None else Some(committees[i])
  }

  /** The membership a user joins the committee with. */
  function FirstMembership(u: UserTable.UserSeed, c: Committee): Membership {
    Membership(c.id, u.initialStatus, [u.initialRole])
  }

  /** The attendees whose first appearance is `start`, in attendee order. */
  function Joiners(t: Table, start: Time, attendees: seq<string>): (names: seq<string>)
    ensures forall a :: a in names <==> a in attendees && Appearance(t.appearances, a) == start
  {
    if attendees == [] then []
    else (if Appearance(t.appearances, attendees[0]) == start then [attendees[0]] else [])
         + Joiners(t, start, attendees[1..])
  }

  /** The membership request an attendee joining the committee gets, when
      the table has a row for them. */
  function JoinEntry(t: Table, a: string, c: Committee): Option<HistoryEntry> {
    match FindUser(t.users, a)
    case None => None
    case Some(u) => Some(HistoryEntry(a, FirstMembership(u, c)))
  }

  /** The membership requests for `names`, in order; a name without a table
      row gets none. */
  function JoinEntries(t: Table, names: seq<string>, c: Committee): (h: seq<HistoryEntry>)
    ensures |h| <= |names|
  {
    if names == [] then []
    else
      (match JoinEntry(t, names[0], c) case None => [] case Some(e) => [e])
      + JoinEntries(t, names[1..], c)
  }

  /** `storeNewMembers`: an attendee whose first appearance is this meeting
      joins the committee with the status and role of their table row. An
      appearing attendee without a table row stops the import after the
      requests already made. */
  function StoreNewMembers(s: Store, t: Table, start: Time, attendees: seq<string>, c: Committee): (o: Outcome)
    ensures o.store.meetings == s.meetings && o.store.nextId == s.nextId && o.store.absences == s.absences
    ensures o.failure.Some? ==> o.failure.value.AppearingUserNotFound?
    decreases |attendees|
  {
    if attendees == [] then Outcome(s, None)
    else
      var att := attendees[0];
      if Appearance(t.appearances, att) == start then
        match FindUser(t.users, att)
        case None => Outcome(s, Some(AppearingUserNotFound(att)))
        case Some(u) => StoreNewMembers(UpdateMemberships(s, u.name, [FirstMembership(u, c)]), t, start, attendees[1..], c)
      else StoreNewMembers(s, t, start, attendees[1..], c)
  }

  /** The new members stop the import exactly when an attendee appearing
      for the first time has no table row. */
  lemma {:induction false} StoreNewMembersFailure(s: Store, t: Table, start: Time, attendees: seq<string>, c: Committee)
    ensures StoreNewMembers(s, t, start, attendees, c).failure.Some? <==>
      Orphan(t, start, attendees)
    decreases |attendees|
  {
    if attendees != [] {
      var att := attendees[0];
      assert Joiners(t, start, attendees) ==
        (if Appearance(t.appearances, att) == start then [att] else []) + Joiners(t, start, attendees[1..]);
      if Appearance(t.appearances, att) == start && FindUser(t.users, att).Some? {
        var u := FindUser(t.users, att).value;
        StoreNewMembersFailure(UpdateMemberships(s, u.name, [FirstMembership(u, c)]), t, start, attendees[1..], c);
      } else if Appearance(t.appearances, att) != start {
        StoreNewMembersFailure(s, t, start, attendees[1..], c);
      }
    }
  }

  /** Otherwise every appearing attendee has a table row. */
  lemma StoreNewMembersKnown(s: Store, t: Table, start: Time, attendees: seq<string>, c: Committee)
    requires StoreNewMembers(s, t, start, attendees, c).failure.None?
    ensures forall a :: a in Joiners(t, start, attendees) ==> FindUser(t.users, a).Some?
  {
    StoreNewMembersFailure(s, t, start, attendees, c);
  }

  /** And each of them gets one membership request, in attendee order. */
  lemma {:induction false} StoreNewMembersHistory(s: Store, t: Table, start: Time, attendees: seq<string>, c: Committee)
    requires StoreNewMembers(s, t, start, attendees, c).failure.None?
    ensures StoreNewMembers(s, t, start, attendees, c).store.history
         == s.history + JoinEntries(t, Joiners(t, start, attendees), c)
    decreases |attendees|
  {
    if attendees == [] {
      assert s.history + [] == s.history;
    } else {
      var att := attendees[0];
      var rest := Joiners(t, start, attendees[1..]);
      if Appearance(t.appearances, att) == start {
        var u := FindUser(t.users, att).value;
        var s' := UpdateMemberships(s, u.name, [FirstMembership(u, c)]);
        var e := HistoryEntry(att, FirstMembership(u, c));
        StoreNewMembersHistory(s', t, start, attendees[1..], c);
        assert Joiners(t, start, attendees) == [att] + rest;
        assert ([att] + rest)[1..] == rest;
        assert JoinEntries(t, Joiners(t, start, attendees), c) == [e] + JoinEntries(t, rest, c);
        assert s'.history == s.history + [e];
        assert StoreNewMembers(s, t, start, attendees, c) == StoreNewMembers(s', t, start, attendees[1..], c);
        Regroup(s.history, [e], JoinEntries(t, rest, c));
      } else {
        assert Joiners(t, start, attendees) == rest;
        StoreNewMembersHistory(s, t, start, attendees[1..], c);
      }
    }
  }

  lemma Regroup<T>(a: seq<T>, b: seq<T>, c: seq<T>)
    ensures (a + b) + c == a + (b + c)
  {
  }

  /** The `member_absent` row for a leave during the meeting from `start` to
      `stop`: the interval is widened by one second on both sides. */
  function AbsenceRow(name: string, start: Time, stop: Time, c: CommitteeId): Absence {
    Absence(name, start - Second, stop + Second, c)
  }

  /** The rows the leave dates `dates` of `name` ask for: one per date equal
      to `start`. */
  function RowsFor(name: string, dates: seq<Time>, start: Time, stop: Time, c: CommitteeId): multiset<Absence> {
    multiset{}[AbsenceRow(name, start, stop, c) := multiset(dates)[start]]
  }

  /** One row per date of `dates` equal to `start`. */
  function InsertRows(s: Store, name: string, dates: seq<Time>, start: Time, stop: Time, c: CommitteeId): (s': Store)
    ensures s'.meetings == s.meetings && s'.nextId == s.nextId && s'.history == s.history
    ensures multiset(s'.absences) == multiset(s.absences) + RowsFor(name, dates, start, stop, c)
    decreases |dates|
  {
    if dates == [] then s
    else
      assert dates == [dates[0]] + dates[1..];
      var row := AbsenceRow(name, start, stop, c);
      var here: multiset<Absence> := if dates[0] == start then multiset{row} else multiset{};
      assert RowsFor(name, dates, start, stop, c) == here + RowsFor(name, dates[1..], start, stop, c);
      var s1 := if dates[0] == start then InsertAbsence(s, row) else s;
      InsertRows(s1, name, dates[1..], start, stop, c)
  }

  /** The rows for every name of `order`. */
  function AddedRows(absences: map<string, seq<Time>>, order: seq<string>,
                     start: Time, stop: Time, c: CommitteeId): multiset<Absence>
    requires forall k :: k in order ==> k in absences
  {
    if order == [] then multiset{}
    else RowsFor(order[0], absences[order[0]], start, stop, c) + AddedRows(absences, order[1..], start, stop, c)
  }

  /** How many copies of row `x` leaving on the meeting from `start` to
      `stop` adds, when the names in `order` are visited. */
  function LeaveRows(absences: map<string, seq<Time>>, order: seq<string>, x: Absence,
                     start: Time, stop: Time, c: CommitteeId): nat
  {
    if x == AbsenceRow(x.nickname, start, stop, c) && x.nickname in order && x.nickname in absences
    then multiset(absences[x.nickname])[start] else 0
  }

  /** Visiting each name once, row `x` is added once per leave of its own
      name dated `start`, and only when its interval is that meeting's. */
  lemma {:induction false} AddedRowsCount(absences: map<string, seq<Time>>, order: seq<string>, x: Absence,
                                          start: Time, stop: Time, c: CommitteeId)
    requires forall k :: k in order ==> k in absences
    requires forall i, j :: 0 <= i < j < |order| ==> order[i] != order[j]
    ensures AddedRows(absences, order, start, stop, c)[x] == LeaveRows(absences, order, x, start, stop, c)
    decreases |order|
  {
    if order != [] {
      assert forall i :: 0 < i < |order| ==> order[i] == order[1..][i - 1];
      AddedRowsCount(absences, order[1..], x, start, stop, c);
      var rest := AddedRows(absences, order[1..], start, stop, c);
      assert AddedRows(absences, order, start, stop, c) == RowsFor(order[0], absences[order[0]], start, stop, c) + rest;
      assert order[0] !in order[1..];
      RowsStep(absences, order, x, start, stop, c, rest);
    }
  }

  /** The induction step of `AddedRowsCount`, on the multisets alone. */
  lemma RowsStep(absences: map<string, seq<Time>>, order: seq<string>, x: Absence,
                 start: Time, stop: Time, c: CommitteeId, rest: multiset<Absence>)
    requires order != [] && order[0] in absences && order[0] !in order[1..]
    requires rest[x] == LeaveRows(absences, order[1..], x, start, stop, c)
    ensures (RowsFor(order[0], absences[order[0]], start, stop, c) + rest)[x] == LeaveRows(absences, order, x, start, stop, c)
  {
  }

  /** `storeAbsences`: for every name on leave, visited in `order`, one row
      per leave dated `start`. */
  function StoreAbsences(s: Store, absences: map<string, seq<Time>>, order: seq<string>,
                         start: Time, stop: Time, c: CommitteeId): (s': Store)
    requires forall k :: k in order ==> k in absences
    ensures s'.meetings == s.meetings && s'.nextId == s.nextId && s'.history == s.history
    ensures multiset(s'.absences) == multiset(s.absences) + AddedRows(absences, order, start, stop, c)
    decreases |order|
  {
    if order == [] then s
    else
      var s1 := InsertRows(s, order[0], absences[order[0]], start, stop, c);
      StoreAbsences(s1, absences, order[1..], start, stop, c)
  }

  /** The rows `storeAbsences` writes do not depend on the order Go's map
      iteration happens to pick. */
  lemma StoreAbsencesOrderFree(s: Store, absences: map<string, seq<Time>>, o1: seq<string>, o2: seq<string>,
                               start: Time, stop: Time, c: CommitteeId)
    requires Identity.Enumerates(o1, absences) && Identity.Enumerates(o2, absences)
    ensures multiset(StoreAbsences(s, absences, o1, start, stop, c).absences)
         == multiset(StoreAbsences(s, absences, o2, start, stop, c).absences)
  {
    forall x ensures AddedRows(absences, o1, start, stop, c)[x] == AddedRows(absences, o2, start, stop, c)[x] {
      AddedRowsCount(absences, o1, x, start, stop, c);
      AddedRowsCount(absences, o2, x, start, stop, c);
    }
    assert AddedRows(absences, o1, start, stop, c) == AddedRows(absences, o2, start, stop, c);
  }

  /** The meeting record the import leaves for table meeting `m`: one hour
      long, attended by its attendees at its start, concluded at its end. */
  function Imported(m: MeetingTable.Meeting, c: Committee): StoredMeeting {
    StoredMeeting(c.id, m.gathering, m.start, m.start + Hour, None,
                  AttendanceOf(m.attendees, m.start), Some(m.start + Hour))
  }

  /** One iteration of the replay loop. */
  function ReplayMeeting(s: Store, t: Table, m: MeetingTable.Meeting, c: Committee, order: seq<string>): (o: Outcome)
    requires forall k :: k in order ==> k in t.absences
    ensures o.failure.Some? ==> o.store.meetings == s.meetings && o.store.nextId == s.nextId
                                && o.store.absences == s.absences
    ensures o.failure.Some? ==> o.failure.value.AppearingUserNotFound?
    ensures o.failure.None? ==> o.store.nextId == s.nextId + 1
                                && o.store.meetings == s.meetings[s.nextId := Imported(m, c)]
    ensures o.failure.None? ==> multiset(o.store.absences)
                                == multiset(s.absences) + AddedRows(t.absences, order, m.start, m.start + Hour, c.id)
  {
    var members := StoreNewMembers(s, t, m.start, m.attendees, c);
    if members.failure.Some? then members
    else
      var s2 := StoreAbsences(members.store, t.absences, order, m.start, m.start + Hour, c.id);
      Outcome(RecordMeeting(s2, m, c), None)
  }

  /** Storing the meeting, marking its attendance and concluding it: the
      record `Imported(m, c)` lands under the next free ID. */
  function RecordMeeting(s: Store, m: MeetingTable.Meeting, c: Committee): (s': Store)
    ensures s'.nextId == s.nextId + 1 && s'.meetings == s.meetings[s.nextId := Imported(m, c)]
    ensures s'.history == s.history && s'.absences == s.absences
  {
    var from := m.start;
    var to := m.start + Hour;
    var (s3, id) := StoreNewMeeting(s, StoredMeeting(c.id, m.gathering, from, to, None, [], None));
    var s4 := Attend(s3, id, m.attendees, from);
    assert [] + AttendanceOf(m.attendees, from) == AttendanceOf(m.attendees, from);
    assert s4.meetings[id] == StoredMeeting(c.id, m.gathering, from, to, None, AttendanceOf(m.attendees, from), None);
    var s5 := ConcludeMeeting(s4, id, c.id, to);
    assert s5.meetings == s.meetings[s.nextId := Imported(m, c)];
    s5
  }

  /** One meeting stops the import exactly when it has an orphan. */
  lemma ReplayMeetingFails(s: Store, t: Table, m: MeetingTable.Meeting, c: Committee, order: seq<string>)
    requires forall k :: k in order ==> k in t.absences
    ensures ReplayMeeting(s, t, m, c, order).failure.Some? <==> OrphanAt(t, m)
  {
    var members := StoreNewMembers(s, t, m.start, m.attendees, c);
    assert ReplayMeeting(s, t, m, c, order).failure.Some? <==> members.failure.Some?;
    StoreNewMembersFailure(s, t, m.start, m.attendees, c);
    assert members.failure.Some? <==> OrphanAt(t, m);
  }

  /** What one meeting adds to the membership history. */
  lemma ReplayMeetingHistory(s: Store, t: Table, m: MeetingTable.Meeting, c: Committee, order: seq<string>)
    requires forall k :: k in order ==> k in t.absences
    requires ReplayMeeting(s, t, m, c, order).failure.None?
    ensures forall a :: a in Joiners(t, m.start, m.attendees) ==> FindUser(t.users, a).Some?
    ensures ReplayMeeting(s, t, m, c, order).store.history
         == s.history + JoinEntries(t, Joiners(t, m.start, m.attendees), c)
  {
    StoreNewMembersKnown(s, t, m.start, m.attendees, c);
    StoreNewMembersHistory(s, t, m.start, m.attendees, c);
  }

  /** A meeting some attendee first appears at without a table row of
      their own. */
  predicate OrphanAt(t: Table, m: MeetingTable.Meeting) {
    Orphan(t, m.start, m.attendees)
  }

  /** Some attendee first appearing at `start` has no table row. */
  predicate Orphan(t: Table, start: Time, attendees: seq<string>) {
    exists a :: a in Joiners(t, start, attendees) && FindUser(t.users, a).None?
  }

  /** The replay loop over the sorted meetings; the first error stops it. */
  function ReplayMeetings(s: Store, t: Table, ms: seq<MeetingTable.Meeting>, c: Committee, order: seq<string>): (o: Outcome)
    requires forall k :: k in order ==> k in t.absences
    ensures o.store.nextId >= s.nextId
    ensures o.failure.Some? ==> o.failure.value.AppearingUserNotFound?
    decreases |ms|
  {
    if ms == [] then Outcome(s, None)
    else
      var o := ReplayMeeting(s, t, ms[0], c, order);
      if o.failure.Some? then o
      else ReplayMeetings(o.store, t, ms[1..], c, order)
  }

  /** Whatever the outcome, the replay keeps every meeting it found and
      only adds meetings under fresh IDs. */
  lemma {:induction false} ReplayMeetingsKeeps(s: Store, t: Table, ms: seq<MeetingTable.Meeting>, c: Committee, order: seq<string>)
    requires forall k :: k in order ==> k in t.absences
    requires Valid(s)
    ensures var o := ReplayMeetings(s, t, ms, c, order);
      && Valid(o.store)
      && (forall id :: id in s.meetings ==> id in o.store.meetings && o.store.meetings[id] == s.meetings[id])
      && (forall id :: id in o.store.meetings ==> id in s.meetings || s.nextId <= id)
    decreases |ms|
  {
    if ms != [] {
      var o := ReplayMeeting(s, t, ms[0], c, order);
      if o.failure.None? {
        FreshIdValid(s, o.store, Imported(ms[0], c));
        ReplayMeetingsKeeps(o.store, t, ms[1..], c, order);
        var r := ReplayMeetings(o.store, t, ms[1..], c, order);
        assert ReplayMeetings(s, t, ms, c, order) == r;
        KeepsStep(s, o.store, r.store, Imported(ms[0], c));
      }
    }
  }

  /** Storing a meeting under the next free ID keeps the store valid. */
  lemma FreshIdValid(s: Store, s': Store, m: StoredMeeting)
    requires Valid(s) && s'.nextId == s.nextId + 1 && s'.meetings == s.meetings[s.nextId := m]
    ensures Valid(s')
  {
  }

  /** The induction step of `ReplayMeetingsKeeps`, on the stores alone. */
  lemma KeepsStep(s: Store, mid: Store, after: Store, m: StoredMeeting)
    requires Valid(s) && mid.nextId == s.nextId + 1 && mid.meetings == s.meetings[s.nextId := m]
    requires forall id :: id in mid.meetings ==> id in after.meetings && after.meetings[id] == mid.meetings[id]
    requires forall id :: id in after.meetings ==> id in mid.meetings || mid.nextId <= id
    ensures forall id :: id in s.meetings ==> id in after.meetings && after.meetings[id] == s.meetings[id]
    ensures forall id :: id in after.meetings ==> id in s.meetings || s.nextId <= id
  {
    forall id | id in s.meetings ensures id in after.meetings && after.meetings[id] == s.meetings[id] {
      assert id != s.nextId;
    }
  }

  /** `run` after the names are resolved: the three deletes, then the
      replay. */
  function Replay(s: Store, t: Table, c: Committee, order: seq<string>): (o: Outcome)
    requires forall k :: k in order ==> k in t.absences
    ensures o.store.nextId >= s.nextId
    ensures o.failure.Some? ==> o.failure.value.AppearingUserNotFound?
  {
    var cleared := DeleteAbsences(DeleteMembership(DeleteMeetings(s, c.id), c.id), c.id);
    ReplayMeetings(cleared, t, t.meetings, c, order)
  }

  /** Whatever the outcome, the committee's old meetings are gone and the
      meetings of other committees are untouched. */
  lemma ReplayReplacesMeetings(s: Store, t: Table, c: Committee, order: seq<string>)
    requires forall k :: k in order ==> k in t.absences
    requires Valid(s)
    ensures var o := Replay(s, t, c, order);
      && (forall id :: id in s.meetings && s.meetings[id].committee == c.id ==> id !in o.store.meetings)
      && (forall id :: id in s.meetings && s.meetings[id].committee != c.id ==>
            id in o.store.meetings && o.store.meetings[id] == s.meetings[id])
  {
    var cleared := DeleteAbsences(DeleteMembership(DeleteMeetings(s, c.id), c.id), c.id);
    ReplayMeetingsKeeps(cleared, t, t.meetings, c, order);
  }

  /** The replay stops exactly at the first meeting with an orphan. */
  lemma {:induction false} ReplayMeetingsFailure(s: Store, t: Table, ms: seq<MeetingTable.Meeting>, c: Committee, order: seq<string>)
    requires forall k :: k in order ==> k in t.absences
    ensures ReplayMeetings(s, t, ms, c, order).failure.Some? <==> exists k :: 0 <= k < |ms| && OrphanAt(t, ms[k])
    decreases |ms|
  {
    if ms != [] {
      var o := ReplayMeeting(s, t, ms[0], c, order);
      ReplayMeetingFails(s, t, ms[0], c, order);
      OrphanShift(t, ms);
      if o.failure.None? {
        ReplayMeetingsFailure(o.store, t, ms[1..], c, order);
      }
    }
  }

  lemma OrphanShift(t: Table, ms: seq<MeetingTable.Meeting>)
    requires ms != []
    ensures (exists k :: 0 <= k < |ms| && OrphanAt(t, ms[k])) <==>
      OrphanAt(t, ms[0]) || exists k :: 0 <= k < |ms[1..]| && OrphanAt(t, ms[1..][k])
  {
    if k :| 0 <= k < |ms| && OrphanAt(t, ms[k]) {
      if k > 0 {
        assert ms[1..][k - 1] == ms[k];
      }
    }
    if k :| 0 <= k < |ms[1..]| && OrphanAt(t, ms[1..][k]) {
      assert ms[k + 1] == ms[1..][k];
    }
  }

  /** Table meeting `m` is stored under `id`. */
  predicate StoredAt(meetings: map<nat, StoredMeeting>, id: nat, m: MeetingTable.Meeting, c: Committee) {
    id in meetings && meetings[id] == Imported(m, c)
  }

  /** `after` is `before` with the table meetings `ms` stored under the next
      `|ms|` free IDs, in order, and nothing else changed. */
  ghost predicate StoresImported(before: Store, after: Store, ms: seq<MeetingTable.Meeting>, c: Committee) {
    && after.nextId == before.nextId + |ms|
    && (forall id :: id in after.meetings <==> id in before.meetings || before.nextId <= id < before.nextId + |ms|)
    && (forall id :: id in before.meetings && id < before.nextId ==>
          id in after.meetings && after.meetings[id] == before.meetings[id])
    && (forall k :: 0 <= k < |ms| ==> StoredAt(after.meetings, before.nextId + k, ms[k], c))
  }

  /** On success the stored meetings are the ones found, untouched below
      the first fresh ID, plus table meeting `k` under the `k`-th fresh
      ID. */
  lemma {:induction false} ReplayMeetingsStored(s: Store, t: Table, ms: seq<MeetingTable.Meeting>, c: Committee, order: seq<string>)
    requires forall k :: k in order ==> k in t.absences
    ensures var o := ReplayMeetings(s, t, ms, c, order);
      o.failure.None? ==> StoresImported(s, o.store, ms, c)
    decreases |ms|
  {
    if ms != [] {
      var o := ReplayMeeting(s, t, ms[0], c, order);
      if o.failure.None? {
        ReplayMeetingsStored(o.store, t, ms[1..], c, order);
        var r := ReplayMeetings(o.store, t, ms[1..], c, order);
        assert ReplayMeetings(s, t, ms, c, order) == r;
        if r.failure.None? {
          StoresImportedStep(s, o.store, r.store, ms, c);
        }
      }
    }
  }

  /** The induction step of `ReplayMeetingsStored`, on the stores alone. */
  lemma StoresImportedStep(s: Store, mid: Store, after: Store, ms: seq<MeetingTable.Meeting>, c: Committee)
    requires ms != []
    requires mid.nextId == s.nextId + 1 && mid.meetings == s.meetings[s.nextId := Imported(ms[0], c)]
    requires StoresImported(mid, after, ms[1..], c)
    ensures StoresImported(s, after, ms, c)
  {
    forall k | 0 <= k < |ms| ensures StoredAt(after.meetings, s.nextId + k, ms[k], c) {
      if k == 0 {
        assert s.nextId in mid.meetings && s.nextId < mid.nextId;
      } else {
        assert StoredAt(after.meetings, mid.nextId + (k - 1), ms[1..][k - 1], c);
      }
    }
  }

  /** `a` joins the committee at meeting `k`. */
  predicate JoinsAt(t: Table, ms: seq<MeetingTable.Meeting>, k: int, a: string) {
    0 <= k < |ms| && a in Joiners(t, ms[k].start, ms[k].attendees)
  }

  /** `after` is `before` plus one membership request per attendee at the
      meeting of their first appearance, with the status and role of their
      table row. */
  ghost predicate JoinedFrom(before: seq<HistoryEntry>, after: seq<HistoryEntry>, t: Table,
                       ms: seq<MeetingTable.Meeting>, c: Committee) {
    forall e :: e in after <==> e in before || exists k, a :: JoinsAt(t, ms, k, a) && JoinEntry(t, a, c) == Some(e)
  }

  /** On success every attendee joining the committee has a table row ... */
  lemma {:induction false} ReplayMeetingsJoiners(s: Store, t: Table, ms: seq<MeetingTable.Meeting>, c: Committee, order: seq<string>)
    requires forall k :: k in order ==> k in t.absences
    ensures ReplayMeetings(s, t, ms, c, order).failure.None? ==>
      forall k, a :: JoinsAt(t, ms, k, a) ==> FindUser(t.users, a).Some?
    decreases |ms|
  {
    if ms != [] && ReplayMeetings(s, t, ms, c, order).failure.None? {
      var o := ReplayMeeting(s, t, ms[0], c, order);
      ReplayMeetingHistory(s, t, ms[0], c, order);
      ReplayMeetingsJoiners(o.store, t, ms[1..], c, order);
      forall k, a | JoinsAt(t, ms, k, a) ensures FindUser(t.users, a).Some? {
        if k > 0 {
          assert JoinsAt(t, ms[1..], k - 1, a);
        }
      }
    }
  }

  /** ... and the history gains exactly their membership requests. */
  lemma {:induction false} ReplayMeetingsHistory(s: Store, t: Table, ms: seq<MeetingTable.Meeting>, c: Committee, order: seq<string>)
    requires forall k :: k in order ==> k in t.absences
    ensures var o := ReplayMeetings(s, t, ms, c, order);
      o.failure.None? ==> JoinedFrom(s.history, o.store.history, t, ms, c)
    decreases |ms|
  {
    if ms != [] && ReplayMeetings(s, t, ms, c, order).failure.None? {
      var o := ReplayMeeting(s, t, ms[0], c, order);
      ReplayMeetingHistory(s, t, ms[0], c, order);
      ReplayMeetingsJoiners(s, t, ms, c, order);
      ReplayMeetingsHistory(o.store, t, ms[1..], c, order);
      HistoryStep(s.history, o.store.history, ReplayMeetings(o.store, t, ms[1..], c, order).store.history, t, ms, c);
    }
  }

  /** The induction step of `ReplayMeetingsHistory`, on the histories alone. */
  lemma HistoryStep(before: seq<HistoryEntry>, mid: seq<HistoryEntry>, after: seq<HistoryEntry>, t: Table,
                    ms: seq<MeetingTable.Meeting>, c: Committee)
    requires ms != []
    requires forall k, a :: JoinsAt(t, ms, k, a) ==> FindUser(t.users, a).Some?
    requires mid == before + JoinEntries(t, Joiners(t, ms[0].start, ms[0].attendees), c)
    requires JoinedFrom(mid, after, t, ms[1..], c)
    ensures JoinedFrom(before, after, t, ms, c)
  {
    forall e ensures e in after <==> e in before || exists k, a :: JoinsAt(t, ms, k, a) && JoinEntry(t, a, c) == Some(e)
    {
      JoinEntriesMembers(t, Joiners(t, ms[0].start, ms[0].attendees), c, e);
      JoinsAtShift(t, ms, c, e);
    }
  }

  lemma JoinsAtShift(t: Table, ms: seq<MeetingTable.Meeting>, c: Committee, e: HistoryEntry)
    requires ms != []
    requires forall k, a :: JoinsAt(t, ms, k, a) ==> FindUser(t.users, a).Some?
    ensures (exists k, a :: JoinsAt(t, ms, k, a) && JoinEntry(t, a, c) == Some(e)) <==>
      (exists a :: a in Joiners(t, ms[0].start, ms[0].attendees) && JoinEntry(t, a, c) == Some(e))
      || exists k, a :: JoinsAt(t, ms[1..], k, a) && JoinEntry(t, a, c) == Some(e)
  {
    forall k, a | JoinsAt(t, ms[1..], k, a) ensures JoinsAt(t, ms, k + 1, a) {
      assert ms[1..][k] == ms[k + 1];
    }
    if k, a :| JoinsAt(t, ms, k, a) && JoinEntry(t, a, c) == Some(e) {
      if k > 0 {
        assert ms[1..][k - 1] == ms[k];
        assert JoinsAt(t, ms[1..], k - 1, a);
      } else {
        assert a in Joiners(t, ms[0].start, ms[0].attendees);
      }
    }
    if a :| a in Joiners(t, ms[0].start, ms[0].attendees) && JoinEntry(t, a, c) == Some(e) {
      assert JoinsAt(t, ms, 0, a);
    }
  }

  /** The requests made are exactly those of the names with a table row. */
  lemma {:induction false} JoinEntriesMembers(t: Table, names: seq<string>, c: Committee, e: HistoryEntry)
    ensures e in JoinEntries(t, names, c) <==> exists a :: a in names && JoinEntry(t, a, c) == Some(e)
    decreases |names|
  {
    if names != [] {
      JoinEntriesMembers(t, names[1..], c, e);
      assert forall a :: a in names <==> a == names[0] || a in names[1..];
    }
  }

  /** `a` is on leave at meeting `k`. */
  predicate LeaveAt(t: Table, ms: seq<MeetingTable.Meeting>, k: int, a: string) {
    0 <= k < |ms| && a in t.absences && ms[k].start in t.absences[a]
  }

  /** `after` is `before` plus a row for every name on leave on the date of
      a meeting, spanning that meeting widened by one second. */
  ghost predicate LeftFrom(before: seq<Absence>, after: seq<Absence>, t: Table, ms: seq<MeetingTable.Meeting>, c: Committee) {
    forall x :: x in after <==> x in before || exists k :: LeaveAt(t, ms, k, x.nickname) && x == LeaveRow(ms[k], x.nickname, c)
  }

  /** On success the leaves of absence gain exactly those rows. */
  lemma {:induction false} ReplayMeetingsAbsences(s: Store, t: Table, ms: seq<MeetingTable.Meeting>, c: Committee, order: seq<string>)
    requires Identity.Enumerates(order, t.absences)
    ensures var o := ReplayMeetings(s, t, ms, c, order);
      o.failure.None? ==> LeftFrom(s.absences, o.store.absences, t, ms, c)
    decreases |ms|
  {
    if ms != [] && ReplayMeetings(s, t, ms, c, order).failure.None? {
      var o := ReplayMeeting(s, t, ms[0], c, order);
      ReplayMeetingsAbsences(o.store, t, ms[1..], c, order);
      AbsencesStep(s.absences, o.store.absences, ReplayMeetings(o.store, t, ms[1..], c, order).store.absences, t, ms, c, order);
    }
  }

  /** The induction step of `ReplayMeetingsAbsences`, on the rows alone. */
  lemma AbsencesStep(before: seq<Absence>, mid: seq<Absence>, after: seq<Absence>, t: Table,
                     ms: seq<MeetingTable.Meeting>, c: Committee, order: seq<string>)
    requires Identity.Enumerates(order, t.absences)
    requires ms != []
    requires multiset(mid) == multiset(before) + AddedRows(t.absences, order, ms[0].start, ms[0].start + Hour, c.id)
    requires LeftFrom(mid, after, t, ms[1..], c)
    ensures LeftFrom(before, after, t, ms, c)
  {
    forall x ensures x in after <==>
      x in before || exists k :: LeaveAt(t, ms, k, x.nickname) && x == LeaveRow(ms[k], x.nickname, c)
    {
      AddedRowsCount(t.absences, order, x, ms[0].start, ms[0].start + Hour, c.id);
      LeaveRowsOfMeeting(t, ms[0], order, x, c);
      assert x in mid <==> multiset(mid)[x] > 0;
      assert x in before <==> multiset(before)[x] > 0;
      if k :| LeaveAt(t, ms[1..], k, x.nickname) && x == LeaveRow(ms[1..][k], x.nickname, c) {
        assert LeaveAt(t, ms, k + 1, x.nickname);
      }
      if k :| LeaveAt(t, ms, k, x.nickname) && x == LeaveRow(ms[k], x.nickname, c) {
        if k > 0 {
          assert LeaveAt(t, ms[1..], k - 1, x.nickname) && ms[1..][k - 1] == ms[k];
        }
      }
    }
  }

  /** How many copies of row `x` the leaves ask for over the meetings `ms`:
      for every meeting whose widened interval is the one of `x`, one per
      leave of `x`'s name dated at the meeting's start. */
  function LeaveCount(t: Table, ms: seq<MeetingTable.Meeting>, x: Absence, c: Committee): nat
    decreases |ms|
  {
    if ms == [] then 0
    else
      (if x == LeaveRow(ms[0], x.nickname, c) && x.nickname in t.absences
       then multiset(t.absences[x.nickname])[ms[0].start] else 0)
      + LeaveCount(t, ms[1..], x, c)
  }

  /** On success the leaves of absence gain each row exactly as often as
      the leave dates ask for it, whatever order the names are visited in. */
  lemma {:induction false} ReplayMeetingsAbsenceCount(s: Store, t: Table, ms: seq<MeetingTable.Meeting>, c: Committee,
                                                      order: seq<string>)
    requires Identity.Enumerates(order, t.absences)
    ensures var o := ReplayMeetings(s, t, ms, c, order);
      o.failure.None? ==> forall x :: multiset(o.store.absences)[x] == multiset(s.absences)[x] + LeaveCount(t, ms, x, c)
    decreases |ms|
  {
    if ms != [] && ReplayMeetings(s, t, ms, c, order).failure.None? {
      var o := ReplayMeeting(s, t, ms[0], c, order);
      ReplayMeetingsAbsenceCount(o.store, t, ms[1..], c, order);
      CountStep(s.absences, o.store.absences, ReplayMeetings(o.store, t, ms[1..], c, order).store.absences, t, ms, c, order);
    }
  }

  /** The induction step of `ReplayMeetingsAbsenceCount`, on the rows alone. */
  lemma CountStep(before: seq<Absence>, mid: seq<Absence>, after: seq<Absence>, t: Table,
                  ms: seq<MeetingTable.Meeting>, c: Committee, order: seq<string>)
    requires Identity.Enumerates(order, t.absences)
    requires ms != []
    requires multiset(mid) == multiset(before) + AddedRows(t.absences, order, ms[0].start, ms[0].start + Hour, c.id)
    requires forall x :: multiset(after)[x] == multiset(mid)[x] + LeaveCount(t, ms[1..], x, c)
    ensures forall x :: multiset(after)[x] == multiset(before)[x] + LeaveCount(t, ms, x, c)
  {
    forall x ensures multiset(after)[x] == multiset(before)[x] + LeaveCount(t, ms, x, c) {
      AddedRowsCount(t.absences, order, x, ms[0].start, ms[0].start + Hour, c.id);
    }
  }

  /** The leave row for `name` at meeting `m`. */
  function LeaveRow(m: MeetingTable.Meeting, name: string, c: Committee): Absence {
    AbsenceRow(name, m.start, m.start + Hour, c.id)
  }

  lemma LeaveRowsOfMeeting(t: Table, m: MeetingTable.Meeting, order: seq<string>, x: Absence, c: Committee)
    requires Identity.Enumerates(order, t.absences)
    ensures LeaveRows(t.absences, order, x, m.start, m.start + Hour, c.id) > 0 <==>
      x.nickname in t.absences && m.start in t.absences[x.nickname] && x == LeaveRow(m, x.nickname, c)
  {
    if x.nickname in t.absences {
      assert m.start in t.absences[x.nickname] <==> m.start in multiset(t.absences[x.nickname]);
    }
  }

  /** Some order visiting every key of `ks` once; Go's map iteration picks
      one at random. */
  ghost function Enumerate(ks: set<string>): (order: seq<string>)
    ensures forall k :: k in ks <==> k in order
    ensures forall i, j :: 0 <= i < j < |order| ==> order[i] != order[j]
    decreases ks
  {
    if ks == {} then []
    else
      var x :| x in ks;
      var rest := Enumerate(ks - {x});
      assert forall i :: 0 < i < |[x] + rest| ==> ([x] + rest)[i] == rest[i - 1];
      [x] + rest
  }

  /** `replaceNamesByNicknames` on a loaded table, with the maps visited in
      some order Go chooses. */
  ghost function Resolved(t: Table, directory: seq<Identity.DirectoryUser>): Result<Table, Identity.IdentityError> {
    Identity.ResolveTable(t, directory, Enumerate(t.appearances.Keys), Enumerate(t.absences.Keys))
  }

  /** The delete and replay of a resolved table, with its leave map visited
      in some order Go chooses. */
  ghost function ReplayResolved(s: Store, resolved: Table, c: Committee): Outcome {
    Replay(s, resolved, c, Enumerate(resolved.absences.Keys))
  }

  /** `run` once the table is loaded (or not) and the committee looked up:
      resolve the names, then delete and replay. */
  ghost function RunLoaded(s: Store, loaded: Result<Table, LoadError>, found: Option<Committee>, committee: string,
                           directory: seq<Identity.DirectoryUser>): (o: Outcome)
    ensures o.failure.Some? && !o.failure.value.AppearingUserNotFound? ==> o.store == s
    ensures loaded.Failure? ==> o == Outcome(s, Some(LoadFailed(loaded.error)))
    ensures loaded.Success? && found.None? ==> o == Outcome(s, Some(CommitteeNotFound(committee)))
    ensures loaded.Success? && found.Some? && Resolved(loaded.value, directory).Failure? ==>
      o == Outcome(s, Some(Unresolved(Resolved(loaded.value, directory).error)))
    ensures loaded.Success? && found.Some? && Resolved(loaded.value, directory).Success? ==>
      o == ReplayResolved(s, Resolved(loaded.value, directory).value, found.value)
    ensures o.failure.None? ==> loaded.Success? && found.Some? && Resolved(loaded.value, directory).Success?
  {
    match loaded
    case Failure(e) => Outcome(s, Some(LoadFailed(e)))
    case Success(t) =>
      match found
      case None => Outcome(s, Some(CommitteeNotFound(committee)))
      case Some(c) =>
        match Resolved(t, directory)
        case Failure(e) => Outcome(s, Some(Unresolved(e)))
        case Success(resolved) => ReplayResolved(s, resolved, c)
  }

  /** `run`: load the table, find the committee, resolve the names, then
      delete and replay. The maps are visited in some order Go chooses. */
  ghost function Run(s: Store, records: Grid.Records, parseDate: string -> Option<Time>, committee: string,
                     committees: seq<Committee>, directory: seq<Identity.DirectoryUser>): (o: Outcome)
    ensures o.failure.Some? && !o.failure.value.AppearingUserNotFound? ==> o.store == s
  {
    RunLoaded(s, LoadTable(records, parseDate), FindCommittee(committees, committee), committee, directory)
  }

  /** An import that reaches the replay, whether it completes or stops at
      an attendee without a user row, has removed every old meeting of the
      committee it found and left every other committee's meetings alone. */
  lemma RunReplays(s: Store, loaded: Result<Table, LoadError>, found: Option<Committee>, committee: string,
                   directory: seq<Identity.DirectoryUser>)
    requires Valid(s)
    ensures var o := RunLoaded(s, loaded, found, committee, directory);
      (o.failure.None? || o.failure.value.AppearingUserNotFound?) ==>
        && found.Some?
        && (forall id :: id in s.meetings && s.meetings[id].committee == found.value.id ==> id !in o.store.meetings)
        && (forall id :: id in s.meetings && s.meetings[id].committee != found.value.id ==>
              id in o.store.meetings && o.store.meetings[id] == s.meetings[id])
  {
    var o := RunLoaded(s, loaded, found, committee, directory);
    if (o.failure.None? || o.failure.value.AppearingUserNotFound?) {
      var resolved := Resolved(loaded.value, directory).value;
      ReplayReplacesMeetings(s, resolved, found.value, Enumerate(resolved.absences.Keys));
    }
  }

  /** The import is not atomic: when an appearing attendee has no table row,
      the committee's old meetings are already gone and the meetings before
      the failing one are already stored. */
  lemma PartialImport()
    ensures var c := Committee(7, "TC");
      var before := Store(map[0 := StoredMeeting(7, false, 0, Hour, None, [], None)], 1, [], []);
      var ok := MeetingTable.Meeting(100, false, []);
      var bad := MeetingTable.Meeting(200, false, ["bob"]);
      var t := Table([], [ok, bad], map["bob" := 200], map[]);
      Replay(before, t, c, []) == Outcome(Store(map[1 := Imported(ok, c)], 2, [], []), Some(AppearingUserNotFound("bob")))
  {
    var c := Committee(7, "TC");
    var before := Store(map[0 := StoredMeeting(7, false, 0, Hour, None, [], None)], 1, [], []);
    var ok := MeetingTable.Meeting(100, false, []);
    var bad := MeetingTable.Meeting(200, false, ["bob"]);
    var t := Table([], [ok, bad], map["bob" := 200], map[]);
    var cleared := DeleteAbsences(DeleteMembership(DeleteMeetings(before, c.id), c.id), c.id);
    assert cleared.meetings == map[];
    assert cleared == Store(map[], 1, [], []);
    var o1 := ReplayMeeting(cleared, t, ok, c, []);
    assert o1.store.meetings == map[1 := Imported(ok, c)];
    assert o1.store.history == [] && o1.store.absences == [];
    assert o1 == Outcome(Store(map[1 := Imported(ok, c)], 2, [], []), None);
    assert [ok, bad][1..] == [bad];
    assert Joiners(t, 200, ["bob"]) == ["bob"];
    var o2 := ReplayMeeting(o1.store, t, bad, c, []);
    assert o2 == StoreNewMembers(o1.store, t, 200, ["bob"], c);
    assert o2 == Outcome(o1.store, Some(AppearingUserNotFound("bob")));
    assert [bad][1..] == [];
  }
}

=== FILE: meetings.dfy ===
/** `extractMeetings`: every column right of the user block is one meeting.
    Its first cell is the date; the cells below are attendees, the
    "(informational)" marker, or leaves of absence. */
module MeetingTable {
  import opened Wrappers
  import opened Text
  import opened Models
  import Grid

  const InformationalMarker: string := "(informational)"
  const LeaveMarker: string := "(Leave of absence)"

  datatype Meeting = Meeting(start: Time, gathering: bool, attendees: seq<string>)

  /** A meeting column read into a meeting plus the names on leave. */
  datatype ColumnMeeting = ColumnMeeting(meeting: Meeting, absentees: seq<string>)

  /** Everything `extractMeetings` hands back: the meetings in date order,
      the first appearance of every attendee, and the leave dates by name. */
  datatype MeetingData = MeetingData(
    meetings: seq<Meeting>,
    appearances: map<string, Time>,
    absences: map<string, seq<Time>>)

  datatype MeetingError = NotEnoughColumns | BadDate(cell: string)

  datatype Cell = Blank | InformationalCell | Leave(name: string) | Present(name: string)

  /** One meeting cell, trimmed, then classified. */
  function Classify(raw: string): (c: Cell)
    ensures c.Blank? <==> TrimSpace(raw) == ""
    ensures c.InformationalCell? <==> TrimSpace(raw) == InformationalMarker
    ensures c.Leave? <==>
      TrimSpace(raw) != InformationalMarker && HasSuffix(TrimSpace(raw), LeaveMarker)
    ensures c.Leave? ==>
      var a := TrimSpace(raw);
      a == a[..|a| - |LeaveMarker|] + LeaveMarker && c.name == TrimSpace(a[..|a| - |LeaveMarker|])
    ensures c.Present? ==> c.name == TrimSpace(raw) && c.name != ""
  {
    var a := TrimSpace(raw);
    if a == "" then Blank
    else if a == InformationalMarker then InformationalCell
    else if HasSuffix(a, LeaveMarker) then Leave(TrimSpace(a[..|a| - |LeaveMarker|]))
    else Present(a)
  }

  /** The plain attendees among the cells, in cell order. */
  function Attendees(cells: seq<string>): (names: seq<string>)
    ensures forall a :: a in names <==> exists i :: 0 <= i < |cells| && Classify(cells[i]) == Present(a)
  {
    if cells == [] then []
    else
      var rest := Attendees(cells[1..]);
      assert forall i :: 0 < i < |cells| ==> cells[i] == cells[1..][i - 1];
      match Classify(cells[0])
      case Present(a) => [a] + rest
      case _ => rest
  }

  /** The names on leave among the cells, in cell order. */
  function Absentees(cells: seq<string>): (names: seq<string>)
    ensures forall a :: a in names <==> exists i :: 0 <= i < |cells| && Classify(cells[i]) == Leave(a)
  {
    if cells == [] then []
    else
      var rest := Absentees(cells[1..]);
      assert forall i :: 0 < i < |cells| ==> cells[i] == cells[1..][i - 1];
      match Classify(cells[0])
      case Leave(a) => [a] + rest
      case _ => rest
  }

  /** Some cell is the "(informational)" marker. */
  predicate Gathering(cells: seq<string>) {
    exists i :: 0 <= i < |cells| && Classify(cells[i]).InformationalCell?
  }

  /** The cells below the date of a column dated `t`. */
  function ReadColumn(cells: seq<string>, t: Time): ColumnMeeting {
    ColumnMeeting(Meeting(t, Gathering(cells), Attendees(cells)), Absentees(cells))
  }

  /** A column is skipped when its date cell is missing or exactly empty;
      the date cell is not trimmed. */
  predicate Undated(col: seq<string>) {
    |col| < 1 || col[0] == ""
  }

  /** The meeting columns, left to right; the first date that does not parse
      ends the extraction. */
  function ParseColumns(cols: seq<seq<string>>, parseDate: string -> Option<Time>)
    : (r: Result<seq<ColumnMeeting>, MeetingError>)
    ensures r.Success? ==> |r.value| <= |cols|
    ensures r.Failure? ==> exists i :: 0 <= i < |cols| && |cols[i]| > 0 && r.error == BadDate(cols[i][0])
  {
    if cols == [] then Success([])
    else
      var col := cols[0];
      if Undated(col) then ParseColumns(cols[1..], parseDate)
      else
        match parseDate(col[0])
        case None => Failure(BadDate(col[0]))
        case Some(t) =>
          var rest :- ParseColumns(cols[1..], parseDate);
          Success([ReadColumn(col[1..], t)] + rest)
  }

  /** The extraction fails exactly when some dated column carries a date the
      parser rejects. */
  lemma {:induction false} ParseColumnsFailure(cols: seq<seq<string>>, parseDate: string -> Option<Time>)
    ensures ParseColumns(cols, parseDate).Failure? <==>
      exists i :: 0 <= i < |cols| && !Undated(cols[i]) && parseDate(cols[i][0]).None?
    decreases |cols|
  {
    if cols != [] {
      ParseColumnsFailure(cols[1..], parseDate);
      if exists i :: 1 <= i < |cols| && !Undated(cols[i]) && parseDate(cols[i][0]).None? {
        var i :| 1 <= i < |cols| && !Undated(cols[i]) && parseDate(cols[i][0]).None?;
        assert cols[1..][i - 1] == cols[i];
      }
      if exists i :: 0 <= i < |cols[1..]| && !Undated(cols[1..][i]) && parseDate(cols[1..][i][0]).None? {
        var i :| 0 <= i < |cols[1..]| && !Undated(cols[1..][i]) && parseDate(cols[1..][i][0]).None?;
        assert cols[i + 1] == cols[1..][i];
      }
    }
  }

  /** Meeting columns keep their left-to-right order: the meetings of two
      blocks of columns are those of the first block followed by those of the
      second, and the first bad date from the left is the one reported. */
  lemma {:induction false} ParseColumnsAppend(a: seq<seq<string>>, b: seq<seq<string>>, parseDate: string -> Option<Time>)
    ensures ParseColumns(a + b, parseDate) ==
      match ParseColumns(a, parseDate)
      case Failure(e) => Failure(e)
      case Success(x) =>
        match ParseColumns(b, parseDate)
        case Failure(e) => Failure(e)
        case Success(y) => Success(x + y)
    decreases |a|
  {
    if a == [] {
      assert a + b == b;
      assert ParseColumns(a, parseDate) == Success([]);
      if ParseColumns(b, parseDate).Success? {
        assert [] + ParseColumns(b, parseDate).value == ParseColumns(b, parseDate).value;
      }
    } else {
      assert (a + b)[0] == a[0];
      assert (a + b)[1..] == a[1..] + b;
      ParseColumnsAppend(a[1..], b, parseDate);
      if !Undated(a[0]) && parseDate(a[0][0]).Some? {
        var x := ReadColumn(a[0][1..], parseDate(a[0][0]).value);
        if ParseColumns(a[1..], parseDate).Success? && ParseColumns(b, parseDate).Success? {
          assert [x] + (ParseColumns(a[1..], parseDate).value + ParseColumns(b, parseDate).value)
              == ([x] + ParseColumns(a[1..], parseDate).value) + ParseColumns(b, parseDate).value;
        }
      }
    }
  }

  /** One column on its own: no meeting when it is undated, otherwise a
      meeting at the parsed date read from the cells below the date. */
  lemma OneColumn(col: seq<string>, parseDate: string -> Option<Time>)
    ensures Undated(col) ==> ParseColumns([col], parseDate) == Success([])
    ensures !Undated(col) && parseDate(col[0]).None? ==>
      ParseColumns([col], parseDate) == Failure(BadDate(col[0]))
    ensures !Undated(col) && parseDate(col[0]).Some? ==>
      ParseColumns([col], parseDate) == Success([ReadColumn(col[1..], parseDate(col[0]).value)])
  {
    assert [col][1..] == [];
    assert ParseColumns([], parseDate) == Success([]);
    if !Undated(col) && parseDate(col[0]).Some? {
      assert [ReadColumn(col[1..], parseDate(col[0]).value)] + [] == [ReadColumn(col[1..], parseDate(col[0]).value)];
    }
  }

  /** A date cell holding only white space is not skipped: it is handed to
      the date parser as it is. */
  lemma BlankDateIsNotSkipped(parseDate: string -> Option<Time>)
    requires parseDate(" ").None?
    ensures ParseColumns([[" ", "alice"]], parseDate) == Failure(BadDate(" "))
  {
    OneColumn([" ", "alice"], parseDate);
  }

  /** Records `t` as the first appearance of every name not yet seen at or
      before `t`. */
  function AddAppearances(acc: map<string, Time>, t: Time, names: seq<string>): (r: map<string, Time>)
    ensures forall a :: a in r <==> a in acc || a in names
    ensures forall a :: a in names ==> r[a] == if a in acc && acc[a] <= t then acc[a] else t
    ensures forall a :: a in acc && a !in names ==> r[a] == acc[a]
    decreases |names|
  {
    if names == [] then acc
    else
      var a := names[0];
      var acc' := if a !in acc || acc[a] > t then acc[a := t] else acc;
      AddAppearances(acc', t, names[1..])
  }

  /** The appearance map after the columns `cms`, starting from `acc`. */
  function AppearancesFrom(acc: map<string, Time>, cms: seq<ColumnMeeting>): map<string, Time>
    decreases |cms|
  {
    if cms == [] then acc
    else AppearancesFrom(AddAppearances(acc, cms[0].meeting.start, cms[0].meeting.attendees), cms[1..])
  }

  /** `a` is a plain attendee of the meeting of column `k`. */
  predicate AttendsColumn(cms: seq<ColumnMeeting>, k: int, a: string) {
    0 <= k < |cms| && a in cms[k].meeting.attendees
  }

  lemma AttendsTail(cms: seq<ColumnMeeting>, k: nat, a: string)
    requires cms != []
    ensures AttendsColumn(cms[1..], k, a) <==> AttendsColumn(cms, k + 1, a)
    ensures 0 <= k < |cms| - 1 ==> cms[1..][k] == cms[k + 1]
  {
    if 0 <= k < |cms| - 1 {
      assert cms[1..][k] == cms[k + 1];
    }
  }

  /** The first-appearance map covers exactly the names seen before and the
      plain attendees of the columns. */
  lemma {:induction false} AppearancesDomain(acc: map<string, Time>, cms: seq<ColumnMeeting>)
    ensures forall a :: a in AppearancesFrom(acc, cms) <==> a in acc || exists k :: AttendsColumn(cms, k, a)
    decreases |cms|
  {
    if cms != [] {
      var acc' := AddAppearances(acc, cms[0].meeting.start, cms[0].meeting.attendees);
      AppearancesDomain(acc', cms[1..]);
      forall a ensures (a in acc' || exists k :: AttendsColumn(cms[1..], k, a))
                       <==> (a in acc || exists k :: AttendsColumn(cms, k, a))
      {
        if k :| AttendsColumn(cms[1..], k, a) {
          AttendsTail(cms, k, a);
        }
        if k :| AttendsColumn(cms, k, a) {
          if k == 0 {
            assert a in acc';
          } else {
            AttendsTail(cms, k - 1, a);
          }
        }
        if a in cms[0].meeting.attendees {
          assert AttendsColumn(cms, 0, a);
        }
      }
    }
  }

  /** No recorded first appearance is later than a meeting the name attends. */
  lemma {:induction false} AppearancesBelow(acc: map<string, Time>, cms: seq<ColumnMeeting>)
    ensures var r := AppearancesFrom(acc, cms);
      && (forall a :: a in acc ==> a in r && r[a] <= acc[a])
      && (forall a, k :: AttendsColumn(cms, k, a) ==> a in r && r[a] <= cms[k].meeting.start)
    decreases |cms|
  {
    if cms != [] {
      var t := cms[0].meeting.start;
      var acc' := AddAppearances(acc, t, cms[0].meeting.attendees);
      var r := AppearancesFrom(acc', cms[1..]);
      AppearancesBelow(acc', cms[1..]);
      forall a, k | AttendsColumn(cms, k, a) ensures a in r && r[a] <= cms[k].meeting.start {
        if k == 0 {
          assert a in acc' && acc'[a] <= t;
        } else {
          AttendsTail(cms, k - 1, a);
        }
      }
    }
  }

  /** Every recorded first appearance is one seen before or the start of a
      meeting the name attends. */
  lemma {:induction false} AppearancesAttained(acc: map<string, Time>, cms: seq<ColumnMeeting>)
    ensures var r := AppearancesFrom(acc, cms);
      forall a :: a in r ==>
        (a in acc && r[a] == acc[a]) || exists k :: AttendsColumn(cms, k, a) && r[a] == cms[k].meeting.start
    decreases |cms|
  {
    if cms != [] {
      var t := cms[0].meeting.start;
      var acc' := AddAppearances(acc, t, cms[0].meeting.attendees);
      var r := AppearancesFrom(acc', cms[1..]);
      AppearancesAttained(acc', cms[1..]);
      forall a | a in r
        ensures (a in acc && r[a] == acc[a]) || exists k :: AttendsColumn(cms, k, a) && r[a] == cms[k].meeting.start
      {
        if a in acc' && r[a] == acc'[a] {
          if a in cms[0].meeting.attendees && !(a in acc && acc[a] <= t) {
            assert AttendsColumn(cms, 0, a);
          }
        } else {
          var k :| AttendsColumn(cms[1..], k, a) && r[a] == cms[1..][k].meeting.start;
          AttendsTail(cms, k, a);
        }
      }
    }
  }

  /** The leave dates after the columns `cms`, starting from `acc`. */
  function AbsencesFrom(acc: map<string, seq<Time>>, cms: seq<ColumnMeeting>): map<string, seq<Time>>
    decreases |cms|
  {
    if cms == [] then acc
    else AbsencesFrom(AddAbsences(acc, cms[0].meeting.start, cms[0].absentees), cms[1..])
  }

  /** Appends `t` to the leave dates of every name in `names`. */
  function AddAbsences(acc: map<string, seq<Time>>, t: Time, names: seq<string>): (r: map<string, seq<Time>>)
    ensures forall a :: a in r <==> a in acc || a in names
    ensures forall a, u :: a in r ==> (u in r[a] <==> (a in acc && u in acc[a]) || (a in names && u == t))
    decreases |names|
  {
    if names == [] then acc
    else
      var a := names[0];
      AddAbsences(acc[a := (if a in acc then acc[a] else []) + [t]], t, names[1..])
  }

  /** `a` is on leave in the meeting of column `k`. */
  predicate AbsentInColumn(cms: seq<ColumnMeeting>, k: int, a: string) {
    0 <= k < |cms| && a in cms[k].absentees
  }

  lemma AbsentTail(cms: seq<ColumnMeeting>, k: nat, a: string)
    requires cms != []
    ensures AbsentInColumn(cms[1..], k, a) <==> AbsentInColumn(cms, k + 1, a)
    ensures 0 <= k < |cms| - 1 ==> cms[1..][k] == cms[k + 1]
  {
    if 0 <= k < |cms| - 1 {
      assert cms[1..][k] == cms[k + 1];
    }
  }

  /** The leave map covers exactly the names seen before and the names
      marked on leave in the columns. */
  lemma {:induction false} AbsencesDomain(acc: map<string, seq<Time>>, cms: seq<ColumnMeeting>)
    ensures forall a :: a in AbsencesFrom(acc, cms) <==> a in acc || exists k :: AbsentInColumn(cms, k, a)
    decreases |cms|
  {
    if cms != [] {
      var acc' := AddAbsences(acc, cms[0].meeting.start, cms[0].absentees);
      AbsencesDomain(acc', cms[1..]);
      forall a ensures (a in acc' || exists k :: AbsentInColumn(cms[1..], k, a))
                       <==> (a in acc || exists k :: AbsentInColumn(cms, k, a))
      {
        if k :| AbsentInColumn(cms[1..], k, a) {
          AbsentTail(cms, k, a);
        }
        if k :| AbsentInColumn(cms, k, a) {
          if k == 0 {
            assert a in acc';
          } else {
            AbsentTail(cms, k - 1, a);
          }
        }
        if a in cms[0].absentees {
          assert AbsentInColumn(cms, 0, a);
        }
      }
    }
  }

  /** A date is listed for a name exactly when it was listed before or a
      column of that date marks the name on leave. */
  lemma {:induction false} AbsencesDates(acc: map<string, seq<Time>>, cms: seq<ColumnMeeting>)
    ensures forall a, u :: a in AbsencesFrom(acc, cms) ==>
      (u in AbsencesFrom(acc, cms)[a] <==>
         ((a in acc && u in acc[a]) || exists k :: AbsentInColumn(cms, k, a) && cms[k].meeting.start == u))
    decreases |cms|
  {
    if cms != [] {
      var t := cms[0].meeting.start;
      var acc' := AddAbsences(acc, t, cms[0].absentees);
      var r := AbsencesFrom(acc', cms[1..]);
      AbsencesDates(acc', cms[1..]);
      forall a, u | a in r
        ensures ((a in acc' && u in acc'[a]) || exists k :: AbsentInColumn(cms[1..], k, a) && cms[1..][k].meeting.start == u)
                <==> ((a in acc && u in acc[a]) || exists k :: AbsentInColumn(cms, k, a) && cms[k].meeting.start == u)
      {
        if k :| AbsentInColumn(cms[1..], k, a) && cms[1..][k].meeting.start == u {
          AbsentTail(cms, k, a);
        }
        if k :| AbsentInColumn(cms, k, a) && cms[k].meeting.start == u {
          if k == 0 {
            assert a in acc' && u in acc'[a];
          } else {
            AbsentTail(cms, k - 1, a);
          }
        }
        if a in acc' && u in acc'[a] && !(a in acc && u in acc[a]) {
          assert AbsentInColumn(cms, 0, a);
        }
      }
    }
  }

  /** Meetings in ascending order of start time. */
  ghost predicate SortedByStart(ms: seq<Meeting>) {
    forall i, j :: 0 <= i < j < |ms| ==> ms[i].start <= ms[j].start
  }

  /** A meeting starting no later than every meeting of a sorted sequence
      may go in front of it. */
  lemma SortedCons(h: Meeting, ms: seq<Meeting>)
    requires SortedByStart(ms)
    requires forall x :: x in ms ==> h.start <= x.start
    ensures SortedByStart([h] + ms)
  {
    forall i, j | 0 <= i < j < |[h] + ms| ensures ([h] + ms)[i].start <= ([h] + ms)[j].start {
      assert ([h] + ms)[j] == ms[j - 1];
      if i > 0 {
        assert ([h] + ms)[i] == ms[i - 1];
      }
    }
  }

  /** Inserts `m` in front of the first meeting starting after it. */
  function InsertByStart(m: Meeting, ms: seq<Meeting>): (r: seq<Meeting>)
    requires SortedByStart(ms)
    ensures SortedByStart(r)
    ensures multiset(r) == multiset(ms) + multiset{m}
  {
    if ms == [] || m.start <= ms[0].start then
      SortedCons(m, ms);
      [m] + ms
    else
      var rest := InsertByStart(m, ms[1..]);
      assert ms == [ms[0]] + ms[1..];
      InsertedAfterHead(m, ms, rest);
      SortedCons(ms[0], rest);
      [ms[0]] + rest
  }

  /** The first meeting of a sorted sequence starts no later than anything
      in the rest of it with a later meeting inserted. */
  lemma InsertedAfterHead(m: Meeting, ms: seq<Meeting>, rest: seq<Meeting>)
    requires SortedByStart(ms) && ms != [] && ms[0].start <= m.start
    requires multiset(rest) == multiset(ms[1..]) + multiset{m}
    ensures forall x :: x in rest ==> ms[0].start <= x.start
  {
    forall x | x in rest ensures ms[0].start <= x.start {
      assert x in multiset(rest);
      if x != m {
        assert x in multiset(ms[1..]);
        var k :| 0 <= k < |ms[1..]| && ms[1..][k] == x;
        assert x == ms[k + 1];
      }
    }
  }

  /** `slices.SortFunc` by start time; of the orders Go may produce for
      meetings on the same date, the model keeps the column order. */
  function SortByStart(ms: seq<Meeting>): (r: seq<Meeting>)
    ensures SortedByStart(r)
    ensures multiset(r) == multiset(ms)
  {
    if ms == [] then []
    else
      assert ms == [ms[0]] + ms[1..];
      InsertByStart(ms[0], SortByStart(ms[1..]))
  }

  function MeetingsOf(cms: seq<ColumnMeeting>): (ms: seq<Meeting>)
    ensures |ms| == |cms| && forall k :: 0 <= k < |cms| ==> ms[k] == cms[k].meeting
  {
    seq(|cms|, k requires 0 <= k < |cms| => cms[k].meeting)
  }

  /** The result built from the meeting columns: the meetings sorted by
      start, the first appearances and the leave dates. */
  function Assemble(cms: seq<ColumnMeeting>): (d: MeetingData)
    ensures SortedByStart(d.meetings)
    ensures multiset(d.meetings) == multiset(MeetingsOf(cms))
  {
    MeetingData(SortByStart(MeetingsOf(cms)), AppearancesFrom(map[], cms), AbsencesFrom(map[], cms))
  }

  /** `extractMeetings`. The grid must have a first row; the tool only gets
      here after the user block was read, which needs two rows. */
  function ExtractMeetings(records: Grid.Records, parseDate: string -> Option<Time>)
    : (r: Result<MeetingData, MeetingError>)
    requires |records| > 0
    ensures |records[0]| <= 3 ==> r == Failure(NotEnoughColumns)
    ensures r.Success? ==> SortedByStart(r.value.meetings)
  {
    var columns := Grid.Transpose(records);
    if |columns| <= 3 then Failure(NotEnoughColumns)
    else
      var cms :- ParseColumns(columns[3..], parseDate);
      Success(Assemble(cms))
  }

  /** The table fails exactly on a dated meeting column (fourth column on)
      whose date does not parse; otherwise its result is assembled from the
      meeting columns. */
  lemma ExtractedMeetings(records: Grid.Records, parseDate: string -> Option<Time>)
    requires |records| > 0 && |records[0]| > 3
    ensures var columns := Grid.Transpose(records);
      && (ExtractMeetings(records, parseDate).Failure? <==>
            exists i :: 3 <= i < |columns| && !Undated(columns[i]) && parseDate(columns[i][0]).None?)
      && (ExtractMeetings(records, parseDate).Success? ==>
            ExtractMeetings(records, parseDate).value == Assemble(ParseColumns(columns[3..], parseDate).value))
  {
    DatedColumnsFail(Grid.Transpose(records), parseDate);
  }

  lemma DatedColumnsFail(columns: seq<seq<string>>, parseDate: string -> Option<Time>)
    requires |columns| > 3
    ensures ParseColumns(columns[3..], parseDate).Failure? <==>
      exists i :: 3 <= i < |columns| && !Undated(columns[i]) && parseDate(columns[i][0]).None?
  {
    var tail := columns[3..];
    ParseColumnsFailure(tail, parseDate);
    if exists i :: 3 <= i < |columns| && !Undated(columns[i]) && parseDate(columns[i][0]).None? {
      var i :| 3 <= i < |columns| && !Undated(columns[i]) && parseDate(columns[i][0]).None?;
      assert tail[i - 3] == columns[i];
    }
    if ParseColumns(tail, parseDate).Failure? {
      var i :| 0 <= i < |tail| && !Undated(tail[i]) && parseDate(tail[i][0]).None?;
      assert columns[i + 3] == tail[i];
    }
  }

  /** Sorting loses and invents no meeting. */
  lemma SortedMeetingsOf(cms: seq<ColumnMeeting>)
    ensures forall m :: m in Assemble(cms).meetings <==> exists k :: 0 <= k < |cms| && cms[k].meeting == m
  {
    var ms := MeetingsOf(cms);
    forall m ensures m in Assemble(cms).meetings <==> m in ms {
      assert m in Assemble(cms).meetings <==> m in multiset(Assemble(cms).meetings);
    }
  }

  /** `appearances` holds exactly the plain attendees of the returned
      meetings, each mapped to the earliest start among the meetings they
      attend; leaves of absence do not count as appearances. */
  lemma AppearancesAreFirstAttendance(cms: seq<ColumnMeeting>)
    ensures var d := Assemble(cms);
      && (forall a :: a in d.appearances <==> exists m :: m in d.meetings && a in m.attendees)
      && (forall a, m :: m in d.meetings && a in m.attendees ==> d.appearances[a] <= m.start)
      && (forall a :: a in d.appearances ==>
            exists m :: m in d.meetings && a in m.attendees && d.appearances[a] == m.start)
  {
    var d := Assemble(cms);
    SortedMeetingsOf(cms);
    AppearancesDomain(map[], cms);
    AppearancesBelow(map[], cms);
    AppearancesAttained(map[], cms);
    forall a | a in d.appearances ensures exists m :: m in d.meetings && a in m.attendees && d.appearances[a] == m.start {
      var k :| AttendsColumn(cms, k, a) && d.appearances[a] == cms[k].meeting.start;
      assert cms[k].meeting in d.meetings;
    }
    forall a, m | m in d.meetings && a in m.attendees ensures a in d.appearances && d.appearances[a] <= m.start {
      var k :| 0 <= k < |cms| && cms[k].meeting == m;
      assert AttendsColumn(cms, k, a);
    }
  }

  /** `absences` holds exactly the names marked on leave, and a date is
      listed for a name exactly when a meeting column of that date marks the
      name on leave. */
  lemma AbsencesAreLeaveMarks(cms: seq<ColumnMeeting>)
    ensures var d := Assemble(cms);
      && (forall a :: a in d.absences <==> exists k :: AbsentInColumn(cms, k, a))
      && (forall a, u :: a in d.absences ==>
            (u in d.absences[a] <==> exists k :: AbsentInColumn(cms, k, a) && cms[k].meeting.start == u))
  {
    var empty: map<string, seq<Time>> := map[];
    var r := AbsencesFrom(empty, cms);
    assert Assemble(cms).absences == r;
    AbsencesDomain(empty, cms);
    AbsencesDates(empty, cms);
  }
}

=== FILE: models.dfy ===
/** The persistent state the committee tools read and write, as an abstract
    record. Every SQL statement and every `models.*` call that the import
    issues becomes a pure function from one state to the next. What those
    calls do inside the database is not visible here; each function records
    the request in the committee-scoped part of the state it names. */
module Models {
  import opened Wrappers

  /** Timestamps in whole seconds. */
  type Time = int

  const Second: int := 1
  const Hour: int := 3600

  /** Go's zero `time.Time` (January 1 of year 1, UTC), which a lookup of a
      missing key in a `map[string]time.Time` yields. */
  const ZeroTime: Time := -62135596800

  datatype MemberStatus = Voting | NoneVoting

  datatype Role = MemberRole | ChairRole | SecretaryRole

  type CommitteeId = int

  datatype Committee = Committee(id: CommitteeId, name: string)

  datatype Membership = Membership(committee: CommitteeId, status: MemberStatus, roles: seq<Role>)

  /** One `models.UpdateMemberships` request for one user. */
  datatype HistoryEntry = HistoryEntry(nickname: string, membership: Membership)

  /** One row of `member_absent`. */
  datatype Absence = Absence(nickname: string, from: Time, to: Time, committee: CommitteeId)

  /** One attendance record written by `models.Attend`. */
  datatype Attendance = Attendance(nickname: string, attended: bool, at: Time)

  datatype StoredMeeting = StoredMeeting(
    committee: CommitteeId,
    gathering: bool,
    start: Time,
    stop: Time,
    description: Option<string>,
    attendance: seq<Attendance>,
    concludedAt: Option<Time>)

  /** Meetings by database ID, the membership history, the leaves of
      absence, and the next ID the meetings table hands out. */
  datatype Store = Store(
    meetings: map<nat, StoredMeeting>,
    nextId: nat,
    history: seq<HistoryEntry>,
    absences: seq<Absence>)

  /** The meetings table never holds an ID it has yet to hand out. */
  ghost predicate Valid(s: Store) {
    forall id :: id in s.meetings ==> id < s.nextId
  }

  /** `DELETE FROM meetings WHERE committees_id = ?` (the attendance of a
      deleted meeting goes with it). */
  function DeleteMeetings(s: Store, c: CommitteeId): (s': Store)
    ensures s'.nextId == s.nextId && s'.history == s.history && s'.absences == s.absences
    ensures forall id :: id in s'.meetings <==> id in s.meetings && s.meetings[id].committee != c
    ensures forall id :: id in s'.meetings ==> s'.meetings[id] == s.meetings[id]
    ensures Valid(s) ==> Valid(s')
  {
    s.(meetings := map id | id in s.meetings && s.meetings[id].committee != c :: s.meetings[id])
  }

  /** `DELETE FROM member_history WHERE committee_id = ?`. */
  function DeleteMembership(s: Store, c: CommitteeId): (s': Store)
    ensures s'.meetings == s.meetings && s'.nextId == s.nextId && s'.absences == s.absences
    ensures forall e :: e in s'.history <==> e in s.history && e.membership.committee != c
  {
    s.(history := KeepHistory(s.history, c))
  }

  function KeepHistory(h: seq<HistoryEntry>, c: CommitteeId): (r: seq<HistoryEntry>)
    ensures forall e :: e in r <==> e in h && e.membership.committee != c
  {
    if h == [] then []
    else (if h[0].membership.committee != c then [h[0]] else []) + KeepHistory(h[1..], c)
  }

  /** `DELETE FROM member_absent WHERE committee_id = ?`. */
  function DeleteAbsences(s: Store, c: CommitteeId): (s': Store)
    ensures s'.meetings == s.meetings && s'.nextId == s.nextId && s'.history == s.history
    ensures forall a :: a in s'.absences <==> a in s.absences && a.committee != c
  {
    s.(absences := KeepAbsences(s.absences, c))
  }

  function KeepAbsences(rows: seq<Absence>, c: CommitteeId): (r: seq<Absence>)
    ensures forall a :: a in r <==> a in rows && a.committee != c
  {
    if rows == [] then []
    else (if rows[0].committee != c then [rows[0]] else []) + KeepAbsences(rows[1..], c)
  }

  /** `models.UpdateMemberships` for one user. */
  function UpdateMemberships(s: Store, nickname: string, ms: seq<Membership>): (s': Store)
    ensures s'.meetings == s.meetings && s'.nextId == s.nextId && s'.absences == s.absences
    ensures |s'.history| == |s.history| + |ms| && s'.history[..|s.history|] == s.history
    ensures forall k :: 0 <= k < |ms| ==> s'.history[|s.history| + k] == HistoryEntry(nickname, ms[k])
  {
    s.(history := s.history + EntriesFor(nickname, ms))
  }

  /** One history entry per membership, in order. */
  function EntriesFor(nickname: string, ms: seq<Membership>): (h: seq<HistoryEntry>)
    ensures |h| == |ms|
    ensures forall k :: 0 <= k < |ms| ==> h[k] == HistoryEntry(nickname, ms[k])
  {
    if ms == [] then []
    else
      assert forall k :: 0 < k < |ms| ==> ms[k] == ms[1..][k - 1];
      [HistoryEntry(nickname, ms[0])] + EntriesFor(nickname, ms[1..])
  }

  /** `INSERT INTO member_absent`. */
  function InsertAbsence(s: Store, a: Absence): (s': Store)
    ensures s'.meetings == s.meetings && s'.nextId == s.nextId && s'.history == s.history
    ensures multiset(s'.absences) == multiset(s.absences) + multiset{a}
  {
    s.(absences := s.absences + [a])
  }

  /** `Meeting.StoreNew`: the meeting gets the ID of the store's counter. */
  function StoreNewMeeting(s: Store, m: StoredMeeting): (r: (Store, nat))
    ensures r.1 == s.nextId && r.0.nextId == s.nextId + 1
    ensures r.0.meetings == s.meetings[s.nextId := m]
    ensures r.0.history == s.history && r.0.absences == s.absences
    ensures Valid(s) ==> Valid(r.0) && r.1 !in s.meetings
  {
    (s.(meetings := s.meetings[s.nextId := m], nextId := s.nextId + 1), s.nextId)
  }

  /** The attendance records `models.Attend` writes for `names`. */
  function AttendanceOf(names: seq<string>, at: Time): (r: seq<Attendance>)
    ensures |r| == |names|
    ensures forall k :: 0 <= k < |names| ==> r[k] == Attendance(names[k], true, at)
  {
    if names == [] then []
    else
      assert forall k :: 0 < k < |names| ==> names[k] == names[1..][k - 1];
      [Attendance(names[0], true, at)] + AttendanceOf(names[1..], at)
  }

  /** `models.Attend`: every name is recorded as present at time `at`. */
  function Attend(s: Store, id: nat, names: seq<string>, at: Time): (s': Store)
    ensures s'.nextId == s.nextId && s'.history == s.history && s'.absences == s.absences
    ensures s'.meetings.Keys == s.meetings.Keys
    ensures forall i :: i in s.meetings && i != id ==> s'.meetings[i] == s.meetings[i]
    ensures id in s.meetings ==>
      s'.meetings[id] == s.meetings[id].(attendance := s.meetings[id].attendance + AttendanceOf(names, at))
  {
    if id in s.meetings then
      var m := s.meetings[id];
      s.(meetings := s.meetings[id := m.(attendance := m.attendance + AttendanceOf(names, at))])
    else s
  }

  /** `models.ChangeMeetingStatus(..., MeetingConcluded, at)` for a meeting
      of committee `c`. */
  function ConcludeMeeting(s: Store, id: nat, c: CommitteeId, at: Time): (s': Store)
    ensures s'.nextId == s.nextId && s'.history == s.history && s'.absences == s.absences
    ensures s'.meetings.Keys == s.meetings.Keys
    ensures forall i :: i in s.meetings && i != id ==> s'.meetings[i] == s.meetings[i]
    ensures id in s.meetings && s.meetings[id].committee == c ==>
      s'.meetings[id] == s.meetings[id].(concludedAt := Some(at))
  {
    if id in s.meetings && s.meetings[id].committee == c then
      s.(meetings := s.meetings[id := s.meetings[id].(concludedAt := Some(at))])
    else s
  }
}

=== FILE: table.dfy ===
/** `loadCSV` without the file: the users block and the meeting columns of
    one committee table, read from the same record grid. */
module CommitteeTable {
  import opened Wrappers
  import opened Text
  import opened Models
  import Grid
  import UserTable
  import MeetingTable

  /** The `data` record of the import. */
  datatype Table = Table(
    users: seq<UserTable.UserSeed>,
    meetings: seq<MeetingTable.Meeting>,
    appearances: map<string, Time>,
    absences: map<string, seq<Time>>)

  datatype LoadError =
    | WrongFieldCount
    | UsersFailed(userError: UserTable.UserError)
    | MeetingsFailed(meetingError: MeetingTable.MeetingError)

  /** The CSV reader rejects a record whose field count differs from the
      first record's. The users are read next; the meetings are only read
      once the users were, so a grid with no rows fails on the users. */
  function LoadTable(records: Grid.Records, parseDate: string -> Option<Time>): (r: Result<Table, LoadError>)
    ensures r == Failure(WrongFieldCount) <==> !Grid.Rectangular(records)
    ensures Grid.Rectangular(records) && UserTable.ExtractUsers(records).Failure? ==>
      r == Failure(UsersFailed(UserTable.ExtractUsers(records).error))
    ensures Grid.Rectangular(records) && UserTable.ExtractUsers(records).Success?
            && MeetingTable.ExtractMeetings(records, parseDate).Failure? ==>
      r == Failure(MeetingsFailed(MeetingTable.ExtractMeetings(records, parseDate).error))
    ensures r.Success? ==>
      && UserTable.ExtractUsers(records) == Success(r.value.users)
      && MeetingTable.ExtractMeetings(records, parseDate).Success?
      && MeetingTable.ExtractMeetings(records, parseDate).value.meetings == r.value.meetings
      && MeetingTable.ExtractMeetings(records, parseDate).value.appearances == r.value.appearances
      && MeetingTable.ExtractMeetings(records, parseDate).value.absences == r.value.absences
    ensures r.Success? ==> MeetingTable.SortedByStart(r.value.meetings)
    ensures r.Success? ==> forall u :: u in r.value.users ==> u.name != "" && TrimSpace(u.name) == u.name
  {
    if !Grid.Rectangular(records) then Failure(WrongFieldCount)
    else
      match UserTable.ExtractUsers(records)
      case Failure(e) => Failure(UsersFailed(e))
      case Success(users) =>
        match MeetingTable.ExtractMeetings(records, parseDate)
        case Failure(e) => Failure(MeetingsFailed(e))
        case Success(d) => Success(Table(users, d.meetings, d.appearances, d.absences))
  }
}

=== FILE: text.dfy ===
/** The string operations of Go's `strings` package that the committee tools
    rely on, over `string` = `seq<char>` (one `char` per Unicode code point). */
module Text {

  /** Go's `unicode.IsSpace`: the Latin-1 spaces plus the other characters
      carrying the Unicode White_Space property. */
  predicate IsSpace(c: char) {
    || c == ' ' || c == '\t' || c == '\n' || c == '\r'
    || c == '\U{000B}' || c == '\U{000C}' || c == '\U{0085}' || c == '\U{00A0}'
    || c == '\U{1680}' || ('\U{2000}' <= c <= '\U{200A}')
    || c == '\U{2028}' || c == '\U{2029}' || c == '\U{202F}'
    || c == '\U{205F}' || c == '\U{3000}'
  }

  /** Drops leading white space. */
  function TrimLeft(s: string): (r: string)
    ensures |r| <= |s|
    ensures r == [] || !IsSpace(r[0])
  {
    if |s| > 0 && IsSpace(s[0]) then TrimLeft(s[1..]) else s
  }

  /** Drops trailing white space. */
  function TrimRight(s: string): (r: string)
    ensures |r| <= |s|
    ensures r == [] || !IsSpace(r[|r| - 1])
  {
    if |s| > 0 && IsSpace(s[|s| - 1]) then TrimRight(s[..|s| - 1]) else s
  }

  /** `TrimLeft` keeps a suffix and cuts off only white space. */
  lemma {:induction false} TrimLeftSuffix(s: string)
    ensures var r := TrimLeft(s);
            && r == s[|s| - |r|..]
            && forall i :: 0 <= i < |s| - |r| ==> IsSpace(s[i])
    decreases |s|
  {
    if |s| > 0 && IsSpace(s[0]) {
      TrimLeftSuffix(s[1..]);
    }
  }

  /** `TrimRight` keeps a prefix and cuts off only white space. */
  lemma {:induction false} TrimRightPrefix(s: string)
    ensures var r := TrimRight(s);
            && r == s[..|r|]
            && forall i :: |r| <= i < |s| ==> IsSpace(s[i])
    decreases |s|
  {
    if |s| > 0 && IsSpace(s[|s| - 1]) {
      TrimRightPrefix(s[..|s| - 1]);
    }
  }

  /** Go's `strings.TrimSpace`. */
  function TrimSpace(s: string): (r: string)
    ensures |r| <= |s|
    ensures r == [] || (!IsSpace(r[0]) && !IsSpace(r[|r| - 1]))
  {
    TrimRightPrefix(TrimLeft(s));
    TrimRight(TrimLeft(s))
  }

  /** Trimming keeps the longest infix of `s` that neither starts nor ends
      with white space, and cuts off nothing but white space. */
  lemma TrimSpaceInfix(s: string)
    ensures exists i, j :: 0 <= i <= j <= |s| && TrimSpace(s) == s[i..j]
                           && (forall k :: 0 <= k < i ==> IsSpace(s[k]))
                           && (forall k :: j <= k < |s| ==> IsSpace(s[k]))
  {
    var l := TrimLeft(s);
    var r := TrimRight(l);
    TrimLeftSuffix(s);
    TrimRightPrefix(l);
    assert r == s[|s| - |l|..|s| - |l| + |r|];
  }

  lemma TrimSpaceOfTrimmed(s: string)
    requires s == [] || (!IsSpace(s[0]) && !IsSpace(s[|s| - 1]))
    ensures TrimSpace(s) == s
  {
  }

  /** Trimming is idempotent. */
  lemma TrimSpaceIdempotent(s: string)
    ensures TrimSpace(TrimSpace(s)) == TrimSpace(s)
  {
    TrimSpaceOfTrimmed(TrimSpace(s));
  }

  /** The two letters outside ASCII whose lower case in `unicode.ToLower`
      is an ASCII letter: the capital I with dot above and the Kelvin
      sign. */
  const DottedCapitalI: char := '\U{0130}'
  const KelvinSign: char := '\U{212A}'

  /** `unicode.ToLower` on the letters whose lower case is ASCII; every
      other character outside `A`-`Z` is kept. */
  function LowerChar(c: char): (d: char)
    ensures 'A' <= c <= 'Z' ==> d as int == c as int + 32
    ensures c == DottedCapitalI ==> d == 'i'
    ensures c == KelvinSign ==> d == 'k'
    ensures !('A' <= c <= 'Z') && c != DottedCapitalI && c != KelvinSign ==> d == c
  {
    if 'A' <= c <= 'Z' then (c as int + 32) as char
    else if c == DottedCapitalI then 'i'
    else if c == KelvinSign then 'k'
    else c
  }

  function ToLower(s: string): (r: string)
    ensures |r| == |s|
    ensures forall i :: 0 <= i < |s| ==> r[i] == LowerChar(s[i])
  {
    if s == [] then []
    else
      assert forall i :: 0 < i < |s| ==> s[i] == s[1..][i - 1];
      [LowerChar(s[0])] + ToLower(s[1..])
  }

  /** A string that lower-cases `s` character by character is its
      lower-cased form. */
  lemma LowerCased(s: string, t: string)
    requires |t| == |s| && forall i :: 0 <= i < |s| ==> t[i] == LowerChar(s[i])
    ensures ToLower(s) == t
  {
  }

  lemma ToLowerIdempotent(s: string)
    ensures ToLower(ToLower(s)) == ToLower(s)
  {
  }

  /** Lower-casing never creates or removes white space, so it commutes
      with trimming. */
  lemma {:induction false} ToLowerTrimSpace(s: string)
    ensures ToLower(TrimSpace(s)) == TrimSpace(ToLower(s))
  {
    ToLowerTrimLeft(s);
    ToLowerTrimRight(TrimLeft(s));
  }

  /** Lower-casing neither creates nor removes white space. */
  lemma LowerCharSpace(c: char)
    ensures IsSpace(LowerChar(c)) == IsSpace(c)
  {
  }

  lemma {:induction false} ToLowerTrimLeft(s: string)
    ensures ToLower(TrimLeft(s)) == TrimLeft(ToLower(s))
    decreases |s|
  {
    if |s| > 0 {
      LowerCharSpace(s[0]);
      if IsSpace(s[0]) {
        assert ToLower(s)[1..] == ToLower(s[1..]);
        ToLowerTrimLeft(s[1..]);
      }
    }
  }

  lemma {:induction false} ToLowerTrimRight(s: string)
    ensures ToLower(TrimRight(s)) == TrimRight(ToLower(s))
    decreases |s|
  {
    if |s| > 0 {
      var t := ToLower(s);
      assert t[|s| - 1] == LowerChar(s[|s| - 1]);
      LowerCharSpace(s[|s| - 1]);
      if IsSpace(s[|s| - 1]) {
        assert t[..|s| - 1] == ToLower(s[..|s| - 1]);
        ToLowerTrimRight(s[..|s| - 1]);
      }
    }
  }

  /** `sub` occurs in `s` at position `i`. */
  predicate OccursAt(s: string, sub: string, i: int) {
    0 <= i && i + |sub| <= |s| && s[i..i + |sub|] == sub
  }

  /** Go's `strings.Contains`, searching from the front. */
  predicate Contains(s: string, sub: string)
    decreases |s|
  {
    (|sub| <= |s| && s[..|sub|] == sub) || (|s| > 0 && Contains(s[1..], sub))
  }

  lemma {:induction false} ContainsIffOccurs(s: string, sub: string)
    ensures Contains(s, sub) <==> exists i :: OccursAt(s, sub, i)
  {
    if Contains(s, sub) {
      ContainsWitness(s, sub);
    }
    if i :| OccursAt(s, sub, i) {
      OccursContains(s, sub, i);
    }
  }

  lemma {:induction false} ContainsWitness(s: string, sub: string)
    requires Contains(s, sub)
    ensures exists i :: OccursAt(s, sub, i)
    decreases |s|
  {
    if |sub| <= |s| && s[..|sub|] == sub {
      assert OccursAt(s, sub, 0);
    } else {
      ContainsWitness(s[1..], sub);
      var i :| OccursAt(s[1..], sub, i);
      assert OccursAt(s, sub, i + 1);
    }
  }

  lemma {:induction false} OccursContains(s: string, sub: string, i: int)
    requires OccursAt(s, sub, i)
    ensures Contains(s, sub)
    decreases i
  {
    if i > 0 {
      assert OccursAt(s[1..], sub, i - 1);
      OccursContains(s[1..], sub, i - 1);
    } else {
      assert s[..|sub|] == s[i..i + |sub|];
    }
  }

  /** The empty string occurs in every string. */
  lemma ContainsEmpty(s: string)
    ensures Contains(s, "")
  {
    assert s[..0] == "";
  }

  /** Nothing longer than `s` occurs in `s`. */
  lemma {:induction false} ContainsLength(s: string, sub: string)
    ensures Contains(s, sub) ==> |sub| <= |s|
    decreases |s|
  {
    if |s| > 0 {
      ContainsLength(s[1..], sub);
    }
  }

  /** Go's `strings.HasSuffix`. */
  predicate HasSuffix(s: string, suffix: string) {
    |suffix| <= |s| && s[|s| - |suffix|..] == suffix
  }

  /** The separator of Go's `strings.SplitSeq(s, ",")`. */
  const Comma: char := ','

  /** Index of the first comma in `s`, or `|s|` when there is none. */
  function FirstComma(s: string): (i: nat)
    ensures i <= |s|
    ensures i < |s| ==> s[i] == Comma
    ensures forall k :: 0 <= k < i ==> s[k] != Comma
    ensures i == |s| <==> Comma !in s
  {
    if |s| == 0 || s[0] == Comma then 0 else 1 + FirstComma(s[1..])
  }

  /** Go's `strings.SplitSeq(s, ",")`: the pieces between commas; an empty
      string yields one empty piece. */
  function Split(s: string): (parts: seq<string>)
    ensures |parts| >= 1
    ensures forall p :: p in parts ==> Comma !in p
    decreases |s|
  {
    var i := FirstComma(s);
    if i == |s| then [s] else [s[..i]] + Split(s[i + 1..])
  }

  /** The inverse of `Split`: the parts separated by single commas. */
  function Join(parts: seq<string>): string
    requires |parts| >= 1
  {
    if |parts| == 1 then parts[0] else parts[0] + [Comma] + Join(parts[1..])
  }

  /** Splitting loses nothing: joining the pieces rebuilds the input. */
  lemma {:induction false} JoinSplit(s: string)
    ensures Join(Split(s)) == s
    decreases |s|
  {
    var i := FirstComma(s);
    if i < |s| {
      JoinSplit(s[i + 1..]);
      JoinCons(s[..i], Split(s[i + 1..]));
      Rejoin(s, i);
    }
  }

  lemma JoinCons(a: string, rest: seq<string>)
    requires |rest| >= 1
    ensures Join([a] + rest) == a + [Comma] + Join(rest)
  {
    assert ([a] + rest)[1..] == rest;
  }

  lemma Rejoin(s: string, i: nat)
    requires i < |s| && s[i] == Comma
    ensures s == s[..i] + [Comma] + s[i + 1..]
  {
  }

  /** Joining comma-free pieces and splitting again gives the pieces back. */
  lemma {:induction false} SplitJoin(parts: seq<string>)
    requires |parts| >= 1
    requires forall p :: p in parts ==> Comma !in p
    ensures Split(Join(parts)) == parts
    decreases |parts|
  {
    if |parts| > 1 {
      var s := Join(parts);
      var rest := Join(parts[1..]);
      assert s == parts[0] + [Comma] + rest;
      FirstCommaOfJoin(parts[0], rest);
      assert s[..|parts[0]|] == parts[0];
      assert s[|parts[0]| + 1..] == rest;
      SplitJoin(parts[1..]);
    }
  }

  lemma {:induction false} FirstCommaOfJoin(a: string, b: string)
    requires Comma !in a
    ensures FirstComma(a + [Comma] + b) == |a|
    decreases |a|
  {
    if |a| > 0 {
      assert (a + [Comma] + b)[1..] == a[1..] + [Comma] + b;
      FirstCommaOfJoin(a[1..], b);
    }
  }
}

=== FILE: users.dfy ===
/** `extractUsers`: the leading status / role / name block of the committee
    table, one membership seed per complete row. */
module UserTable {
  import opened Wrappers
  import opened Text
  import opened Models
  import Grid

  /** A user as the table introduces them: the name written in the table
      and the status and role of their first membership. */
  datatype UserSeed = UserSeed(name: string, initialRole: Role, initialStatus: MemberStatus)

  datatype UserError =
    | NoUsers
    | NotEnoughUserInfos
    | UnknownStatus(status: string, name: string)
    | UnknownRole(role: string, name: string)

  /** The status column, already lower-cased. */
  function StatusOf(status: string): Option<MemberStatus> {
    if status == "voter" then Some(Voting)
    else if status == "non-voter" then Some(NoneVoting)
    else None
  }

  /** The role column, already lower-cased. */
  function RoleOf(role: string): Option<Role> {
    if role == "voting member" || role == "member" then Some(MemberRole)
    else if role == "chair" then Some(ChairRole)
    else if role == "secretary" then Some(SecretaryRole)
    else None
  }

  /** A row whose trimmed status, role and name are all non-empty; other
      rows are placeholders and are skipped. */
  predicate Complete(row: Grid.Row)
    requires |row| >= 3
  {
    TrimSpace(row[0]) != "" && TrimSpace(row[1]) != "" && TrimSpace(row[2]) != ""
  }

  /** A complete row whose status or role is not recognised. */
  predicate Unparsable(row: Grid.Row)
    requires |row| >= 3
  {
    Complete(row)
    && (StatusOf(ToLower(TrimSpace(row[0]))).None? || RoleOf(ToLower(TrimSpace(row[1]))).None?)
  }

  /** One user row: `None` for a placeholder row, the seed otherwise. */
  function ParseUserRow(row: Grid.Row): (r: Result<Option<UserSeed>, UserError>)
    requires |row| >= 3
    ensures r == Success(None) <==> !Complete(row)
    ensures r.Failure? <==> Unparsable(row)
    ensures r.Success? && r.value.Some? ==> r.value.value.name == TrimSpace(row[2]) != ""
  {
    var status := TrimSpace(row[0]);
    var role := TrimSpace(row[1]);
    var name := TrimSpace(row[2]);
    if status == "" || role == "" || name == "" then Success(None)
    else
      match StatusOf(ToLower(status))
      case None => Failure(UnknownStatus(status, name))
      case Some(st) =>
        var lowerRole := ToLower(role);
        if lowerRole == "voting member" then Success(Some(UserSeed(name, MemberRole, st)))
        else if lowerRole == "member" then Success(Some(UserSeed(name, MemberRole, NoneVoting)))
        else if lowerRole == "chair" then Success(Some(UserSeed(name, ChairRole, st)))
        else if lowerRole == "secretary" then Success(Some(UserSeed(name, SecretaryRole, st)))
        else Failure(UnknownRole(role, name))
  }

  /** What a complete row yields: its trimmed name; the role column's role;
      the status column's status, except that the role "member" always means
      a non-voting membership; and when the row is rejected, the status is
      checked before the role. */
  lemma UserRowRules(row: Grid.Row)
    requires |row| >= 3 && Complete(row)
    ensures var r := ParseUserRow(row);
            var status := ToLower(TrimSpace(row[0]));
            var role := ToLower(TrimSpace(row[1]));
            && (StatusOf(status).None? ==> r == Failure(UnknownStatus(TrimSpace(row[0]), TrimSpace(row[2]))))
            && (StatusOf(status).Some? && RoleOf(role).None? ==>
                  r == Failure(UnknownRole(TrimSpace(row[1]), TrimSpace(row[2]))))
            && (r.Success? ==>
                  && r.value.Some?
                  && r.value.value.name == TrimSpace(row[2]) != ""
                  && Some(r.value.value.initialRole) == RoleOf(role)
                  && (role == "member" ==> r.value.value.initialStatus == NoneVoting)
                  && (role != "member" ==> Some(r.value.value.initialStatus) == StatusOf(status)))
  {
    var status := ToLower(TrimSpace(row[0]));
    var role := ToLower(TrimSpace(row[1]));
    if StatusOf(status).None? {
    } else if RoleOf(role).None? {
    } else if role == "member" {
    } else {
    }
  }

  /** The capital I with dot above lower-cases to `i`, so "CHA\U{0130}R"
      names the chair role. */
  lemma DottedCapitalIChair()
    ensures ParseUserRow(["Voter", "CHA\U{0130}R", "Ann"]) == Success(Some(UserSeed("Ann", ChairRole, Voting)))
  {
    var row := ["Voter", "CHA\U{0130}R", "Ann"];
    TrimSpaceOfTrimmed(row[0]);
    TrimSpaceOfTrimmed(row[1]);
    TrimSpaceOfTrimmed(row[2]);
    LowerCased(row[0], "voter");
    LowerCased(row[1], "chair");
    KeywordRow(row, "Voter", "CHA\U{0130}R", "Ann");
  }

  /** A row whose trimmed cells are themselves and whose status and role
      lower-case to "voter" and "chair". */
  lemma KeywordRow(row: Grid.Row, status: string, role: string, name: string)
    requires row == [status, role, name] && name != ""
    requires TrimSpace(status) == status && TrimSpace(role) == role && TrimSpace(name) == name
    requires ToLower(status) == "voter" && ToLower(role) == "chair"
    ensures ParseUserRow(row) == Success(Some(UserSeed(name, ChairRole, Voting)))
  {
  }

  /** A row that stops the extraction: too short, or complete but with an
      unknown status or role. */
  predicate Rejected(row: Grid.Row) {
    |row| < 3 || Unparsable(row)
  }

  /** The seed of a row that is complete and parsable. */
  function SeedOf(row: Grid.Row): UserSeed
    requires |row| >= 3 && Complete(row) && !Unparsable(row)
  {
    ParseUserRow(row).value.value
  }

  /** The user rows below the header, in order; the first rejected row ends
      the extraction with its error. */
  function ParseUserRows(rows: Grid.Records): (r: Result<seq<UserSeed>, UserError>)
    ensures r.Success? ==> forall s :: s in r.value ==> s.name != "" && TrimSpace(s.name) == s.name
  {
    if rows == [] then Success([])
    else if |rows[0]| < 3 then Failure(NotEnoughUserInfos)
    else
      var head :- ParseUserRow(rows[0]);
      var tail :- ParseUserRows(rows[1..]);
      if head.Some? then
        TrimSpaceIdempotent(rows[0][2]);
        Success([head.value] + tail)
      else Success(tail)
  }

  /** `extractUsers`: the header row is skipped; a table with fewer than two
      rows holds no users and is an error. */
  function ExtractUsers(records: Grid.Records): (r: Result<seq<UserSeed>, UserError>)
    ensures |records| < 2 ==> r == Failure(NoUsers)
    ensures r.Success? ==> forall s :: s in r.value ==> s.name != "" && TrimSpace(s.name) == s.name
  {
    if |records| < 2 then Failure(NoUsers) else ParseUserRows(records[1..])
  }

  /** The extraction fails exactly when the table has no user rows or one of
      its user rows is rejected. */
  lemma ExtractUsersFailure(records: Grid.Records)
    ensures ExtractUsers(records).Failure? <==>
      |records| < 2 || exists j :: 1 <= j < |records| && Rejected(records[j])
  {
    if |records| >= 2 {
      ParseUserRowsFailure(records[1..]);
      if exists j :: 1 <= j < |records| && Rejected(records[j]) {
        var j :| 1 <= j < |records| && Rejected(records[j]);
        assert records[1..][j - 1] == records[j];
      }
    }
  }

  lemma {:induction false} ParseUserRowsFailure(rows: Grid.Records)
    ensures ParseUserRows(rows).Failure? <==> exists j :: 0 <= j < |rows| && Rejected(rows[j])
    decreases |rows|
  {
    if rows != [] {
      ParseUserRowsFailure(rows[1..]);
      ParseUserRowsStep(rows);
      RejectedShift(rows);
    }
  }

  lemma ParseUserRowsStep(rows: Grid.Records)
    requires rows != []
    ensures ParseUserRows(rows).Failure? <==> Rejected(rows[0]) || ParseUserRows(rows[1..]).Failure?
  {
  }

  lemma RejectedShift(rows: Grid.Records)
    requires rows != []
    ensures (exists j :: 0 <= j < |rows| && Rejected(rows[j])) <==>
      Rejected(rows[0]) || exists j :: 0 <= j < |rows[1..]| && Rejected(rows[1..][j])
  {
    if j :| 1 <= j < |rows| && Rejected(rows[j]) {
      assert Rejected(rows[1..][j - 1]);
    }
    if j :| 0 <= j < |rows[1..]| && Rejected(rows[1..][j]) {
      assert Rejected(rows[j + 1]);
    }
  }

  /** A row with fewer than three cells is fatal even when every row above
      it is a placeholder. */
  lemma ShortUserRowIsFatal(records: Grid.Records, j: nat)
    requires 1 <= j < |records| && |records[j]| < 3
    ensures ExtractUsers(records).Failure?
  {
    ExtractUsersFailure(records);
  }

  /** A single user row on its own: a complete row gives its seed, a
      placeholder gives nothing. */
  lemma OneUserRow(row: Grid.Row)
    ensures ParseUserRows([row]).Failure? <==> Rejected(row)
    ensures !Rejected(row) ==>
      ParseUserRows([row]).value == if Complete(row) then [SeedOf(row)] else []
  {
    assert [row][1..] == [];
  }

  /** Seeds keep row order: the seeds of two blocks of rows are the seeds of
      the first block followed by those of the second, and the first error
      in row order is the one reported. */
  lemma {:induction false} ParseUserRowsAppend(a: Grid.Records, b: Grid.Records)
    ensures ParseUserRows(a + b) ==
      match ParseUserRows(a)
      case Failure(e) => Failure(e)
      case Success(x) =>
        match ParseUserRows(b)
        case Failure(e) => Failure(e)
        case Success(y) => Success(x + y)
    decreases |a|
  {
    if a == [] {
      assert a + b == b;
      assert ParseUserRows(a) == Success([]);
      if ParseUserRows(b).Success? {
        assert [] + ParseUserRows(b).value == ParseUserRows(b).value;
      }
    } else {
      assert (a + b)[0] == a[0];
      assert (a + b)[1..] == a[1..] + b;
      ParseUserRowsAppend(a[1..], b);
      if |a[0]| < 3 {
      } else if ParseUserRow(a[0]).Failure? {
      } else if ParseUserRows(a[1..]).Failure? {
      } else if ParseUserRows(b).Failure? {
      } else if ParseUserRow(a[0]).value.Some? {
        var x := ParseUserRow(a[0]).value.value;
        assert [x] + (ParseUserRows(a[1..]).value + ParseUserRows(b).value)
            == ([x] + ParseUserRows(a[1..]).value) + ParseUserRows(b).value;
      }
    }
  }

  /** Status and role are matched without regard to case: lower-casing the
      two columns changes neither the outcome nor the seed. */
  lemma UserRowIgnoresCase(row: Grid.Row)
    requires |row| >= 3
    ensures var lowered := [ToLower(row[0]), ToLower(row[1])] + row[2..];
            && ParseUserRow(lowered).Success? == ParseUserRow(row).Success?
            && (ParseUserRow(row).Success? ==> ParseUserRow(lowered).value == ParseUserRow(row).value)
  {
    var lowered := [ToLower(row[0]), ToLower(row[1])] + row[2..];
    LowerTrimmedColumn(row[0]);
    LowerTrimmedColumn(row[1]);
    assert lowered[0] == ToLower(row[0]) && lowered[1] == ToLower(row[1]) && lowered[2] == row[2];
    SameColumnsSameSeed(lowered, row);
  }

  /** Two rows whose trimmed columns agree, status and role up to case,
      parse alike. */
  lemma SameColumnsSameSeed(a: Grid.Row, b: Grid.Row)
    requires |a| >= 3 && |b| >= 3
    requires (TrimSpace(a[0]) == "") == (TrimSpace(b[0]) == "") && (TrimSpace(a[1]) == "") == (TrimSpace(b[1]) == "")
    requires ToLower(TrimSpace(a[0])) == ToLower(TrimSpace(b[0])) && ToLower(TrimSpace(a[1])) == ToLower(TrimSpace(b[1]))
    requires TrimSpace(a[2]) == TrimSpace(b[2])
    ensures ParseUserRow(a).Success? == ParseUserRow(b).Success?
    ensures ParseUserRow(a).Success? ==> ParseUserRow(a).value == ParseUserRow(b).value
  {
    if Complete(a) {
      var status := ToLower(TrimSpace(a[0]));
      var role := ToLower(TrimSpace(a[1]));
      if StatusOf(status).None? {
      } else if RoleOf(role).None? {
      } else {
        UserRowRules(a);
        UserRowRules(b);
      }
    }
  }

  lemma LowerTrimmedColumn(s: string)
    ensures ToLower(TrimSpace(ToLower(s))) == ToLower(TrimSpace(s))
    ensures (TrimSpace(ToLower(s)) == "") == (TrimSpace(s) == "")
  {
    ToLowerTrimSpace(s);
    ToLowerIdempotent(TrimSpace(s));
  }
}

=== FILE: webuser.dfy ===
/** The decisions the user pages of the web interface take before they touch
    the database: whether a profile form changes the password and whether
    the user record is written at all, which users a delete request may
    remove, whether a new user can be created, and how the ticked
    `role_committee` boxes group into memberships. Requests, templates,
    sessions and the database calls themselves are not modelled. */
module WebUser {
  import opened Wrappers
  import opened Text
  import Identity

  /** The fields of a user that the profile forms edit. */
  datatype Account = Account(firstname: string, lastname: string, password: string)

  /** The submitted profile form, as typed. */
  datatype ProfileForm = ProfileForm(firstname: string, lastname: string, password: string, password2: string)

  const MinPasswordLength: nat := 8
  const MismatchMessage: string := "Password and confirmation do not match."
  const TooShortMessage: string := "Password too short (need at least 8 characters)"

  datatype PasswordDecision = Mismatch | TooShort | SetPassword(password: string) | KeepPassword

  /** The password `switch`: on the trimmed inputs, a mismatch is reported
      before a password that is too short; an empty password changes
      nothing. Lengths count code points. */
  function DecidePassword(password: string, confirm: string): (d: PasswordDecision)
    ensures d == KeepPassword <==> password == ""
    ensures d == Mismatch <==> password != "" && password != confirm
    ensures d == TooShort <==> password != "" && password == confirm && |password| < MinPasswordLength
    ensures d.SetPassword? <==> password != "" && password == confirm && |password| >= MinPasswordLength
    ensures d.SetPassword? ==> d.password == password
  {
    if password != "" && password != confirm then Mismatch
    else if password != "" && |password| < MinPasswordLength then TooShort
    else if password != "" then SetPassword(password)
    else KeepPassword
  }

  function PasswordMessage(d: PasswordDecision): Option<string> {
    match d
    case Mismatch => Some(MismatchMessage)
    case TooShort => Some(TooShortMessage)
    case _ => None
  }

  /** `change(&field, value)`: the field takes the value, and the change is
      noted when it differs. */
  function Change(current: string, value: string): (string, bool) {
    (value, current != value)
  }

  /** What a profile submission leaves behind: the edited account, the
      error shown, and whether `user.Store` is called. */
  datatype ProfileOutcome = ProfileOutcome(account: Account, error: Option<string>, store: bool)

  /** `userStore` and `userEditStore` after the user is at hand: the names
      are always taken over, the password only when the switch accepts it,
      and the record is written only when something changed. */
  function StoreProfile(a: Account, form: ProfileForm): (r: ProfileOutcome)
    ensures r.account.firstname == TrimSpace(form.firstname) && r.account.lastname == TrimSpace(form.lastname)
    ensures var d := DecidePassword(TrimSpace(form.password), TrimSpace(form.password2));
      && r.error == PasswordMessage(d)
      && r.account.password == (if d.SetPassword? then TrimSpace(form.password) else a.password)
    ensures r.store <==> r.account != a
  {
    var (first, c1) := Change(a.firstname, TrimSpace(form.firstname));
    var (last, c2) := Change(a.lastname, TrimSpace(form.lastname));
    var d := DecidePassword(TrimSpace(form.password), TrimSpace(form.password2));
    var (password, c3) := if d.SetPassword? then Change(a.password, d.password) else (a.password, false);
    ProfileOutcome(Account(first, last, password), PasswordMessage(d), c1 || c2 || c3)
  }

  /** An empty password, whatever the confirmation, changes neither the
      password nor produces an error. */
  lemma EmptyPasswordKeeps(a: Account, form: ProfileForm)
    requires TrimSpace(form.password) == ""
    ensures StoreProfile(a, form).account.password == a.password
    ensures StoreProfile(a, form).error.None?
  {
  }

  /** A rejected password still lets changed names through to the store. */
  lemma RejectedPasswordStoresNames(a: Account, form: ProfileForm)
    requires StoreProfile(a, form).error.Some?
    ensures StoreProfile(a, form).account.password == a.password
    ensures StoreProfile(a, form).store <==>
      a.firstname != TrimSpace(form.firstname) || a.lastname != TrimSpace(form.lastname)
  {
  }

  /** Submitting the same form a second time stores nothing: the first
      submission already made every change it asks for. */
  lemma StoreProfileIdempotent(a: Account, form: ProfileForm)
    ensures var r := StoreProfile(a, form);
      && StoreProfile(r.account, form).account == r.account
      && !StoreProfile(r.account, form).store
      && StoreProfile(r.account, form).error == r.error
  {
  }

  /** The users a delete request may not remove: the administrator and the
      user asking. */
  predicate Protected(u: string, me: string) {
    u == "admin" || u == me
  }

  /** `slices.DeleteFunc` with the protection test: the listed users minus
      the protected ones, in the order listed. */
  function DeleteList(users: seq<string>, me: string): (r: seq<string>)
    ensures forall u :: u in r ==> !Protected(u, me)
    decreases |users|
  {
    if users == [] then [] else Kept(users[0], me) + DeleteList(users[1..], me)
  }

  /** The part of the list `[u]` the filter keeps. */
  function Kept(u: string, me: string): seq<string> {
    if Protected(u, me) then [] else [u]
  }

  /** Every user that may be removed stays in the list as often as it was
      listed; the protected ones are gone. */
  lemma {:induction false} DeleteListCounts(users: seq<string>, me: string)
    ensures forall u :: multiset(DeleteList(users, me))[u] == if Protected(u, me) then 0 else multiset(users)[u]
    decreases |users|
  {
    if users != [] {
      DeleteListCounts(users[1..], me);
      assert users == [users[0]] + users[1..];
      assert multiset(DeleteList(users, me)) == multiset(Kept(users[0], me)) + multiset(DeleteList(users[1..], me));
    }
  }

  /** The filter keeps the order: it distributes over concatenation. */
  lemma {:induction false} DeleteListAppend(a: seq<string>, b: seq<string>, me: string)
    ensures DeleteList(a + b, me) == DeleteList(a, me) + DeleteList(b, me)
    decreases |a|
  {
    if a == [] {
      assert a + b == b;
    } else {
      assert (a + b)[0] == a[0];
      assert (a + b)[1..] == a[1..] + b;
      DeleteListAppend(a[1..], b, me);
      var head := Kept(a[0], me);
      assert head + (DeleteList(a[1..], me) + DeleteList(b, me)) == (head + DeleteList(a[1..], me)) + DeleteList(b, me);
    }
  }

  /** Filtering a filtered list changes nothing. */
  lemma {:induction false} DeleteListIdempotent(users: seq<string>, me: string)
    ensures DeleteList(DeleteList(users, me), me) == DeleteList(users, me)
    decreases |users|
  {
    if users != [] {
      var head := Kept(users[0], me);
      DeleteListAppend(head, DeleteList(users[1..], me), me);
      DeleteListIdempotent(users[1..], me);
      if head != [] {
        assert head[1..] == [];
        assert DeleteList(head, me) == head + DeleteList([], me);
      }
    }
  }

  /** `usersStore`: a delete is issued only when the `delete` field is set
      and some listed user may be removed, and then for exactly those
      users. */
  function DeleteRequest(deleteField: string, users: seq<string>, me: string): (r: Option<seq<string>>)
    ensures r.Some? <==> deleteField != "" && exists u :: u in users && !Protected(u, me)
    ensures r.Some? ==> r.value == DeleteList(users, me)
  {
    var list := DeleteList(users, me);
    DeleteListCounts(users, me);
    if deleteField == "" then None
    else if |list| > 0 then
      assert list[0] in multiset(list);
      Some(list)
    else
      assert forall u :: u in users && !Protected(u, me) ==> u in multiset(list);
      None
  }

  /** The new-user form, as typed. */
  datatype CreateForm = CreateForm(nickname: string, firstname: string, lastname: string, admin: string)

  /** The `models.User` handed to `StoreNew`. */
  datatype NewUser = NewUser(nickname: string, firstname: Option<string>, lastname: Option<string>, isAdmin: bool)

  datatype CreateError = LoginNameMissing | AlreadyExists(nickname: string)

  const LoginNameMissingMessage: string := "Login name is missing."

  /** `nilString`: an empty string is stored as no value. */
  function NilString(s: string): (r: Option<string>)
    ensures Identity.EmptyString(r) == s
    ensures r.None? <==> s == ""
  {
    if s == "" then None else Some(s)
  }

  /** `userCreateStore`: a missing login name is reported without storing;
      otherwise `storeNew` tries to insert the user and says whether the
      nickname was still free. */
  function CreateUser(form: CreateForm, storeNew: NewUser -> bool): (r: Result<NewUser, CreateError>)
    ensures r == Failure(LoginNameMissing) <==> TrimSpace(form.nickname) == ""
    ensures r.Success? ==>
      && r.value.nickname == TrimSpace(form.nickname)
      && Identity.EmptyString(r.value.firstname) == TrimSpace(form.firstname)
      && Identity.EmptyString(r.value.lastname) == TrimSpace(form.lastname)
      && (r.value.isAdmin <==> form.admin == "admin")
      && storeNew(r.value)
    ensures r.Failure? && r.error.AlreadyExists? ==> r.error.nickname == TrimSpace(form.nickname) != ""
    ensures TrimSpace(form.nickname) != "" ==>
      (r.Success? <==> storeNew(NewUser(TrimSpace(form.nickname), NilString(TrimSpace(form.firstname)),
                                        NilString(TrimSpace(form.lastname)), form.admin == "admin")))
  {
    var user := NewUser(TrimSpace(form.nickname), NilString(TrimSpace(form.firstname)),
                        NilString(TrimSpace(form.lastname)), form.admin == "admin");
    if user.nickname == "" then Failure(LoginNameMissing)
    else if !storeNew(user) then Failure(AlreadyExists(user.nickname))
    else Success(user)
  }

  /** Without a login name nothing is stored: the outcome does not depend
      on what `StoreNew` would do. */
  lemma MissingNameStoresNothing(form: CreateForm, s1: NewUser -> bool, s2: NewUser -> bool)
    requires TrimSpace(form.nickname) == ""
    ensures CreateUser(form, s1) == CreateUser(form, s2) == Failure(LoginNameMissing)
  {
  }

  /** The message the form shows for a failed creation; `quote` is Go's
      `%q` verb, which writes the nickname as a quoted string literal. */
  function CreateErrorMessage(e: CreateError, quote: string -> string): string {
    match e
    case LoginNameMissing => LoginNameMissingMessage
    case AlreadyExists(nickname) => "User " + quote(nickname) + " already exists."
  }

  /** The two messages cannot be confused, and as long as quoting keeps
      nicknames apart, the message of a taken nickname names it. */
  lemma CreateErrorMessageNamesUser(n1: string, n2: string, quote: string -> string)
    requires forall a, b :: quote(a) == quote(b) ==> a == b
    ensures CreateErrorMessage(AlreadyExists(n1), quote) != CreateErrorMessage(LoginNameMissing, quote)
    ensures CreateErrorMessage(AlreadyExists(n1), quote) == CreateErrorMessage(AlreadyExists(n2), quote) ==> n1 == n2
  {
    var m1 := CreateErrorMessage(AlreadyExists(n1), quote);
    var m2 := CreateErrorMessage(AlreadyExists(n2), quote);
    assert m1[0] == 'U' && LoginNameMissingMessage[0] == 'L';
    if m1 == m2 {
      assert |quote(n1)| == |quote(n2)|;
      assert m1[5..5 + |quote(n1)|] == quote(n1);
      assert m2[5..5 + |quote(n2)|] == quote(n2);
    }
  }

  // The `role_committee` boxes.

  predicate IsDigit(c: char) {
    '0' <= c <= '9'
  }

  /** The length of the run of decimal digits `s` starts with. */
  function DigitRun(s: string): (n: nat)
    ensures n <= |s|
    ensures forall k :: 0 <= k < n ==> IsDigit(s[k])
    ensures n == |s| || !IsDigit(s[n])
  {
    if s == [] || !IsDigit(s[0]) then 0 else 1 + DigitRun(s[1..])
  }

  predicate StartsAt(s: string, i: nat, word: string) {
    i + |word| <= |s| && s[i..i + |word|] == word
  }

  /** The run of digits that starts at position `j`. */
  function DigitsAt(s: string, j: nat): (digits: string)
    requires j <= |s|
    ensures forall k :: 0 <= k < |digits| ==> IsDigit(digits[k])
  {
    s[j..][..DigitRun(s[j..])]
  }

  /** The match of `(member|manager)(\d+)` starting at position `i`, as its
      two groups: the first alternative that matches, then as many digits
      as follow (at least one). */
  function MatchAt(s: string, i: nat): (r: Option<(string, string)>)
    requires i <= |s|
    ensures r.Some? ==> r.value.0 in {"member", "manager"} && StartsAt(s, i, r.value.0)
    ensures r.Some? ==> r.value.1 != [] && r.value.1 == DigitsAt(s, i + |r.value.0|)
    ensures StartsAt(s, i, "member") && DigitsAt(s, i + 6) != [] ==> r == Some(("member", DigitsAt(s, i + 6)))
    ensures StartsAt(s, i, "manager") && DigitsAt(s, i + 7) != [] ==> r == Some(("manager", DigitsAt(s, i + 7)))
  {
    assert StartsAt(s, i, "manager") ==> s[i + 1] == 'a' && !StartsAt(s, i, "member");
    var word := if StartsAt(s, i, "member") then "member" else if StartsAt(s, i, "manager") then "manager" else "";
    if word == "" then None
    else
      var digits := DigitsAt(s, i + |word|);
      if digits == [] then None else Some((word, digits))
  }

  /** The position of the leftmost match at or after `i`, or `|s| + 1` when
      there is none. */
  function Leftmost(s: string, i: nat): (j: nat)
    requires i <= |s|
    ensures i <= j <= |s| + 1
    ensures j <= |s| ==> MatchAt(s, j).Some?
    ensures forall k :: i <= k < j && k <= |s| ==> MatchAt(s, k).None?
    decreases |s| - i
  {
    if MatchAt(s, i).Some? then i
    else if i == |s| then |s| + 1
    else Leftmost(s, i + 1)
  }

  /** `FindStringSubmatch`: the two groups of the leftmost match. */
  function FindSubmatch(s: string): (r: Option<(string, string)>)
    ensures r.None? <==> forall j :: 0 <= j <= |s| ==> MatchAt(s, j).None?
    ensures r.Some? ==> exists j :: 0 <= j <= |s| && MatchAt(s, j) == r && forall k :: 0 <= k < j ==> MatchAt(s, k).None?
  {
    var j := Leftmost(s, 0);
    if j <= |s| then MatchAt(s, j) else None
  }

  function DigitValue(c: char): nat
    requires IsDigit(c)
  {
    c as int - '0' as int
  }

  /** The value of a string of decimal digits. */
  function Decimal(digits: string): nat
    requires forall k :: 0 <= k < |digits| ==> IsDigit(digits[k])
  {
    if digits == [] then 0
    else 10 * Decimal(digits[..|digits| - 1]) + DigitValue(digits[|digits| - 1])
  }

  const MaxInt64: int := 0x7fff_ffff_ffff_ffff

  /** `strconv.ParseInt(digits, 10, 64)` on a run of digits: it fails only
      when the value does not fit into 64 bits. */
  function ParseInt64(digits: string): (r: Option<int>)
    requires forall k :: 0 <= k < |digits| ==> IsDigit(digits[k])
    ensures r.Some? <==> Decimal(digits) <= MaxInt64
    ensures r.Some? ==> r.value == Decimal(digits)
  {
    if Decimal(digits) <= MaxInt64 then Some(Decimal(digits)) else None
  }

  /** One box: its role and committee ID, or nothing when the pattern, the
      role or the number does not parse. */
  function ParseBox<R>(box: string, parseRole: string -> Option<R>): (r: Option<(R, int)>)
    ensures r.Some? ==> 0 <= r.value.1 <= MaxInt64
    ensures r.Some? <==>
      && FindSubmatch(box).Some?
      && parseRole(FindSubmatch(box).value.0).Some?
      && Decimal(FindSubmatch(box).value.1) <= MaxInt64
    ensures r.Some? ==>
      r.value == (parseRole(FindSubmatch(box).value.0).value, Decimal(FindSubmatch(box).value.1))
  {
    var m :- FindSubmatch(box);
    var role :- parseRole(m.0);
    var id :- ParseInt64(m.1);
    Some((role, id))
  }

  /** A box such as `member42` is accepted when its role word parses. */
  lemma MemberBox<R>(parseRole: string -> Option<R>)
    requires parseRole("member").Some?
    ensures ParseBox("member42", parseRole) == Some((parseRole("member").value, 42))
  {
    var s := "member42";
    assert StartsAt(s, 0, "member");
    assert s[6..] == "42" && DigitRun("42") == 2 && "42"[..2] == "42";
    assert MatchAt(s, 0) == Some(("member", "42"));
    assert FindSubmatch(s) == Some(("member", "42"));
    assert Decimal("42") == 42 by {
      assert "42"[..1] == "4" && "4"[..0] == [];
    }
  }

  /** `ParseBox` as a function value, so that the grouping can be stated
      for any way of reading a box. */
  function BoxParser<R>(parseRole: string -> Option<R>): string -> Option<(R, int)> {
    box => ParseBox(box, parseRole)
  }

  /** The roles the parsed box `p` contributes to committee `id`. */
  function RoleOf<R>(p: Option<(R, int)>, id: int): seq<R> {
    if p.Some? && p.value.1 == id then [p.value.0] else []
  }

  /** The roles of the boxes naming committee `id`, in submission order. */
  function RolesFor<R>(boxes: seq<string>, id: int, parse: string -> Option<(R, int)>): seq<R>
  {
    if boxes == [] then [] else RoleOf(parse(boxes[0]), id) + RolesFor(boxes[1..], id, parse)
  }

  function Roles<R>(m: map<int, seq<R>>, id: int): seq<R> {
    if id in m then m[id] else []
  }

  /** The memberships after the parsed box `p`: its role is appended to
      the membership of its committee, which is created on first sight. */
  function AddBox<R>(acc: map<int, seq<R>>, p: Option<(R, int)>): map<int, seq<R>> {
    if p.None? then acc else acc[p.value.1 := Roles(acc, p.value.1) + [p.value.0]]
  }

  /** The grouping loop; boxes that do not parse are skipped. */
  function Group<R>(acc: map<int, seq<R>>, boxes: seq<string>, parse: string -> Option<(R, int)>): (r: map<int, seq<R>>)
    ensures forall id :: id in acc ==> id in r && acc[id] <= r[id]
    ensures forall id :: id in r && id !in acc ==>
      r[id] != [] && exists k :: 0 <= k < |boxes| && parse(boxes[k]) == Some((r[id][0], id))
    decreases |boxes|
  {
    if boxes == [] then acc
    else
      var acc1 := AddBox(acc, parse(boxes[0]));
      var r := Group(acc1, boxes[1..], parse);
      GroupStep(acc, acc1, r, boxes, parse);
      r
  }

  /** The induction step of `Group`'s contract, for the first box. */
  lemma GroupStep<R>(acc: map<int, seq<R>>, acc1: map<int, seq<R>>, r: map<int, seq<R>>,
                     boxes: seq<string>, parse: string -> Option<(R, int)>)
    requires boxes != [] && acc1 == AddBox(acc, parse(boxes[0]))
    requires forall id :: id in acc1 ==> id in r && acc1[id] <= r[id]
    requires forall id :: id in r && id !in acc1 ==>
      r[id] != [] && exists k :: 0 <= k < |boxes[1..]| && parse(boxes[1..][k]) == Some((r[id][0], id))
    ensures forall id :: id in acc ==> id in r && acc[id] <= r[id]
    ensures forall id :: id in r && id !in acc ==>
      r[id] != [] && exists k :: 0 <= k < |boxes| && parse(boxes[k]) == Some((r[id][0], id))
  {
    var p := parse(boxes[0]);
    forall id | id in acc ensures id in r && acc[id] <= r[id] {
      assert acc[id] <= acc1[id];
    }
    forall id | id in r && id !in acc
      ensures r[id] != [] && exists k :: 0 <= k < |boxes| && parse(boxes[k]) == Some((r[id][0], id))
    {
      if id in acc1 {
        assert acc1[id] == [p.value.0] && p.value.1 == id;
        assert r[id][0] == acc1[id][0];
        assert parse(boxes[0]) == Some((r[id][0], id));
      } else {
        var k :| 0 <= k < |boxes[1..]| && parse(boxes[1..][k]) == Some((r[id][0], id));
        assert boxes[k + 1] == boxes[1..][k];
      }
    }
  }

  /** Grouping appends, for every committee, the roles of its boxes in
      submission order, and a committee gets a membership exactly when it
      had one or some box names it. */
  lemma {:induction false} GroupRoles<R>(acc: map<int, seq<R>>, boxes: seq<string>, parse: string -> Option<(R, int)>, id: int)
    ensures Roles(Group(acc, boxes, parse), id) == Roles(acc, id) + RolesFor(boxes, id, parse)
    ensures id in Group(acc, boxes, parse) <==> id in acc || RolesFor(boxes, id, parse) != []
    decreases |boxes|
  {
    if boxes == [] {
      assert Roles(acc, id) + [] == Roles(acc, id);
    } else {
      var p := parse(boxes[0]);
      GroupRoles(AddBox(acc, p), boxes[1..], parse, id);
      AddBoxRoles(acc, p, id, RolesFor(boxes[1..], id, parse));
    }
  }

  /** The induction step of `GroupRoles`, for one box. */
  lemma AddBoxRoles<R>(acc: map<int, seq<R>>, p: Option<(R, int)>, id: int, later: seq<R>)
    ensures Roles(AddBox(acc, p), id) + later == Roles(acc, id) + (RoleOf(p, id) + later)
    ensures (id in AddBox(acc, p) || later != []) <==> (id in acc || RoleOf(p, id) + later != [])
  {
  }

  /** `userCommitteesStore`: one membership per committee named by some
      box, never an empty one. */
  function Memberships<R>(boxes: seq<string>, parseRole: string -> Option<R>): (r: map<int, seq<R>>)
    ensures forall id :: id in r <==> RolesFor(boxes, id, BoxParser(parseRole)) != []
    ensures forall id :: id in r ==> r[id] == RolesFor(boxes, id, BoxParser(parseRole))
  {
    var r := Group(map[], boxes, BoxParser(parseRole));
    forall id ensures Roles(r, id) == RolesFor(boxes, id, BoxParser(parseRole))
      && (id in r <==> RolesFor(boxes, id, BoxParser(parseRole)) != []) {
      GroupRoles(map[], boxes, BoxParser(parseRole), id);
    }
    r
  }
}

=== FILE: wrappers.dfy ===
/** Failure-compatible wrappers used throughout the model: `Option` for Go's
    nil/absent values and `Result` for the `(value, error)` pairs that the
    committee tools return. */
module Wrappers {

  datatype Option<+T> = None | Some(value: T) {

    predicate IsFailure() {
      None?
    }

    function PropagateFailure<U>(): Option<U>
      requires None?
    {
      None
    }

    function Extract(): T
      requires Some?
    {
      value
    }
  }

  datatype Result<+R, +E> = Success(value: R) | Failure(error: E) {

    predicate IsFailure() {
      Failure?
    }

    function PropagateFailure<U>(): Result<U, E>
      requires Failure?
    {
      Failure(error)
    }

    function Extract(): R
      requires Success?
    {
      value
    }
  }
}
